=== FILE: README.md ===
# Faultline Fear asset tools, modelled in Dafny

This project models the parts of the Faultline Fear content pipeline that carry
real logic. It states their behaviour as Dafny contracts and lemmas, and proves
them.

- **Terrain generators.** These are the three Blender scripts that turn noise
  into height fields and meshes.
  - `generate_dream_terrain.py` builds one world-sized terrain. It layers
    domain-warped fBm, adds named mountain ranges with sub-peaks, carves river
    valleys, sinks the world edge below the water and keeps the spawn area dry.
  - `generate_epic_terrain.py` builds a normalised heightmap from fBm, ridged
    multifractal, swiss turbulence, Voronoi ridges and five dramatic peaks. It
    then meshes it, places cliff rocks on steep interior cells and places
    ancient ruins on gentle ground.
  - `generate_terrain.py` builds one island mountain per configured entry, plus
    river ribbons along waypoint lists.
- **Shared terrain pieces.** The fractal-noise loops (modules `Noise` and
  `Combine`) and the grid tessellation (module `Grid`) are modelled once and
  shared by all three generators. The generators differ only in how they call
  them.
- **Asset naming.** `generate-all-assets.py` normalises exported file names and
  plans the `Category_AssetName.fbx` copies.
- **Uploaders.**
  - `upload-assets-to-roblox.py` fixes up the JWT padding, polls operations,
    extracts asset IDs and merges them into the saved ID map. It never
    overwrites an ID.
  - `upload-fbx-to-roblox.py` filters `.fbx` files and builds `Structures_`
    display names. It keeps the uploads that returned an operation path, then
    classifies each operation's final status.
- **FBX inspector.** `inspect_fbx.py` classifies the header as binary or
  ASCII. It scans for every `Vertices` marker, reads 12-byte float triples in a
  window after each marker, and reports the largest bounding-box dimension.

## Foreign calls

Foreign calls are parameters of the model, never built in:

- **Numeric functions.** Blender's `mathutils.noise.noise`, `math.sqrt`,
  fractional powers, `sin`/`cos` and Python's string `hash` are function fields
  of `Numeric.Env`. Each proof assumes only the facts it needs: noise in
  [-1, 1], `sqrt` of a square, a power bounded relative to 1 (in [0, 1]
  for a base ≤ 1, at least 1 for a base ≥ 1), cos² + sin² = 1.
- **Random draws.** Draws from `random` are oracle functions of the draw's
  index, with their ranges as preconditions.
- **Network replies.** HTTP replies are oracle functions of the upload's or
  poll's index. A reply body is any value of the small `JsonValues.Json`
  datatype, and Python's `None` is `Null`. A request that raises, or a 200
  reply whose text is not JSON, is `UploadRaised` or `PollRaised`. A body that
  is not an object raises where `.get` is called on it. In
  `upload-fbx-to-roblox.py` the upload result is always a dict, because
  `upload_fbx` turns every exception into `{"error": ...}`. The status is any
  JSON value, and `"done" in status` is tested on it as Python does: a key
  test on a dict, a substring test on a str, a membership test on a list,
  and a TypeError on anything else. The upload run is a
  fold over what extracting each file's ID gives (`AssetUpload.Outcomes`), so
  its lemmas hold for any replies.
- **Float decoding.** `struct.unpack('<f', …)`, one float per call, is a decode
  oracle. It returns `None` for NaN and the infinities, which the
  plausibility filter rejects anyway.
- **Reals, not floats.** Reals stand for Python floats.

## Behaviour of the terrain scripts worth knowing

- **No configuration errors.** A range with radius ≤ 0 or a valley with
  width ≤ 0 is never rejected. It simply never contributes
  (`DreamTerrain.FlatRangeNeverContributes`,
  `DreamTerrain.NarrowValleyNeverCarves`).
- **One segment per valley.** A valley is a single start–end segment, not a
  polyline of waypoints.
- **A range counts within 1.5 × radius.** A range takes part in the max
  whenever the point lies within 1.5 × radius of its centre, even where the
  radial influence is already 0.
- **Sub-peaks are not reproducible.** Sub-peak jitter comes from Python's salted
  string `hash`, so it differs between runs. It is an abstract function of
  (name, i) here.

The inputs on which the scripts raise are preconditions of the model:

- a division by zero (resolution 0, octaves 0, size 0, a heightmap of one row);
- a river with fewer than two waypoints;
- a ruin search whose `randint` band is empty.

"## Left out" lists each of them.

In `create_river_mesh`, the closing pair of bank vertices keeps the last
waypoint's height and is not sunk to `-depth` like the others. The model keeps
this (`River.FinalPairAtWaypointHeight`).

## Model

| member | source | states |
|---|---|---|
| Noise.AmplitudeSumAtLeastOne | tools/blender/generate_dream_terrain.py:113-119 | with at least one octave and persistence ≥ 0 the amplitude sum fbm divides by is at least 1 |
| Noise.FbmTotalBounded | tools/blender/generate_dream_terrain.py:111-120 | with samples in [-1, 1] the running fbm total stays within ± the amplitudes summed so far |
| Noise.FbmStepBounded | tools/blender/generate_dream_terrain.py:117-119 | one octave moves the total by at most that octave's amplitude |
| Noise.FbmBounded | tools/blender/generate_dream_terrain.py:106-122 | normalised fbm lies in [-1, 1] when every sample does |
| Noise.Fbm | tools/blender/generate_dream_terrain.py:106-122 | the accumulator loop computes total / max_value of the octave sum, and the result lies in [-1, 1] for bounded samples |
| Noise.FoldRange | tools/blender/generate_dream_terrain.py:137-138 | the ridge fold (1 - abs(n))² is never negative and at most 1 for n in [-1, 1] |
| Noise.RidgeTermNonNegative | tools/blender/generate_dream_terrain.py:136-140 | every ridged octave term is ≥ 0 |
| Noise.RidgeTermDecreasing | tools/blender/generate_dream_terrain.py:136-140 | each term is at most 1 and, when weighted by the previous octave, at most the previous term |
| Noise.RidgedNonNegative | tools/blender/generate_dream_terrain.py:130-145 | the ridged total is never negative |
| Noise.RidgedAtMostAmplitudes | tools/blender/generate_dream_terrain.py:130-145 | with bounded samples the ridged total is at most the sum of the halving amplitudes |
| Noise.HalvingAmplitudesBelowTwo | tools/blender/generate_dream_terrain.py:132-142 | amplitudes halving from 1 sum to 2 - 2·0.5ⁿ, always below 2 |
| Noise.RidgedRange | tools/blender/generate_dream_terrain.py:125-145 | ridged noise lies in [0, 2) for bounded samples |
| Noise.Ridged | tools/blender/generate_dream_terrain.py:125-145 | the loop computes the sum of amplitude-weighted folded terms, each weighted by the previous octave when asked |
| Combine.FoldMaxAtLeast | tools/blender/generate_dream_terrain.py:192-205 | the max-fold is at least its start and at least every contribution in reach |
| Combine.FoldMaxAttained | tools/blender/generate_dream_terrain.py:214-264 | the max-fold equals its start or one of the contributions: features are combined by max, never summed |
| Combine.FoldMaxAtMost | tools/blender/generate_dream_terrain.py:250-262 | a bound on the start and on every contribution bounds the fold |
| Combine.FoldMaxNone | tools/blender/generate_dream_terrain.py:188-207 | with no feature in reach the fold stays at its start |
| Grid.CellQuadCorners | tools/blender/generate_dream_terrain.py:364-370 | the quad [i, i+1, i+r+2, i+r+1] joins cell (ix, iy) to its right, diagonal and upper neighbours |
| Grid.VertexIndexBelow | tools/blender/generate_dream_terrain.py:364-368 | every grid vertex index is below (r+1)² |
| Grid.CellQuadInRange | tools/blender/generate_dream_terrain.py:362-370 | every corner of every cell's quad is an existing vertex index |
| Grid.RowFacesAt | tools/blender/generate_dream_terrain.py:363-370 | the inner face loop emits exactly the quads of one row, in order |
| Grid.GridFacesLength | tools/blender/generate_dream_terrain.py:362-370 | m rows of faces hold m·r quads |
| Grid.GridFaceAt | tools/blender/generate_dream_terrain.py:362-370 | the quad of cell (ix, iy) sits at position iy·r + ix |
| Grid.GridFacesAtEveryCell | tools/blender/generate_dream_terrain.py:362-370 | every cell of the grid has its quad at its row-major position |
| Grid.GridFacesInRange | tools/blender/generate_dream_terrain.py:362-370 | every emitted quad's corners are below (r+1)² and faces start flat |
| Grid.GridFaces | tools/blender/generate_dream_terrain.py:360-370 | the nested face loop emits r² quads, cell (ix, iy) at iy·r + ix, all corners in range |
| Grid.GridSpan | tools/blender/generate_dream_terrain.py:329-345 | the grid coordinates run from -size/2 at index 0 to size/2 at index r |
| Grid.SmoothAll | tools/blender/generate_dream_terrain.py:372-374 | every face is flagged smooth and nothing else about it changes |
| DreamTerrain.SamplersInUnitRange | tools/blender/generate_dream_terrain.py:101-103 | bounded Blender noise gives bounded octave samples for fbm and ridged |
| DreamTerrain.FbmAtBounded | tools/blender/generate_dream_terrain.py:106-122 | fbm with octave i seeded seed + i·100 lies in [-1, 1] |
| DreamTerrain.RidgedAtRange | tools/blender/generate_dream_terrain.py:125-145 | ridged_multifractal (seed + i·50, frequency ×2.2) lies in [0, 2) |
| DreamTerrain.Fbm | tools/blender/generate_dream_terrain.py:106-122 | the loop returns the fbm value at (x, y), within [-1, 1] for bounded noise |
| DreamTerrain.RidgedMultifractal | tools/blender/generate_dream_terrain.py:125-145 | the loop returns the ridged value, never negative and below 2 for bounded noise |
| DreamTerrain.DomainWarpBounded | tools/blender/generate_dream_terrain.py:158-165 | the warp moves each coordinate by at most strength·scale |
| DreamTerrain.SegmentParam | tools/blender/generate_dream_terrain.py:181 | the projection parameter is clamped to [0, 1] and equals the raw projection inside (0, 1) |
| DreamTerrain.DistanceToSegmentFacts | tools/blender/generate_dream_terrain.py:172-185 | the distance is never negative, and a zero-length segment gives the distance to (x1, y1) |
| DreamTerrain.DistanceToSegmentAtMostEndpoints | tools/blender/generate_dream_terrain.py:172-185 | the distance to the segment is at most the distance to either endpoint |
| DreamTerrain.DistanceToProjection | tools/blender/generate_dream_terrain.py:181-185 | the distance is the distance to the clamped projection point |
| DreamTerrain.CarveRange | tools/blender/generate_dream_terrain.py:200-204 | within 2·width the parabolic carve is in (0, 40] |
| DreamTerrain.ValleyCarveRange | tools/blender/generate_dream_terrain.py:193-204 | any valley that carves carves between 0 and 40 |
| DreamTerrain.NarrowValleyNeverCarves | tools/blender/generate_dream_terrain.py:198-200 | a valley of width ≤ 0 never contributes |
| DreamTerrain.ValleyDepthFacts | tools/blender/generate_dream_terrain.py:188-207 | the valley depth is in [0, 40], at least every valley's carve, equal to 0 or to one of them, and 0 when the point is ≥ 2·width from every valley |
| DreamTerrain.ValleyDepth | tools/blender/generate_dream_terrain.py:188-207 | the loop returns the max-combined valley depth, within [0, 40] |
| DreamTerrain.FlatRangeNeverContributes | tools/blender/generate_dream_terrain.py:217-219 | a range of radius ≤ 0 is never within 1.5·radius |
| DreamTerrain.SubPeakAtMost | tools/blender/generate_dream_terrain.py:256-261 | a sub-peak contributes between 0 and 0.6·peak_height |
| DreamTerrain.RangeHeightFacts | tools/blender/generate_dream_terrain.py:247-262 | a range's height is at least its primary shape and every sub-peak, and equals one of them |
| DreamTerrain.MountainHeightFacts | tools/blender/generate_dream_terrain.py:210-266 | the mountain height is ≥ 0, at least every range's contribution, and equals 0 or one of them |
| DreamTerrain.MountainHeight | tools/blender/generate_dream_terrain.py:210-266 | the loop over ranges returns the max-combined mountain height, never negative |
| DreamTerrain.AddRange | tools/blender/generate_dream_terrain.py:214-264 | one range step leaves the total alone when the range is out of reach, else raises it to the range's height |
| DreamTerrain.RangeHeightAt | tools/blender/generate_dream_terrain.py:215-262 | a range in reach gets its primary peak scaled by peak_height, raised to its sub-peaks |
| DreamTerrain.RaiseToSubPeaks | tools/blender/generate_dream_terrain.py:250-262 | the sub-peak loop max-combines every sub-peak in reach |
| DreamTerrain.AddSubPeak | tools/blender/generate_dream_terrain.py:251-262 | one sub-peak step leaves the height alone out of reach, else raises it to the sub-peak |
| DreamTerrain.ShapePeak | tools/blender/generate_dream_terrain.py:223-244 | the style branches compute the primary peak shape of each style, with the volcanic crater |
| DreamTerrain.EdgeFalloff | tools/blender/generate_dream_terrain.py:296-302 | inside 0.8·half the height is untouched; at the world edge it is exactly -50 |
| DreamTerrain.SpawnClamp | tools/blender/generate_dream_terrain.py:305-307 | within 100 of the origin the height is raised to at least 5; elsewhere it is untouched |
| DreamTerrain.EdgeBelowWater | tools/blender/generate_dream_terrain.py:293-309 | at max(abs(x), abs(y)) ≥ WORLD_SIZE/2 the final height is -50, below WATER_LEVEL |
| DreamTerrain.SpawnIsSafe | tools/blender/generate_dream_terrain.py:304-309 | any point within 100 of the origin ends at height ≥ 5, whatever the features |
| DreamTerrain.LayeredHeightBounds | tools/blender/generate_dream_terrain.py:274-293 | before the corrections the height lies within [-100, +90] of the mountain height |
| DreamTerrain.NoiseLayersBounds | tools/blender/generate_dream_terrain.py:275-284 | base + hills + detail lies in [-60, 90] |
| DreamTerrain.SampleNoiseLayers | tools/blender/generate_dream_terrain.py:275-284 | warps once and sums the three fbm layers, within [-60, 90] |
| DreamTerrain.LayeredHeightAt | tools/blender/generate_dream_terrain.py:274-293 | combines layers, mountains and valleys, within [-100, +90] of the mountain height |
| DreamTerrain.FallOffAtEdge | tools/blender/generate_dream_terrain.py:295-302 | applies the edge fall-off exactly as the height function does |
| DreamTerrain.CalculateHeight | tools/blender/generate_dream_terrain.py:269-309 | the final height: at least 5 near spawn, exactly -50 at the world edge |
| DreamTerrain.BorderVertexUnderwater | tools/blender/generate_dream_terrain.py:341-350 | every vertex on the grid's border sits at -50, below the water |
| DreamTerrain.CentreVertexIsSafe | tools/blender/generate_dream_terrain.py:341-350 | the centre vertex of the 200-cell grid is the origin and stands at height ≥ 5 |
| DreamTerrain.DreamVertexAt | tools/blender/generate_dream_terrain.py:343-351 | vertex (ix, iy) is at (-half + ix·step, -half + iy·step, calculate_height) |
| DreamTerrain.DreamRow | tools/blender/generate_dream_terrain.py:342-353 | the inner loop emits row iy's r+1 vertices and heights in order |
| DreamTerrain.DreamVertices | tools/blender/generate_dream_terrain.py:337-356 | the nested loops emit (r+1)² vertices in row-major order and the heights row by row |
| DreamTerrain.CreateTerrainMesh | tools/blender/generate_dream_terrain.py:316-381 | (R+1)² row-major vertices, heights[iy][ix] their z, R² quads at row-major positions, all corners in range, all faces smooth |
| EpicTerrain.SamplersInUnitRange | tools/blender/generate_epic_terrain.py:59-83 | bounded noise gives bounded octave samples (third coordinate z + seed, resp. seed·0.1) |
| EpicTerrain.FbmAtBounded | tools/blender/generate_epic_terrain.py:52-65 | fbm divided by its amplitude sum lies in [-1, 1] |
| EpicTerrain.RidgedAtRange | tools/blender/generate_epic_terrain.py:68-85 | ridged_multifractal (frequency ×2.1, weighted by the previous octave) lies in [0, 2) |
| EpicTerrain.Fbm | tools/blender/generate_epic_terrain.py:52-65 | the loop returns the fbm value, within [-1, 1] for bounded noise |
| EpicTerrain.RidgedMultifractal | tools/blender/generate_epic_terrain.py:68-85 | the loop returns the ridged value, never negative and below 2 for bounded noise |
| EpicTerrain.SwissOctaveBounded | tools/blender/generate_epic_terrain.py:97-109 | one turbulence octave moves the total by at most its amplitude |
| EpicTerrain.SwissTotalBounded | tools/blender/generate_epic_terrain.py:88-111 | the turbulence total stays within ± the halving amplitude sum |
| EpicTerrain.SwissAtBounded | tools/blender/generate_epic_terrain.py:88-111 | swiss turbulence lies strictly between -2 and 2 |
| EpicTerrain.SwissOctaveAt | tools/blender/generate_epic_terrain.py:98-109 | one loop body advances the total and the gradient sums as the octave step defines |
| EpicTerrain.SwissTurbulence | tools/blender/generate_epic_terrain.py:88-111 | the loop returns the turbulence value, within (-2, 2) for bounded noise |
| EpicTerrain.VoronoiRidges | tools/blender/generate_epic_terrain.py:114-119 | the difference of two samples in absolute value is in [0, 2] |
| EpicTerrain.PeakHeightNonNegative | tools/blender/generate_epic_terrain.py:166-171 | a peak of non-negative intensity in reach contributes ≥ 0 |
| EpicTerrain.PeakShapeNonNegative | tools/blender/generate_epic_terrain.py:168-171 | (1 - dist/0.3)²·intensity·(1 + detail·0.3) is ≥ 0 |
| EpicTerrain.PeakInfluenceFacts | tools/blender/generate_epic_terrain.py:157-172 | peak_influence is ≥ 0, at least every peak within 0.3, equal to 0 or one of them, and 0 when none is in reach |
| EpicTerrain.CellHeight | tools/blender/generate_epic_terrain.py:137-183 | every heightmap value is ≥ -0.1 |
| EpicTerrain.FalloffFarIsSeaFloor | tools/blender/generate_epic_terrain.py:176-183 | once 1.5·distance ≥ 1 the fall-off gives exactly -0.1 |
| EpicTerrain.FarCellIsSeaFloor | tools/blender/generate_epic_terrain.py:138-183 | the stored value far from the centre is exactly -0.1 |
| EpicTerrain.NormSpan | tools/blender/generate_epic_terrain.py:132-139 | normalised coordinates run from -0.5 to 0.5 |
| EpicTerrain.CornerIsSeaFloor | tools/blender/generate_epic_terrain.py:135-183 | the four grid corners hold exactly -0.1 |
| EpicTerrain.ReliefAt | tools/blender/generate_epic_terrain.py:141-154 | combines base, ridges, erosion and valleys as base + ridges·(0.5 + base) - valleys·0.3 + erosion |
| EpicTerrain.PeakInfluenceAt | tools/blender/generate_epic_terrain.py:157-172 | the peak loop returns the max over peaks in reach, never negative |
| EpicTerrain.FallOffToOcean | tools/blender/generate_epic_terrain.py:176-181 | applies the ocean fall-off exactly as the cell height does |
| EpicTerrain.HeightAt | tools/blender/generate_epic_terrain.py:137-183 | one inner-loop step stores the clamped cell height of (ix, iy) |
| EpicTerrain.HeightmapRow | tools/blender/generate_epic_terrain.py:136-185 | the inner loop builds row iy with its resolution+1 values in order |
| EpicTerrain.GenerateHeightmap | tools/blender/generate_epic_terrain.py:126-187 | resolution+1 rows of resolution+1 values, value [iy][ix] at cell (ix, iy), every value ≥ -0.1 |
| EpicTerrain.MeshRow | tools/blender/generate_epic_terrain.py:207-212 | row iy's vertices at (-half + ix·step, -half + iy·step, h·max_height) |
| EpicTerrain.CreateTerrainMesh | tools/blender/generate_epic_terrain.py:190-230 | resolution = len(heightmap) - 1; (res+1)² vertices with z = h·max_height; one smooth quad per cell with corners in range; nothing for an empty heightmap |
| EpicTerrain.CliffRowJustified | tools/blender/generate_epic_terrain.py:262-284 | every rock in a row comes from an interior cell steeper than threshold·max_height with h > 0.2 that won the 10% draw |
| EpicTerrain.CliffRowsJustified | tools/blender/generate_epic_terrain.py:262-284 | the same holds for every rock of every scanned row |
| EpicTerrain.CliffRowComplete | tools/blender/generate_epic_terrain.py:263-284 | every qualifying cell of a row gets its rock |
| EpicTerrain.CliffRowsComplete | tools/blender/generate_epic_terrain.py:262-284 | every qualifying interior cell gets its rock |
| EpicTerrain.SlopeAt | tools/blender/generate_epic_terrain.py:264-273 | the four neighbour lookups of an interior cell give the slope the scan tests |
| EpicTerrain.CliffRowAt | tools/blender/generate_epic_terrain.py:263-284 | the inner loop over ix in 1..res-1 yields row iy's rocks in order |
| EpicTerrain.CreateCliffMeshes | tools/blender/generate_epic_terrain.py:250-287 | the scan visits interior rows 1..res-1 and returns their rocks row by row |
| EpicTerrain.FirstGood | tools/blender/generate_epic_terrain.py:354-366 | a chosen spot always has 0.15 < h < 0.5 |
| EpicTerrain.FirstGoodFirst | tools/blender/generate_epic_terrain.py:354-368 | the chosen spot is the first good one among the tries; none is chosen only when every try fails |
| EpicTerrain.RuinSiteFirst | tools/blender/generate_epic_terrain.py:353-368 | a ruin's site is its first good draw within 100 attempts, or there is none |
| EpicTerrain.RuinsPlaced | tools/blender/generate_epic_terrain.py:351-368 | at most count ruins, each on a cell 20 ≤ ix, iy ≤ res-20 with 0.15 < h < 0.5 |
| EpicTerrain.PlaceRuin | tools/blender/generate_epic_terrain.py:353-368 | the bounded retry loop places one ruin at the first good draw, or none after 100 attempts |
| EpicTerrain.CreateAncientRuins | tools/blender/generate_epic_terrain.py:341-370 | the outer loop returns the ruins placed for each of the count requests, in order |
| MountainTerrain.SamplersInUnitRange | tools/blender/generate_terrain.py:93-116 | bounded noise gives bounded octave samples (third coordinate seed, resp. seed·0.5) |
| MountainTerrain.FbmNoiseBounded | tools/blender/generate_terrain.py:86-100 | fbm_noise lies in [-1, 1] |
| MountainTerrain.RidgedNoiseRange | tools/blender/generate_terrain.py:103-117 | ridged_noise (no previous-octave weighting) is ≥ 0 and at most the amplitude sum, below 2 |
| MountainTerrain.FbmNoise | tools/blender/generate_terrain.py:86-100 | the loop returns the fbm value, within [-1, 1] for bounded noise |
| MountainTerrain.RidgedNoise | tools/blender/generate_terrain.py:103-117 | the loop returns the ridged value, never negative, at most the amplitude sum |
| MountainTerrain.ShiftBounded | tools/blender/generate_terrain.py:122-123 | each warp offset is at most strength in absolute value |
| MountainTerrain.DomainWarpBounded | tools/blender/generate_terrain.py:120-124 | domain_warp displaces each coordinate by at most strength |
| MountainTerrain.DomainWarp | tools/blender/generate_terrain.py:120-124 | returns both warped coordinates |
| MountainTerrain.PolarDistance | tools/blender/generate_terrain.py:164-166 | a point at (cos·d, sin·d) lies at distance d from the centre |
| MountainTerrain.PeakPlacement | tools/blender/generate_terrain.py:162-167 | each peak lies at distance in [0.1, 0.4]·half_size from the centre with height factor in [0.7, 1.0] |
| MountainTerrain.PeakPositions | tools/blender/generate_terrain.py:161-167 | exactly `peaks` positions, the i-th from the i-th draw |
| MountainTerrain.RaisedIsMaximum | tools/blender/generate_terrain.py:189-193 | after the peak loop h is at least its start and every influence·peak_height, and equals one of them |
| MountainTerrain.FalloffRange | tools/blender/generate_terrain.py:196-197 | the fall-off max(0, 1 - d^1.5) is in [0, 1] and 0 at or beyond half_size |
| MountainTerrain.NoisyHeightNonNegative | tools/blender/generate_terrain.py:179-186 | with roughness ≥ 0 the pre-peak height is ≥ 0 |
| MountainTerrain.WarpedBlendNonNegative | tools/blender/generate_terrain.py:182-186 | the fbm/ridge blend at warped coordinates is ≥ 0 |
| MountainTerrain.BlendNonNegative | tools/blender/generate_terrain.py:182-186 | (f·0.5 + 0.5)·0.6 + ridge·roughness·0.4 is ≥ 0 for f ≥ -1 |
| MountainTerrain.MountainHeightRange | tools/blender/generate_terrain.py:175-201 | every vertex z is ≥ 0, and 0 at distance ≥ half_size |
| MountainTerrain.FadedRange | tools/blender/generate_terrain.py:195-201 | the faded, scaled height is ≥ 0 and 0 at the rim |
| MountainTerrain.NoisyHeightAt | tools/blender/generate_terrain.py:175-186 | computes the pre-peak height at (x, y) |
| MountainTerrain.WarpedHeightAt | tools/blender/generate_terrain.py:182-186 | computes the fbm/ridge blend at the warped point |
| MountainTerrain.RaiseToPeaks | tools/blender/generate_terrain.py:189-193 | the peak loop max-combines every peak's influence |
| MountainTerrain.FadeAt | tools/blender/generate_terrain.py:195-201 | applies the island fall-off and the height scale |
| MountainTerrain.RimVertexIsFlat | tools/blender/generate_terrain.py:169-201 | every border vertex of the grid has z = 0 |
| MountainTerrain.HeightAt | tools/blender/generate_terrain.py:171-201 | computes vertex z at (x, y) |
| MountainTerrain.MountainVertexAt | tools/blender/generate_terrain.py:170-205 | vertex (ix, iy) is at (-half + ix·step, -half + iy·step, z) |
| MountainTerrain.MountainRow | tools/blender/generate_terrain.py:170-205 | the inner loop emits row iy's vertices in order |
| MountainTerrain.MountainVertices | tools/blender/generate_terrain.py:169-205 | the nested loops emit (R+1)² vertices in row-major order |
| MountainTerrain.CreateMountainMesh | tools/blender/generate_terrain.py:131-224 | `peaks` peak positions, (R+1)² row-major vertices, R² smooth quads with corners in range |
| River.BankGap | tools/blender/generate_terrain.py:274-281 | the wave shifts both banks alike, so they are width apart along the perpendicular |
| River.BankMidpoint | tools/blender/generate_terrain.py:274-281 | the banks' midpoint is the section point shifted by the wave |
| River.Straddle | tools/blender/generate_terrain.py:277-278 | pos + perp·(w/2 + wave) and pos - perp·(w/2 - wave) differ by perp·w |
| River.SectionStartsAtWaypoint | tools/blender/generate_terrain.py:264-267 | segment 0 of a section starts at its waypoint |
| River.RiverWidth | tools/blender/generate_terrain.py:270-281 | for distinct waypoints at equal height the banks are exactly width apart |
| River.UnitAcross | tools/blender/generate_terrain.py:270-271 | the perpendicular of a level, non-degenerate step has unit length |
| River.FinalPairAtWaypointHeight | tools/blender/generate_terrain.py:286-292 | the closing pair keeps the last waypoint's height |
| River.BanksAppend | tools/blender/generate_terrain.py:259-284 | appending one section's banks extends the bank lists section by section |
| River.RiverSection | tools/blender/generate_terrain.py:263-284 | the inner loop yields the 8 left and right bank vertices of section i |
| River.Interleave | tools/blender/generate_terrain.py:283-284 | bmesh numbers left bank k as vertex 2k and right bank k as 2k+1 |
| River.RiverQuadJoinsBanks | tools/blender/generate_terrain.py:297-298 | quad k joins L[k], L[k+1], R[k+1], R[k], all existing vertices |
| River.RiverFaces | tools/blender/generate_terrain.py:297-298 | the face loop emits one quad per consecutive bank pair |
| River.CreateRiverMesh | tools/blender/generate_terrain.py:243-298 | 8(W-1)+1 vertices per bank, section vertices at z = -depth, the closing pair, and 8(W-1) quads with corners in range |
| Strings.Capitalize | tools/generate-all-assets.py:111-112 | str.capitalize: first character upper-cased, the rest lower-cased |
| Strings.Title | tools/upload-fbx-to-roblox.py:157 | str.title: each character cased by whether a cased character precedes it |
| Strings.Split | tools/upload-assets-to-roblox.py:169 | str.split always yields at least one part |
| Strings.SplitJoin | tools/generate-all-assets.py:108 | the parts of a split hold no separator and join back to the string |
| Strings.RFind | tools/generate-all-assets.py:99 | the last occurrence of a character, or -1 |
| AssetNaming.TrimSlashes | tools/generate-all-assets.py:99 | the result is the path with exactly its trailing '/' characters removed |
| AssetNaming.BaseName | tools/generate-all-assets.py:99 | Path(...).name: the suffix of the trimmed path after its last '/', holding no '/' |
| AssetNaming.StemDropsLastSuffix | tools/generate-all-assets.py:99 | Path.stem removes only the last extension |
| AssetNaming.StemOfFileName | tools/generate-all-assets.py:99 | the stem of base.ext is base |
| AssetNaming.CapitalizeAll | tools/generate-all-assets.py:108 | each '_'-separated word capitalised, in order |
| AssetNaming.TableFirst | tools/generate-all-assets.py:101-104 | a lower-cased stem listed in SNAKE_TO_PASCAL gets the table's name, before any other rule |
| AssetNaming.FerrisWheel | tools/generate-all-assets.py:97-104 | "Ferris_Wheel.fbx" maps to "FerrisWheel" |
| AssetNaming.LowerConcatCapitalized | tools/generate-all-assets.py:108 | capitalising lower-case words and joining them keeps the letters |
| AssetNaming.SnakeToPascal | tools/generate-all-assets.py:106-108 | an unlisted lower-case stem with '_' becomes its capitalised words joined: no '_', same letters |
| AssetNaming.LowerCapitalized | tools/generate-all-assets.py:110-112 | an unlisted lower-case stem without '_' is capitalised |
| AssetNaming.ProperNameKept | tools/generate-all-assets.py:114-115 | an unlisted stem that is not all lower-case is returned unchanged |
| AssetNaming.BoulderSmall | tools/generate-all-assets.py:114-115 | "Boulder_Small.fbx" stays "Boulder_Small" |
| AssetNaming.FolderCopiesNamed | tools/generate-all-assets.py:136-140 | every copy of a folder is one of its .fbx files named Category_AssetName.fbx |
| AssetNaming.FolderCopiesComplete | tools/generate-all-assets.py:138-140 | every .fbx file of a folder is copied |
| AssetNaming.PlanExactly | tools/generate-all-assets.py:132-145 | the copies are exactly the .fbx files of the category folders, for-import and plain files skipped |
| AssetNaming.PlanCount | tools/generate-all-assets.py:129-147 | the plan holds one copy per .fbx file of every category folder |
| AssetNaming.FolderCount | tools/generate-all-assets.py:138-145 | a folder contributes one copy per .fbx file |
| AssetNaming.FolderCopiesStep | tools/generate-all-assets.py:138-145 | each file extends the folder's copies by its copy when it is a .fbx file |
| AssetNaming.CopyFile | tools/generate-all-assets.py:138-145 | one file step appends the copy of a .fbx file and keeps total_files equal to the copies made |
| AssetNaming.CopyFolder | tools/generate-all-assets.py:136-145 | the inner loop appends the folder's copies and keeps the count |
| AssetNaming.OrganizeForCombine | tools/generate-all-assets.py:118-148 | the copies are the plan and total_files equals the number of .fbx files copied |
| AssetUpload.PaddedPayload | tools/upload-assets-to-roblox.py:62-66 | the padded payload's length is a multiple of 4, the original followed by 0 to 3 '=', none when already aligned |
| AssetUpload.KeyPayloadPresent | tools/upload-assets-to-roblox.py:59-60 | a payload exists exactly when the key contains '.' |
| AssetUpload.KeyPayloadOfJwt | tools/upload-assets-to-roblox.py:59-66 | for prefix.payload.signature the padded second part is decoded |
| AssetUpload.ExtractAssetId | tools/upload-assets-to-roblox.py:154-175 | None for a missing or empty result; raises exactly for a malformed response or path |
| AssetUpload.AssetIdFirst | tools/upload-assets-to-roblox.py:160-164 | response["assetId"] is returned whenever present, ahead of any path |
| AssetUpload.AssetPathId | tools/upload-assets-to-roblox.py:166-169 | a path "assets/ID..." yields its second '/'-separated part ID |
| AssetUpload.SecondPart | tools/upload-assets-to-roblox.py:169 | the second part of head/id/... is id |
| AssetUpload.OtherPathNone | tools/upload-assets-to-roblox.py:166-175 | any other path yields None, even with an error key present |
| AssetUpload.FirstDoneNone | tools/upload-assets-to-roblox.py:134-152 | None after all attempts exactly when no reply raises and none is a done 200 reply |
| AssetUpload.FirstDoneAt | tools/upload-assets-to-roblox.py:134-145 | the first reply that raises or is done decides: an exception, or that reply's body |
| AssetUpload.PollOperation | tools/upload-assets-to-roblox.py:121-152 | at most max_attempts polls; the first done body, an exception from a failed request or a non-object 200 body, or None after all attempts |
| AssetUpload.StepGrows | tools/upload-assets-to-roblox.py:226-244 | one file step keeps every existing ID, adds only the file's stem with a truthy extracted ID, and counts it |
| AssetUpload.StepSkipsKnown | tools/upload-assets-to-roblox.py:218-221 | a stem already in the map is skipped whatever the network would answer |
| AssetUpload.MergedKeepsExisting | tools/upload-assets-to-roblox.py:205-221 | every loaded ID survives the run unchanged |
| AssetUpload.MergedAddsExtracted | tools/upload-assets-to-roblox.py:226-244 | every added key is a processed file's stem whose extracted ID is truthy |
| AssetUpload.MergedCount | tools/upload-assets-to-roblox.py:211-244 | uploaded_count equals the number of keys added |
| AssetUpload.CrashPersists | tools/upload-assets-to-roblox.py:214-246 | once a step raises, the run does not reach the save |
| AssetUpload.AgreeingOutcomes | tools/upload-assets-to-roblox.py:218-244 | two runs whose extracted IDs agree on every file with an unknown stem end alike |
| AssetUpload.KnownFilesSkipped | tools/upload-assets-to-roblox.py:218-221 | the replies for already known files do not influence the result |
| AssetUpload.NetworkFailureRaises | tools/upload-assets-to-roblox.py:112-144 | a raising upload request, a truthy upload body that is not an object, or a raising first poll after a truthy path makes the file's step raise |
| AssetUpload.RaisedEndsRun | tools/upload-assets-to-roblox.py:214-246 | a file with an unknown stem whose step raises ends the run before the save |
| AssetUpload.NetworkFailureEndsRun | tools/upload-assets-to-roblox.py:226-246 | such a network failure on a file not yet in the map means no IDs are saved |
| AssetUpload.UploadOne | tools/upload-assets-to-roblox.py:216-246 | one loop body performs the step, or reports the crash, including one raised by a request, a non-JSON reply or a non-object body |
| AssetUpload.UploadAll | tools/upload-assets-to-roblox.py:196-250 | no files: nothing is written; otherwise the merged map and count, or the crash |
| FbxUpload.FbxFiles | tools/upload-fbx-to-roblox.py:138 | exactly the directory entries ending in ".fbx" |
| FbxUpload.DisplayNameCaseless | tools/upload-fbx-to-roblox.py:157-158 | the name starts with "Structures_" and the rest is the stem without '_' and ' ', up to case |
| FbxUpload.DisplayNameSeparators | tools/upload-fbx-to-roblox.py:157-158 | the name holds no space and no '_' after the prefix |
| FbxUpload.SnakePairName | tools/upload-fbx-to-roblox.py:157-158 | "a_b.fbx" becomes "Structures_" + A + B for lower-case words a, b |
| FbxUpload.WaterTower | tools/upload-fbx-to-roblox.py:157-158 | "water_tower.fbx" becomes "Structures_WaterTower" |
| FbxUpload.OperationsExactly | tools/upload-fbx-to-roblox.py:162-169 | an operation is recorded exactly for the uploads whose result has a "path" |
| FbxUpload.ErrorNotFollowed | tools/upload-fbx-to-roblox.py:102-108 | a failed upload's {"error": ...} never yields an operation |
| FbxUpload.UploadFiles | tools/upload-fbx-to-roblox.py:153-169 | the upload loop builds each file's display name and the operations |
| FbxUpload.Classify | tools/upload-fbx-to-roblox.py:187-208 | for a dict status: not done gives a processing record; done with neither response nor error gives no entry; a non-object response raises; an error record carries the error. None, a bool or a number raises; a str or list raises exactly when it holds "done", and is otherwise still processing |
| FbxUpload.NonObjectStatusEndsRun | tools/upload-fbx-to-roblox.py:183-213 | a status body that makes `"done" in status and status["done"]` raise means the results are never written |
| FbxUpload.CompletedRecord | tools/upload-fbx-to-roblox.py:189-198 | a done response yields assetId (default "unknown"), displayName and state |
| FbxUpload.FinalResultsExactly | tools/upload-fbx-to-roblox.py:183-208 | final_results holds exactly each operation's classified record, keyed by file |
| FbxUpload.StatusCrashPersists | tools/upload-fbx-to-roblox.py:184-208 | once a status raises, the results are never written |
| FbxUpload.CheckOperations | tools/upload-fbx-to-roblox.py:183-208 | the status loop computes final_results |
| FbxUpload.RunUpload | tools/upload-fbx-to-roblox.py:138-213 | no .fbx files: stop; otherwise the names, operations and final results |
| FbxInspect.ReadFbxHeader | tools/inspect_fbx.py:12-18 | binary exactly when the data starts with "Kaydara FBX Binary", ASCII otherwise and for short files |
| FbxInspect.Find | tools/inspect_fbx.py:47 | -1 or a match at or after the start |
| FbxInspect.FindFirst | tools/inspect_fbx.py:47-49 | no match is skipped before the one found |
| FbxInspect.OccurrencesExactly | tools/inspect_fbx.py:45-79 | the scan list holds exactly the offsets where the marker occurs |
| FbxInspect.OccurrencesIncreasing | tools/inspect_fbx.py:45-79 | the occurrences come in increasing offset order |
| FbxInspect.FindNext | tools/inspect_fbx.py:47-79 | after a match the scan restarts one byte later |
| FbxInspect.FoundSoFar | tools/inspect_fbx.py:45-79 | each scan step keeps the found offsets a prefix of all occurrences |
| Numeric.AbsFacts | tools/inspect_fbx.py:71 | abs: non-negative, ±v |
| FbxInspect.SearchEnd | tools/inspect_fbx.py:58 | search_end is within the data and within 500 of the start |
| FbxInspect.WindowCount | tools/inspect_fbx.py:62 | exactly the offsets search_start + 4k below search_end - 12 |
| FbxInspect.WindowsInBounds | tools/inspect_fbx.py:57-67 | every 12-byte read lies inside the data, at search_start + 4k |
| FbxInspect.KeptWindowsFiltered | tools/inspect_fbx.py:71-73 | every kept triple has a coordinate of magnitude > 0.01 |
| FbxInspect.ReadTriple | tools/inspect_fbx.py:65-67 | reads the three floats of one window |
| FbxInspect.KeptWindowsNext | tools/inspect_fbx.py:62-73 | each window appends its triple when kept and nothing otherwise |
| FbxInspect.WindowIndex | tools/inspect_fbx.py:62 | k is a window index exactly when its offset is below search_end - 12 |
| FbxInspect.ScanWindows | tools/inspect_fbx.py:57-73 | the windows after one marker yield its kept triples |
| FbxInspect.ScanFrom | tools/inspect_fbx.py:58-73 | the offset loop keeps the kept triples of every window in order |
| FbxInspect.CandidatesAppend | tools/inspect_fbx.py:71-73 | kept triples accumulate across all markers |
| FbxInspect.CandidatesFiltered | tools/inspect_fbx.py:71-73 | every candidate passes the magnitude filter |
| FbxInspect.MinAxis | tools/inspect_fbx.py:83-88 | the least coordinate on an axis, attained by some triple |
| FbxInspect.MaxAxis | tools/inspect_fbx.py:83-88 | the greatest coordinate on an axis, attained by some triple |
| Numeric.Max | tools/inspect_fbx.py:100 | max of two: at least both and one of them |
| FbxInspect.MaxDimensionBounds | tools/inspect_fbx.py:81-103 | None exactly with no candidates; otherwise ≥ 0, bounds every axis spread, and equals width, height or depth |
| FbxInspect.WithinExtent | tools/inspect_fbx.py:90-92 | any two triples differ on an axis by at most its extent |
| FbxInspect.ExtentAttained | tools/inspect_fbx.py:90-92 | an extent is ≥ 0 and attained by two triples |
| FbxInspect.Bounds | tools/inspect_fbx.py:81-103 | the bounds fold returns the largest dimension, or None |
| FbxInspect.ScanMarkers | tools/inspect_fbx.py:42-79 | visits every marker occurrence in order and collects all kept triples |
| FbxInspect.AnalyzeFbx | tools/inspect_fbx.py:20-103 | header format, all marker offsets, candidates and the largest dimension |

## Left out

- **Blender scene construction.** The model does not build `bpy`/`bmesh`
  objects, materials, modifiers or subdivision. The same holds for the water,
  snow caps, flowers and ruin structures of the dream generator, and for
  lighting, sky, rendering and FBX export in all three terrain scripts. Meshes
  are returned as vertex and face sequences instead.
- **Unused or cosmetic Blender helpers.** `voronoi_cells` in
  `generate_dream_terrain.py` is never called. `create_cliff_rock`'s random
  vertex jitter only shapes a Blender object. Neither is modelled.
- **Noise internals.** `mathutils.noise.noise` is an oracle, bounded in
  [-1, 1] where a proof needs it.
- **Numeric approximations.** `sqrt`, the fractional powers, `sin`/`cos` and
  `math.pi` are oracles or constants with only the facts the proofs use.
  Floating-point rounding is not modelled.
- **Salted string hash.** Python's salted string `hash` is an oracle, so
  sub-peak placement is abstract.
- **The `random` module.** Its seeding, and the sequence of values it returns,
  are oracle parameters. These cover peak draws, cliff chances, ruin spots and
  styles, and the default mountain seed.
- **Printing, sleeping and exits.** `print`, `time.sleep` and `sys.exit` are
  left out. An exit is modelled as an outcome value.
- **Network and decoding.** The model contains no HTTP requests, no JSON text
  parsing and no base64 decoding. Replies are oracles. Which exception a
  failed request or a non-JSON reply raises is not modelled, only that it
  raises and ends the run before the save.
  - `get_user_id_from_key` is modelled only up to the padded payload. The
    decoding and the `ownerId` lookup are not modelled.
- **The rest of the uploaders.** These are not modelled:
  - `load_api_key`;
  - the `results` dict of `upload-fbx-to-roblox.py`, which is never written;
  - the key order of the JSON files written;
  - file reading and path handling.
- **The rest of `generate-all-assets.py`.** Blender subprocess runs, file
  copying, directory creation and removal, and the rest of `main` are not
  modelled. Directory listings are input sequences. `glob("*.fbx")` is
  `AssetNaming.IsFbx`: a name ending in ".fbx", hidden names included.
  Case-insensitive matching on some platforms is not modelled.
- **The rest of `inspect_fbx.py`.** Decoding little-endian float32 is an
  oracle, with NaN and the infinities returned as `None`. Command-line handling is not modelled.
- **Other scripts.** `download-assets-opencloud.py` and the other Blender
  scripts are not part of this model.
- DreamTerrain.CreateTerrainMesh: the height functions take the mountain and
  valley tables as a `World` argument rather than reading the module
  constants. `DreamTerrain.DREAM_WORLD` holds the shipped tables.
- EpicTerrain.GenerateHeightmap: the octave counts and the peak table come in a
  `Recipe` argument, and `EpicTerrain.EPIC_RECIPE` holds the shipped ones.
- EpicTerrain.CreateTerrainMesh: requires a rectangular heightmap that does not
  have exactly one row. With one row, the source divides by zero. The empty
  heightmap is allowed and gives an empty mesh. `EpicTerrain.CreateCliffMeshes`
  has the same precondition.
- EpicTerrain.CreateAncientRuins: requires every pick to lie in the band
  20 ≤ ix, iy ≤ resolution - 20. For a heightmap with fewer than 41 rows that
  band is empty. There the source's `random.randint(20, resolution - 20)`
  raises `ValueError` when count ≥ 1, and returns `[]` when count is 0. The
  model does not cover these inputs. The shipped call uses resolution 128.
  `EpicTerrain.PlaceRuin` and `EpicTerrain.RuinsPlaced` share this
  precondition.
- River.CreateRiverMesh: requires at least two waypoints. With zero or one
  waypoint, the source raises `IndexError` at `waypoints[-1]` or
  `waypoints[-2]`. The model does not cover these inputs. Every shipped
  river has at least two waypoints.
- Strings.Capitalize, Strings.Title, AssetNaming.NormalizeAssetName,
  FbxUpload.DisplayName: case mapping, `islower()` and `title()` cover ASCII
  letters only. A non-ASCII letter keeps its case: "élan.fbx" normalises to
  "élan", where Python gives "Élan". The shipped asset names are ASCII.
- AssetNaming.BaseName: pathlib drops `.` components and the model does not.
  `Path("a/.").name` is "a" in Python and "." in the model. Directory listings
  never produce such names.
- MountainTerrain.CreateMountainMesh: the octave counts come in an `Octaves`
  argument. `MOUNTAIN_OCTAVES` holds the shipped ones.
- River.RiverWidth: the banks are proved exactly `width` apart only for
  consecutive waypoints at equal height. All shipped waypoints have z = 0.
  With a height difference, the normalised direction has a z component and
  the banks come closer.

=== FILE: asset_naming.dfy ===
/** generate-all-assets.py: the asset-name normalisation that turns an exported
    file name into the name the game's asset manifest expects, and the copy
    plan that gathers every exported .fbx under a Category_AssetName name. */
module AssetNaming {
  import opened Strings

  /** Category folder names to the manifest's category names. */
  const FOLDER_TO_CATEGORY: map<string, string> := map[
    "creatures" := "Creatures",
    "animals" := "Animals",
    "npcs" := "NPCs",
    "structures" := "Structures",
    "terrain" := "Terrain",
    "caves" := "Caves",
    "liminal" := "Liminal",
    "signs" := "Signs"
  ]

  /** Explicit asset names, looked up by the lower-cased stem. */
  const SNAKE_TO_PASCAL: map<string, string> := map[
    "shadow_stalker" := "ShadowStalker",
    "fissure_dweller" := "FissureDweller",
    "night_bird" := "NightBird",
    "abandoned_house" := "AbandonedHouse",
    "ferris_wheel" := "FerrisWheel",
    "radio_tower" := "RadioTower",
    "water_tower" := "WaterTower",
    "bridge" := "Bridge",
    "lighthouse" := "Lighthouse"
  ]

  // ---------------------------------------------------------------------------
  // Path stems
  // ---------------------------------------------------------------------------

  /** The text with its trailing '/' characters removed. */
  function TrimSlashes(path: string): (r: string)
    ensures |r| <= |path| && path[..|r|] == r
    ensures forall k :: |r| <= k < |path| ==> path[k] == '/'
    ensures |r| == 0 || r[|r| - 1] != '/'
  {
    if |path| > 0 && path[|path| - 1] == '/' then TrimSlashes(path[..|path| - 1]) else path
  }

  /** Path(path).name: the last '/'-separated component, i.e. the suffix of
      the trimmed path that follows its last '/'. */
  function BaseName(path: string): (name: string)
    ensures '/' !in name
    ensures var t := TrimSlashes(path);
      |name| <= |t| && name == t[|t| - |name|..] &&
      (|name| == |t| || t[|t| - |name| - 1] == '/')
  {
    var trimmed := TrimSlashes(path);
    var i := RFind(trimmed, '/');
    trimmed[i + 1..]
  }

  /** Path(name).stem: the name without its last suffix. A dot that starts or
      ends the name does not begin a suffix. */
  function Stem(name: string): string {
    var i := RFind(name, '.');
    if 0 < i < |name| - 1 then name[..i] else name
  }

  /** Only the last extension goes: a base followed by '.' and a non-empty
      extension without dots has that base as its stem. */
  lemma StemDropsLastSuffix(base: string, ext: string)
    requires |base| > 0 && |ext| > 0 && '.' !in ext
    ensures Stem(base + "." + ext) == base
  {
    var name := base + "." + ext;
    var i := RFind(name, '.');
    assert name[|base|] == '.';
    forall j | |base| < j < |name| ensures name[j] != '.' {
      assert name[j] == ext[j - |base| - 1];
    }
    assert i == |base|;
    assert name[..i] == base;
  }

  // ---------------------------------------------------------------------------
  // normalize_asset_name
  // ---------------------------------------------------------------------------

  /** Each piece capitalised. */
  function CapitalizeAll(parts: seq<string>): (r: seq<string>)
    ensures |r| == |parts|
    ensures forall i :: 0 <= i < |parts| ==> r[i] == Capitalize(parts[i])
  {
    seq(|parts|, i requires 0 <= i < |parts| => Capitalize(parts[i]))
  }

  /** "".join(word.capitalize() for word in name.split("_")). */
  function PascalCase(name: string): string {
    Concat(CapitalizeAll(Split(name, '_')))
  }

  /** normalize_asset_name(filename). */
  function NormalizeAssetName(filename: string): string {
    var name := Stem(BaseName(filename));
    var lowerName := Lower(name);
    if lowerName in SNAKE_TO_PASCAL then SNAKE_TO_PASCAL[lowerName]
    else if IsLower(name) && '_' in name then PascalCase(name)
    else if IsLower(name) then Capitalize(name)
    else name
  }

  /** The explicit table wins, whatever the case of the file name. */
  lemma TableFirst(filename: string)
    requires Lower(Stem(BaseName(filename))) in SNAKE_TO_PASCAL
    ensures NormalizeAssetName(filename) == SNAKE_TO_PASCAL[Lower(Stem(BaseName(filename)))]
  {
  }

  /** A name without '/' is its own base name. */
  lemma BaseNameOfName(name: string)
    requires '/' !in name
    ensures BaseName(name) == name
  {
    if |name| > 0 {
      assert name[|name| - 1] in name;
    }
    assert TrimSlashes(name) == name;
    assert RFind(name, '/') == -1;
  }

  /** The stem of a plain file name base.ext. */
  lemma StemOfFileName(base: string, ext: string)
    requires |base| > 0 && |ext| > 0 && '.' !in ext && '/' !in base && '/' !in ext
    ensures Stem(BaseName(base + "." + ext)) == base
  {
    BaseNameOfName(base + "." + ext);
    StemDropsLastSuffix(base, ext);
  }

  /** A listed name is looked up whatever its case. */
  lemma FerrisWheel()
    ensures NormalizeAssetName("Ferris_Wheel.fbx") == "FerrisWheel"
  {
    FerrisWheelListed();
    ListedFileLookedUp("Ferris_Wheel", "fbx");
    FerrisWheelFile();
  }

  lemma FerrisWheelFile()
    ensures "Ferris_Wheel" + "." + "fbx" == "Ferris_Wheel.fbx"
  {
  }

  /** A file whose stem is listed, in any case, is renamed by the table. */
  lemma ListedFileLookedUp(base: string, ext: string)
    requires |base| > 0 && |ext| > 0 && '.' !in ext && '/' !in base && '/' !in ext
    requires Lower(base) in SNAKE_TO_PASCAL
    ensures NormalizeAssetName(base + "." + ext) == SNAKE_TO_PASCAL[Lower(base)]
  {
    StemOfFileName(base, ext);
    TableFirst(base + "." + ext);
  }

  lemma FerrisWheelListed()
    ensures Lower("Ferris_Wheel") in SNAKE_TO_PASCAL
    ensures SNAKE_TO_PASCAL[Lower("Ferris_Wheel")] == "FerrisWheel"
  {
    assert Lower("Ferris_Wheel") == "ferris_wheel";
  }

  /** A text without upper-case letters is its own lower case. */
  lemma LowerOfLower(s: string)
    requires NoUpper(s)
    ensures Lower(s) == s
  {
  }

  /** Capitalising the pieces and lower-casing the result gives back the
      pieces' lower case, glued together. */
  lemma {:induction false} LowerConcatCapitalized(parts: seq<string>)
    requires forall p :: p in parts ==> NoUpper(p)
    ensures Lower(Concat(CapitalizeAll(parts))) == Concat(parts)
  {
    if |parts| > 0 {
      assert parts[1..] == parts[1..];
      forall p | p in parts[1..] ensures p in parts { }
      LowerConcatCapitalized(parts[1..]);
      assert CapitalizeAll(parts) == [Capitalize(parts[0])] + CapitalizeAll(parts[1..]);
      LowerAppend(Capitalize(parts[0]), Concat(CapitalizeAll(parts[1..])));
      LowerCapitalize(parts[0]);
      LowerOfLower(parts[0]);
    }
  }

  /** The pieces of a text without upper-case letters have none either. */
  lemma {:induction false} SplitNoUpper(s: string, sep: char)
    requires NoUpper(s) && !IsUpperChar(sep)
    ensures forall p :: p in Split(s, sep) ==> NoUpper(p)
    decreases |s|
  {
    if |s| > 0 {
      SplitNoUpper(s[1..], sep);
      var rest := Split(s[1..], sep);
      if s[0] != sep {
        assert rest[0] in rest;
        forall p | p in rest[1..] ensures p in rest { }
      }
    }
  }

  /** An all-lower-case snake_case stem outside the table becomes PascalCase:
      its pieces capitalised and glued together. Nothing is lost but the case
      and the underscores: the result has no '_' and lower-cases back to the
      stem without its underscores. */
  lemma SnakeToPascal(filename: string)
    requires var name := Stem(BaseName(filename));
             Lower(name) !in SNAKE_TO_PASCAL && IsLower(name) && '_' in name
    ensures var name := Stem(BaseName(filename));
            var r := NormalizeAssetName(filename);
            r == PascalCase(name) && '_' !in r && Lower(r) == Without(name, '_')
  {
    var name := Stem(BaseName(filename));
    var r := NormalizeAssetName(filename);
    assert r == PascalCase(name);
    SplitNoUpper(name, '_');
    LowerConcatCapitalized(Split(name, '_'));
    ConcatSplit(name, '_');
  }

  /** An all-lower-case stem without '_' outside the table is capitalised: it
      starts with an upper-case letter and otherwise is the stem itself. */
  lemma LowerCapitalized(filename: string)
    requires var name := Stem(BaseName(filename));
             Lower(name) !in SNAKE_TO_PASCAL && IsLower(name) && '_' !in name
    ensures var name := Stem(BaseName(filename));
            var r := NormalizeAssetName(filename);
            r == Capitalize(name) && |name| > 0 && r[0] == UpperChar(name[0]) && r[1..] == name[1..]
  {
    var name := Stem(BaseName(filename));
    var r := NormalizeAssetName(filename);
    assert r[1..] == Lower(name[1..]);
    LowerOfLower(name[1..]);
  }

  /** A stem that is not all lower case, and not in the table, is kept as it is. */
  lemma ProperNameKept(filename: string)
    requires var name := Stem(BaseName(filename));
             Lower(name) !in SNAKE_TO_PASCAL && !IsLower(name)
    ensures NormalizeAssetName(filename) == Stem(BaseName(filename))
  {
  }

  /** A file whose stem is not all lower case, and not in the table, keeps its stem. */
  lemma ProperFileKept(base: string, ext: string)
    requires |base| > 0 && |ext| > 0 && '.' !in ext && '/' !in base && '/' !in ext
    requires Lower(base) !in SNAKE_TO_PASCAL && !IsLower(base)
    ensures NormalizeAssetName(base + "." + ext) == base
  {
    StemOfFileName(base, ext);
    ProperNameKept(base + "." + ext);
  }

  /** A mixed-case snake_case name outside the table keeps its case and its
      underscores. */
  lemma BoulderSmall()
    ensures NormalizeAssetName("Boulder_Small.fbx") == "Boulder_Small"
  {
    BoulderSmallUnlisted();
    BoulderSmallMixed();
    ProperFileKept("Boulder_Small", "fbx");
    BoulderSmallFile();
  }

  lemma BoulderSmallMixed()
    ensures !IsLower("Boulder_Small")
  {
    assert IsUpperChar("Boulder_Small"[0]);
  }

  lemma BoulderSmallFile()
    ensures "Boulder_Small" + "." + "fbx" == "Boulder_Small.fbx"
  {
  }

  lemma BoulderSmallUnlisted()
    ensures Lower("Boulder_Small") !in SNAKE_TO_PASCAL
  {
    assert Lower("Boulder_Small") == "boulder_small";
  }

  // ---------------------------------------------------------------------------
  // organize_for_combine
  // ---------------------------------------------------------------------------

  /** One entry of the models directory: its name, whether it is a directory,
      and the full listing of the names inside it, in directory order; the
      copy loop keeps those that glob("*.fbx") matches (IsFbx). */
  datatype Entry = Entry(name: string, isDir: bool, files: seq<string>)

  /** One copy into the import folder: from folder/file to newName. */
  datatype Copy = Copy(folder: string, file: string, newName: string)

  /** The intermediate folder itself and plain files are not category folders. */
  predicate Skipped(e: Entry) {
    !e.isDir || e.name == "for-import"
  }

  /** FOLDER_TO_CATEGORY.get(folder, folder.capitalize()). */
  function Category(folder: string): string {
    if folder in FOLDER_TO_CATEGORY then FOLDER_TO_CATEGORY[folder] else Capitalize(folder)
  }

  /** f"{category}_{asset_name}.fbx". */
  function CopyName(category: string, file: string): string {
    category + "_" + NormalizeAssetName(file) + ".fbx"
  }

  /** The names Path.glob("*.fbx") matches: those ending in ".fbx". Its '*'
      matches any run of characters, a leading '.' included. */
  predicate IsFbx(file: string) {
    EndsWith(file, ".fbx")
  }

  /** The copies made for the first files of one category folder. */
  function FolderCopies(folder: string, files: seq<string>): seq<Copy> {
    if |files| == 0 then []
    else
      var file := files[|files| - 1];
      FolderCopies(folder, files[..|files| - 1]) +
        (if IsFbx(file) then [Copy(folder, file, CopyName(Category(folder), file))] else [])
  }

  /** The copies made for the first entries of the models directory. */
  function Plan(entries: seq<Entry>): seq<Copy> {
    if |entries| == 0 then []
    else
      var e := entries[|entries| - 1];
      Plan(entries[..|entries| - 1]) + (if Skipped(e) then [] else FolderCopies(e.name, e.files))
  }

  /** Every copy comes from a .fbx file of a category folder and is named
      Category_AssetName.fbx. */
  lemma {:induction false} FolderCopiesNamed(folder: string, files: seq<string>)
    ensures forall c :: c in FolderCopies(folder, files) ==>
      c.folder == folder && c.file in files && IsFbx(c.file) &&
      c.newName == CopyName(Category(folder), c.file)
  {
    if |files| > 0 {
      FolderCopiesNamed(folder, files[..|files| - 1]);
      forall f | f in files[..|files| - 1] ensures f in files { }
    }
  }

  /** Every .fbx file of a folder is copied. */
  lemma {:induction false} FolderCopiesComplete(folder: string, files: seq<string>)
    ensures forall f :: f in files && IsFbx(f) ==>
      Copy(folder, f, CopyName(Category(folder), f)) in FolderCopies(folder, files)
  {
    if |files| > 0 {
      FolderCopiesComplete(folder, files[..|files| - 1]);
      forall f | f in files && IsFbx(f)
        ensures Copy(folder, f, CopyName(Category(folder), f)) in FolderCopies(folder, files)
      {
        if f != files[|files| - 1] {
          var k :| 0 <= k < |files| && files[k] == f;
          assert f in files[..|files| - 1];
        }
      }
    }
  }

  /** The copies are exactly those of the .fbx files of the category folders:
      each carries its Category_AssetName name, and none comes from the
      for-import folder or from a plain file. */
  lemma {:induction false} PlanExactly(entries: seq<Entry>)
    ensures forall c :: c in Plan(entries) ==>
      c.folder != "for-import" && IsFbx(c.file) && c.newName == CopyName(Category(c.folder), c.file) &&
      exists e :: e in entries && !Skipped(e) && e.name == c.folder && c.file in e.files
    ensures forall e, f :: e in entries && !Skipped(e) && f in e.files && IsFbx(f) ==>
      Copy(e.name, f, CopyName(Category(e.name), f)) in Plan(entries)
  {
    if |entries| > 0 {
      var init := entries[..|entries| - 1];
      var last := entries[|entries| - 1];
      PlanExactly(init);
      FolderCopiesNamed(last.name, last.files);
      FolderCopiesComplete(last.name, last.files);
      forall c | c in Plan(entries)
        ensures exists e :: e in entries && !Skipped(e) && e.name == c.folder && c.file in e.files
      {
        if c in Plan(init) {
          var e :| e in init && !Skipped(e) && e.name == c.folder && c.file in e.files;
          assert e in entries;
        } else {
          assert last in entries;
        }
      }
      forall e, f | e in entries && !Skipped(e) && f in e.files && IsFbx(f)
        ensures Copy(e.name, f, CopyName(Category(e.name), f)) in Plan(entries)
      {
        if e != last {
          var k :| 0 <= k < |entries| && entries[k] == e;
          assert e in init;
        }
      }
    }
  }

  /** The number of .fbx names among files. */
  function FbxCount(files: seq<string>): nat {
    if |files| == 0 then 0 else FbxCount(files[..|files| - 1]) + (if IsFbx(files[|files| - 1]) then 1 else 0)
  }

  /** The number of .fbx names in the category folders. */
  function TotalFbx(entries: seq<Entry>): nat {
    if |entries| == 0 then 0
    else
      var e := entries[|entries| - 1];
      TotalFbx(entries[..|entries| - 1]) + (if Skipped(e) then 0 else FbxCount(e.files))
  }

  /** One copy per .fbx file of the category folders. */
  lemma {:induction false} PlanCount(entries: seq<Entry>)
    ensures |Plan(entries)| == TotalFbx(entries)
  {
    if |entries| > 0 {
      PlanCount(entries[..|entries| - 1]);
      var e := entries[|entries| - 1];
      FolderCount(e.name, e.files);
    }
  }

  lemma {:induction false} FolderCount(folder: string, files: seq<string>)
    ensures |FolderCopies(folder, files)| == FbxCount(files)
  {
    if |files| > 0 {
      FolderCount(folder, files[..|files| - 1]);
    }
  }

  /** FolderCopies over one more file. */
  lemma FolderCopiesStep(folder: string, files: seq<string>, j: nat)
    requires j < |files|
    ensures FolderCopies(folder, files[..j + 1]) ==
      FolderCopies(folder, files[..j]) +
        (if IsFbx(files[j]) then [Copy(folder, files[j], CopyName(Category(folder), files[j]))] else [])
  {
    assert files[..j + 1][..j] == files[..j];
  }

  /** The body of the inner loop of organize_for_combine(): a .fbx file is
      copied under its new name and counted, any other name is passed over. */
  method CopyFile(folder: string, category: string, file: string, copies0: seq<Copy>, total0: nat)
    returns (copies: seq<Copy>, totalFiles: nat)
    requires category == Category(folder)
    requires total0 == |copies0|
    ensures copies == copies0 + (if IsFbx(file) then [Copy(folder, file, CopyName(Category(folder), file))] else [])
    ensures totalFiles == |copies|
  {
    copies, totalFiles := copies0, total0;
    if IsFbx(file) {
      var assetName := NormalizeAssetName(file);
      var newName := category + "_" + assetName + ".fbx";
      copies := copies + [Copy(folder, file, newName)];
      totalFiles := totalFiles + 1;
    }
  }

  /** Appending to a list that extends copies0 extends copies0 by the
      appended part as well. */
  lemma AppendAfter(copies0: seq<Copy>, made: seq<Copy>, prev: seq<Copy>, copies: seq<Copy>)
    requires prev == copies0 + made
    requires |prev| <= |copies| && copies[..|prev|] == prev
    ensures copies == copies0 + (made + copies[|prev|..])
  {
    assert copies == prev + copies[|prev|..];
  }

  /** The inner loop of organize_for_combine() for one category folder:
      copies its .fbx files in glob order, counting each. */
  method CopyFolder(folder: Entry, copies0: seq<Copy>, total0: nat) returns (copies: seq<Copy>, totalFiles: nat)
    requires total0 == |copies0|
    ensures copies == copies0 + FolderCopies(folder.name, folder.files)
    ensures totalFiles == |copies|
  {
    copies, totalFiles := copies0, total0;
    var category := Category(folder.name);
    for j := 0 to |folder.files|
      invariant copies == copies0 + FolderCopies(folder.name, folder.files[..j])
      invariant totalFiles == |copies|
    {
      ghost var prev := copies;
      FolderCopiesStep(folder.name, folder.files, j);
      copies, totalFiles := CopyFile(folder.name, category, folder.files[j], copies, totalFiles);
      AppendAfter(copies0, FolderCopies(folder.name, folder.files[..j]), prev, copies);
    }
    assert folder.files[..|folder.files|] == folder.files;
  }

  /** organize_for_combine(): walks the category folders and their .fbx files,
      returning the copies made, in order, and total_files. */
  method OrganizeForCombine(entries: seq<Entry>) returns (copies: seq<Copy>, totalFiles: nat)
    ensures copies == Plan(entries)
    ensures totalFiles == |copies| == TotalFbx(entries)
  {
    copies := [];
    totalFiles := 0;
    for i := 0 to |entries|
      invariant copies == Plan(entries[..i])
      invariant totalFiles == |copies|
    {
      var folder := entries[i];
      assert entries[..i + 1][..i] == entries[..i];
      if !Skipped(folder) {
        copies, totalFiles := CopyFolder(folder, copies, totalFiles);
      }
    }
    assert entries[..|entries|] == entries;
    PlanCount(entries);
  }
}

=== FILE: asset_upload.dfy ===
/** upload-assets-to-roblox.py: the bookkeeping around the Open Cloud upload.
    The HTTP calls are oracles: `upload(i)` is what upload_fbx() returns for
    the i-th .fbx file, and `poll(i)(k)` is the reply to the k-th status
    request for that file's operation. */
module AssetUpload {
  import opened Wrappers
  import opened Strings
  import opened JsonValues
  import AssetNaming

  /** poll_operation()'s default max_attempts, the value main() uses. */
  const MAX_POLL_ATTEMPTS: nat := 30

  /** The HTTP status of a successful request. */
  const HTTP_OK: int := 200

  // ---------------------------------------------------------------------------
  // get_user_id_from_key: the JWT payload and its base64 padding
  // ---------------------------------------------------------------------------

  /** The payload with '=' appended until its length is a multiple of four:
      exactly the shortest such extension. */
  function PaddedPayload(payload: string): (r: string)
    ensures |r| % 4 == 0
    ensures |payload| <= |r| < |payload| + 4
    ensures r[..|payload|] == payload
    ensures forall k :: |payload| <= k < |r| ==> r[k] == '='
    ensures |payload| % 4 == 0 ==> r == payload
  {
    var padding := 4 - |payload| % 4;
    if padding != 4 then payload + seq(padding, _ => '=') else payload
  }

  /** The padded second '.'-separated part of the key, the JWT payload that is
      then base64-decoded; None when the key holds no '.'. */
  function KeyPayload(apiKey: string): Option<string> {
    var parts := Split(apiKey, '.');
    if |parts| >= 2 then Some(PaddedPayload(parts[1])) else None
  }

  /** There is a payload exactly when the key holds a '.'. */
  lemma KeyPayloadPresent(apiKey: string)
    ensures KeyPayload(apiKey).Some? <==> '.' in apiKey
  {
    if '.' in apiKey {
      SplitAtSeparator(apiKey, '.');
    } else {
      SplitWithout(apiKey, '.');
    }
  }

  /** For a key prefix.payload.signature, the payload is what gets padded. */
  lemma KeyPayloadOfJwt(prefix: string, payload: string, signature: string)
    requires '.' !in prefix && '.' !in payload
    ensures KeyPayload(prefix + "." + payload + "." + signature) == Some(PaddedPayload(payload))
  {
    var key := prefix + "." + payload + "." + signature;
    assert key == prefix + ("." + payload + "." + signature);
    SplitPrefix(prefix, "." + payload + "." + signature, '.');
    var tail := "." + payload + "." + signature;
    assert tail[1..] == payload + ("." + signature);
    SplitPrefix(payload, "." + signature, '.');
    assert Split(tail, '.')[1..] == Split(tail[1..], '.');
    assert ("." + signature)[0] == '.';
    assert Split("." + signature, '.')[0] == "";
    assert payload + "" == payload;
  }

  // ---------------------------------------------------------------------------
  // extract_asset_id
  // ---------------------------------------------------------------------------

  /** What extract_asset_id() does: returns a value (Null standing for None),
      or raises because "response" is not an object, or because "path" is
      present but is not a string. NewId reuses it for a whole file, whose
      upload and polls can raise as well. */
  datatype Extracted = Returned(id: Json) | Raised

  /** operation_result.get("response", {}). */
  function ResponseOf(result: map<string, Json>): Json {
    Get(result, "response", Object(map[]))
  }

  /** Python raises on this operation result: its "response" is not an
      object, or the object has no "assetId" and a "path" that is not a
      string. */
  predicate Malformed(result: map<string, Json>) {
    var response := ResponseOf(result);
    !response.Object? ||
    ("assetId" !in response.fields && "path" in response.fields && !response.fields["path"].Str?)
  }

  function ExtractAssetId(result: Option<map<string, Json>>): (r: Extracted)
    ensures r == Raised <==> result.Some? && result.value != map[] && Malformed(result.value)
    ensures result.None? || result.value == map[] ==> r == Returned(Null)
  {
    if result.None? || result.value == map[] then Returned(Null)
    else
      var response := ResponseOf(result.value);
      if !response.Object? then Raised
      else if "assetId" in response.fields then Returned(response.fields["assetId"])
      else
        var path := Get(response.fields, "path", Str(""));
        if !path.Str? then Raised
        else if StartsWith(path.s, "assets/") then
          assert path.s[6] == '/';
          SplitAtSeparator(path.s, '/');
          Returned(Str(Split(path.s, '/')[1]))
        else Returned(Null)
  }

  /** "assetId" wins over "path". */
  lemma AssetIdFirst(result: map<string, Json>, id: Json)
    requires ResponseOf(result).Object? && "assetId" in ResponseOf(result).fields
    requires ResponseOf(result).fields["assetId"] == id
    ensures ExtractAssetId(Some(result)) == Returned(id)
  {
  }

  /** A path "assets/<id>", possibly followed by further '/'-separated parts,
      gives back <id>. */
  lemma AssetPathId(result: map<string, Json>, id: string, tail: string)
    requires ResponseOf(result).Object? && "assetId" !in ResponseOf(result).fields
    requires Get(ResponseOf(result).fields, "path", Str("")) == Str("assets/" + id + tail)
    requires '/' !in id && (tail == "" || tail[0] == '/')
    ensures ExtractAssetId(Some(result)) == Returned(Str(id))
  {
    var path := "assets/" + id + tail;
    AssetsPrefix(path, id, tail);
    SecondPart("assets", id, tail);
  }

  /** "assets/<id><tail>" starts with "assets/" and is "assets", a separator,
      then <id><tail>. */
  lemma AssetsPrefix(path: string, id: string, tail: string)
    requires path == "assets/" + id + tail
    ensures StartsWith(path, "assets/")
    ensures path == "assets" + "/" + id + tail
  {
    StartsWithConcat("assets/", id + tail);
    assert path == "assets/" + (id + tail);
    assert "assets/" == "assets" + "/";
  }

  /** Between the first separator and the next one (or the end) lies the
      second part. */
  lemma SecondPart(head: string, id: string, tail: string)
    requires '/' !in head && '/' !in id && (tail == "" || tail[0] == '/')
    ensures |Split(head + "/" + id + tail, '/')| >= 2 && Split(head + "/" + id + tail, '/')[1] == id
  {
    var after := "/" + (id + tail);
    assert head + "/" + id + tail == head + after;
    SplitPrefix(head, after, '/');
    assert after[1..] == id + tail;
    assert Split(after, '/') == [""] + Split(id + tail, '/');
    SplitPrefix(id, tail, '/');
    if tail == "" {
      assert Split(tail, '/')[0] == "";
    } else {
      assert tail == [tail[0]] + tail[1..];
      assert Split(tail, '/')[0] == "";
    }
    assert id + "" == id;
  }

  /** Any other string path gives None, even when the result reports an error. */
  lemma OtherPathNone(result: map<string, Json>, path: string)
    requires ResponseOf(result).Object? && "assetId" !in ResponseOf(result).fields
    requires Get(ResponseOf(result).fields, "path", Str("")) == Str(path)
    requires !StartsWith(path, "assets/")
    ensures result != map[] ==> ExtractAssetId(Some(result)) == Returned(Null)
  {
  }

  // ---------------------------------------------------------------------------
  // poll_operation
  // ---------------------------------------------------------------------------

  /** One status request: requests.get() or response.json() raised, or the
      reply came back with its HTTP status and, when that is 200, its decoded
      JSON body (any JSON value). */
  datatype PollReply = PollRaised | PollReply(status: int, body: Json)

  /** poll_operation() raises on this reply: the request or the decoding
      raised, or a 200 body is not an object, so data.get("done") raises. */
  predicate PollRaises(reply: PollReply) {
    reply.PollRaised? || (reply.status == HTTP_OK && !reply.body.Object?)
  }

  /** A 200 reply whose object has a "done" that is true in Python's sense. */
  predicate IsDone(reply: PollReply) {
    reply.PollReply? && reply.status == HTTP_OK && reply.body.Object? &&
    Truthy(Get(reply.body.fields, "done", Null))
  }

  /** How poll_operation() ends: the first done body, None after the last
      attempt, or an exception. */
  datatype Polled = Done(fields: map<string, Json>) | Exhausted | PollCrashed

  /** The first n replies of a poll oracle, in request order. */
  function Replies(poll: nat -> PollReply, n: nat): seq<PollReply> {
    seq(n, k requires 0 <= k => poll(k))
  }

  /** The first reply that raises or is done decides; without one the polls
      are exhausted. */
  function FirstDone(replies: seq<PollReply>): Polled {
    if |replies| == 0 then Exhausted
    else if PollRaises(replies[0]) then PollCrashed
    else if IsDone(replies[0]) then Done(replies[0].body.fields)
    else FirstDone(replies[1..])
  }

  /** The polls are exhausted exactly when no reply raises or is done. */
  lemma {:induction false} FirstDoneNone(replies: seq<PollReply>)
    ensures FirstDone(replies) == Exhausted <==>
      forall k :: 0 <= k < |replies| ==> !PollRaises(replies[k]) && !IsDone(replies[k])
  {
    if |replies| > 0 {
      FirstDoneNone(replies[1..]);
      assert forall k :: 1 <= k < |replies| ==> replies[k] == replies[1..][k - 1];
    }
  }

  /** The first reply that raises or is done is the one that decides. */
  lemma {:induction false} FirstDoneAt(replies: seq<PollReply>, k: nat)
    requires k < |replies| && (PollRaises(replies[k]) || IsDone(replies[k]))
    requires forall j :: 0 <= j < k ==> !PollRaises(replies[j]) && !IsDone(replies[j])
    ensures FirstDone(replies) == if PollRaises(replies[k]) then PollCrashed else Done(replies[k].body.fields)
  {
    if k > 0 {
      FirstDoneAt(replies[1..], k - 1);
    }
  }

  /** max(0, n): the number of iterations of range(n). */
  function Iterations(n: int): nat {
    if n < 0 then 0 else n
  }

  /** poll_operation(): at most max_attempts status requests; the body of the
      first done reply, None when every request failed or was not done, or
      the exception of the first reply that raises. `polls` is the number of
      requests made. */
  method PollOperation(poll: nat -> PollReply, maxAttempts: int) returns (result: Polled, polls: nat)
    ensures result == FirstDone(Replies(poll, Iterations(maxAttempts)))
    ensures polls <= Iterations(maxAttempts)
    ensures result.Done? ==> 1 <= polls && IsDone(poll(polls - 1)) && result.fields == poll(polls - 1).body.fields
    ensures result.PollCrashed? ==> 1 <= polls && PollRaises(poll(polls - 1))
    ensures result.Exhausted? ==> polls == Iterations(maxAttempts)
  {
    var n := Iterations(maxAttempts);
    ghost var replies := Replies(poll, n);
    for attempt := 0 to n
      invariant forall j :: 0 <= j < attempt ==> !PollRaises(replies[j]) && !IsDone(replies[j])
    {
      var response := poll(attempt);
      assert response == replies[attempt];
      if response.PollRaised? {
        FirstDoneAt(replies, attempt);
        return PollCrashed, attempt + 1;
      }
      if response.status != HTTP_OK {
        continue;
      }
      var data := response.body;
      if !data.Object? {
        FirstDoneAt(replies, attempt);
        return PollCrashed, attempt + 1;
      }
      if Truthy(Get(data.fields, "done", Null)) {
        FirstDoneAt(replies, attempt);
        return Done(data.fields), attempt + 1;
      }
    }
    FirstDoneNone(replies);
    result, polls := Exhausted, n;
  }

  // ---------------------------------------------------------------------------
  // main: the asset_ids merge
  // ---------------------------------------------------------------------------

  /** The ids known so far and uploaded_count. */
  datatype Tally = Tally(ids: map<string, Json>, uploaded: nat)

  /** The end of main(): nothing to upload, the run raised before the ids
      were written, or the ids were saved with the count of new uploads. */
  datatype RunOutcome = NoFiles | Crashed | Saved(ids: map<string, Json>, uploaded: nat)

  /** Crashed when the run raised, otherwise the saved ids and the count. */
  function Outcome(m: Option<Tally>): RunOutcome {
    match m
    case None => Crashed
    case Some(t) => Saved(t.ids, t.uploaded)
  }

  /** What upload_fbx() does: it raises (requests.post() raised, or a 200
      reply's body is not JSON), returns None (any other status), or returns
      the decoded body of a 200 reply (any JSON value). */
  datatype UploadReply = UploadRaised | UploadRefused | Uploaded(body: Json)

  /** What one unknown file contributes, once its upload has been attempted:
      the extracted id (Null when there is none), or Raised when the upload,
      operation.get("path"), the polls or extract_asset_id() raise. */
  function NewId(upload: UploadReply, poll: nat -> PollReply): Extracted {
    match upload
    case UploadRaised => Raised
    case UploadRefused => Returned(Null)
    case Uploaded(operation) =>
      if !Truthy(operation) then Returned(Null)
      else if !operation.Object? then Raised
      else if !Truthy(Get(operation.fields, "path", Null)) then Returned(Null)
      else
        match FirstDone(Replies(poll, MAX_POLL_ATTEMPTS))
        case PollCrashed => Raised
        case Exhausted => ExtractAssetId(None)
        case Done(fields) => ExtractAssetId(Some(fields))
  }

  /** What one file's upload and polls give, for the i-th file. */
  function Outcomes(upload: nat -> UploadReply, poll: nat -> nat -> PollReply): nat -> Extracted {
    (i: nat) => NewId(upload(i), poll(i))
  }

  /** The display names of the files: fbx_file.stem for each, in order. */
  function Stems(files: seq<string>): (names: seq<string>)
    ensures |names| == |files|
    ensures forall i :: 0 <= i < |files| ==> names[i] == AssetNaming.Stem(files[i])
  {
    seq(|files|, i requires 0 <= i < |files| => AssetNaming.Stem(files[i]))
  }

  /** One iteration of main()'s loop, given what extracting the file's id
      gives: a known stem is skipped; otherwise a truthy extracted id is
      recorded and counted, a falsy one is not, and an exception ends the run
      (None). */
  function Step(t: Tally, name: string, e: Extracted): Option<Tally> {
    if name in t.ids then Some(t)
    else
      match e
      case Raised => None
      case Returned(id) =>
        if Truthy(id) then Some(Tally(t.ids[name := id], t.uploaded + 1)) else Some(t)
  }

  /** A step never drops or overwrites a key; the one key it may add is the
      file's stem, holding the truthy id extracted for it, and then the count
      goes up by one. */
  lemma StepGrows(t: Tally, name: string, e: Extracted)
    requires Step(t, name, e).Some?
    ensures var t' := Step(t, name, e).value;
      (forall k :: k in t.ids ==> k in t'.ids && t'.ids[k] == t.ids[k]) &&
      (forall k :: k in t'.ids && k !in t.ids ==>
        k == name && Truthy(t'.ids[k]) && e == Returned(t'.ids[k])) &&
      |t'.ids| - t'.uploaded == |t.ids| - t.uploaded
  {
  }

  /** A step on a known stem does not look at the extraction, so neither the
      upload nor the poll is consulted. */
  lemma StepSkipsKnown(t: Tally, name: string, e1: Extracted, e2: Extracted)
    requires name in t.ids
    ensures Step(t, name, e1) == Step(t, name, e2) == Some(t)
  {
  }

  /** The tally after the first n files, `outcomes(i)` being what the i-th
      file's extraction gives; None when one of them raised. */
  function Merged(names: seq<string>, existing: map<string, Json>, outcomes: nat -> Extracted, n: nat): Option<Tally>
    requires n <= |names|
  {
    if n == 0 then Some(Tally(existing, 0))
    else
      match Merged(names, existing, outcomes, n - 1)
      case None => None
      case Some(t) => Step(t, names[n - 1], outcomes(n - 1))
  }

  /** The tally after one more file is that file's step from the tally before. */
  lemma MergedNext(names: seq<string>, existing: map<string, Json>, outcomes: nat -> Extracted, i: nat, t: Tally)
    requires i < |names| && Merged(names, existing, outcomes, i) == Some(t)
    ensures Merged(names, existing, outcomes, i + 1) == Step(t, names[i], outcomes(i))
  {
  }

  /** One iteration of the loop, as the loop sees it: after a step that did
      not crash the tally is the fold one file further, and after a crash the
      whole fold has crashed. */
  lemma LoopStep(
    names: seq<string>, existing: map<string, Json>, outcomes: nat -> Extracted,
    i: nat, before: Tally, t: Tally, crashed: bool)
    requires i < |names| && Merged(names, existing, outcomes, i) == Some(before)
    requires crashed <==> Step(before, names[i], outcomes(i)).None?
    requires !crashed ==> Step(before, names[i], outcomes(i)) == Some(t)
    ensures crashed ==> Merged(names, existing, outcomes, |names|).None?
    ensures !crashed ==> Merged(names, existing, outcomes, i + 1) == Some(t)
  {
    MergedNext(names, existing, outcomes, i, before);
    if crashed {
      CrashPersists(names, existing, outcomes, i + 1, |names|);
    }
  }

  /** Ids loaded from the existing file stay, unchanged. */
  lemma {:induction false} MergedKeepsExisting(
    names: seq<string>, existing: map<string, Json>, outcomes: nat -> Extracted, n: nat)
    requires n <= |names|
    requires Merged(names, existing, outcomes, n).Some?
    ensures var t := Merged(names, existing, outcomes, n).value;
      forall k :: k in existing ==> k in t.ids && t.ids[k] == existing[k]
  {
    if n > 0 {
      var prev := Merged(names, existing, outcomes, n - 1);
      MergedKeepsExisting(names, existing, outcomes, n - 1);
      StepGrows(prev.value, names[n - 1], outcomes(n - 1));
    }
  }

  /** Every added key is the stem of one of the files and holds the truthy id
      extracted for that file. */
  lemma {:induction false} MergedAddsExtracted(
    names: seq<string>, existing: map<string, Json>, outcomes: nat -> Extracted, n: nat)
    requires n <= |names|
    requires Merged(names, existing, outcomes, n).Some?
    ensures var t := Merged(names, existing, outcomes, n).value;
      forall k :: k in t.ids && k !in existing ==>
        Truthy(t.ids[k]) &&
        exists j :: 0 <= j < n && names[j] == k && outcomes(j) == Returned(t.ids[k])
  {
    if n > 0 {
      var prev := Merged(names, existing, outcomes, n - 1);
      MergedAddsExtracted(names, existing, outcomes, n - 1);
      StepGrows(prev.value, names[n - 1], outcomes(n - 1));
    }
  }

  /** uploaded_count is the number of keys added in the run. */
  lemma {:induction false} MergedCount(
    names: seq<string>, existing: map<string, Json>, outcomes: nat -> Extracted, n: nat)
    requires n <= |names|
    requires Merged(names, existing, outcomes, n).Some?
    ensures var t := Merged(names, existing, outcomes, n).value;
      |t.ids| == |existing| + t.uploaded
  {
    if n > 0 {
      var prev := Merged(names, existing, outcomes, n - 1);
      MergedCount(names, existing, outcomes, n - 1);
      StepGrows(prev.value, names[n - 1], outcomes(n - 1));
    }
  }

  /** Once a file has raised, the run stays crashed. */
  lemma {:induction false} CrashPersists(
    names: seq<string>, existing: map<string, Json>, outcomes: nat -> Extracted, n: nat, m: nat)
    requires n <= m <= |names|
    requires Merged(names, existing, outcomes, n).None?
    ensures Merged(names, existing, outcomes, m).None?
    decreases m - n
  {
    if n < m {
      CrashPersists(names, existing, outcomes, n + 1, m);
    }
  }

  /** Runs whose extractions agree on every file with an unknown stem end
      alike. */
  lemma {:induction false} AgreeingOutcomes(
    names: seq<string>, existing: map<string, Json>,
    outcomes1: nat -> Extracted, outcomes2: nat -> Extracted, n: nat)
    requires n <= |names|
    requires forall j :: 0 <= j < n && names[j] !in existing ==> outcomes1(j) == outcomes2(j)
    ensures Merged(names, existing, outcomes1, n) == Merged(names, existing, outcomes2, n)
  {
    if n > 0 {
      AgreeingOutcomes(names, existing, outcomes1, outcomes2, n - 1);
      var prev := Merged(names, existing, outcomes1, n - 1);
      if prev.Some? {
        if names[n - 1] in existing {
          MergedKeepsExisting(names, existing, outcomes1, n - 1);
          StepSkipsKnown(prev.value, names[n - 1], outcomes1(n - 1), outcomes2(n - 1));
        } else {
          assert outcomes1(n - 1) == outcomes2(n - 1);
        }
      }
    }
  }

  /** Files whose stem is already a key are never uploaded or polled: what
      the oracles answer for them does not matter. */
  lemma KnownFilesSkipped(
    files: seq<string>, existing: map<string, Json>,
    upload1: nat -> UploadReply, poll1: nat -> nat -> PollReply,
    upload2: nat -> UploadReply, poll2: nat -> nat -> PollReply, n: nat)
    requires n <= |files|
    requires forall j :: 0 <= j < n && AssetNaming.Stem(files[j]) !in existing ==>
      upload1(j) == upload2(j) && poll1(j) == poll2(j)
    ensures Merged(Stems(files), existing, Outcomes(upload1, poll1), n) ==
            Merged(Stems(files), existing, Outcomes(upload2, poll2), n)
  {
    var names := Stems(files);
    var outcomes1, outcomes2 := Outcomes(upload1, poll1), Outcomes(upload2, poll2);
    forall j | 0 <= j < n && names[j] !in existing
      ensures outcomes1(j) == outcomes2(j)
    {
      assert outcomes1(j) == NewId(upload1(j), poll1(j));
      assert outcomes2(j) == NewId(upload2(j), poll2(j));
    }
    AgreeingOutcomes(names, existing, outcomes1, outcomes2, n);
  }

  /** The upload raises, its body is truthy but not an object, or the first
      poll raises: the file's extraction raises. */
  predicate NetworkFailure(upload: UploadReply, poll: nat -> PollReply) {
    upload.UploadRaised? ||
    (upload.Uploaded? && Truthy(upload.body) &&
     (!upload.body.Object? || (Truthy(Get(upload.body.fields, "path", Null)) && PollRaises(poll(0)))))
  }

  /** Each of those failures raises. */
  lemma NetworkFailureRaises(upload: UploadReply, poll: nat -> PollReply)
    requires NetworkFailure(upload, poll)
    ensures NewId(upload, poll) == Raised
  {
    if upload.Uploaded? && upload.body.Object? {
      FirstDoneAt(Replies(poll, MAX_POLL_ATTEMPTS), 0);
    }
  }

  /** A file with an unknown stem whose extraction raises ends the run. */
  lemma RaisedEndsRun(names: seq<string>, existing: map<string, Json>, outcomes: nat -> Extracted, j: nat)
    requires j < |names| && outcomes(j) == Raised
    requires var m := Merged(names, existing, outcomes, j); m.Some? ==> names[j] !in m.value.ids
    ensures Merged(names, existing, outcomes, |names|).None?
  {
    var m := Merged(names, existing, outcomes, j);
    if m.Some? {
      MergedNext(names, existing, outcomes, j, m.value);
      CrashPersists(names, existing, outcomes, j + 1, |names|);
    } else {
      CrashPersists(names, existing, outcomes, j, |names|);
    }
  }

  /** A file with a stem not yet known whose upload raises, whose upload body
      is truthy but not an object, or whose first poll raises ends the run
      before the ids are written. */
  lemma NetworkFailureEndsRun(
    files: seq<string>, existing: map<string, Json>,
    upload: nat -> UploadReply, poll: nat -> nat -> PollReply, j: nat)
    requires j < |files| && NetworkFailure(upload(j), poll(j))
    requires var m := Merged(Stems(files), existing, Outcomes(upload, poll), j);
      m.Some? ==> AssetNaming.Stem(files[j]) !in m.value.ids
    ensures Outcome(Merged(Stems(files), existing, Outcomes(upload, poll), |files|)) == Crashed
  {
    NetworkFailureRaises(upload(j), poll(j));
    assert Outcomes(upload, poll)(j) == NewId(upload(j), poll(j));
    RaisedEndsRun(Stems(files), existing, Outcomes(upload, poll), j);
  }

  /** One iteration of main()'s loop over the files: skip a known stem,
      otherwise upload, poll and record a truthy id. `crashed` reports an
      exception from the upload, the polls or extract_asset_id(). */
  method UploadOne(
    file: string, upload: nat -> UploadReply, poll: nat -> nat -> PollReply, i: nat, t0: Tally)
    returns (t: Tally, crashed: bool)
    ensures crashed <==> Step(t0, AssetNaming.Stem(file), Outcomes(upload, poll)(i)).None?
    ensures !crashed ==> Step(t0, AssetNaming.Stem(file), Outcomes(upload, poll)(i)) == Some(t)
  {
    assert Outcomes(upload, poll)(i) == NewId(upload(i), poll(i));
    t, crashed := t0, false;
    var displayName := AssetNaming.Stem(file);
    if displayName in t.ids {
      return;
    }
    var reply := upload(i);
    if reply.UploadRaised? {
      return t, true;
    }
    if reply.UploadRefused? || !Truthy(reply.body) {
      return;
    }
    var operation := reply.body;
    if !operation.Object? {
      return t, true;
    }
    var operationPath := Get(operation.fields, "path", Null);
    if !Truthy(operationPath) {
      return;
    }
    var polled, _ := PollOperation(poll(i), MAX_POLL_ATTEMPTS);
    if polled.PollCrashed? {
      return t, true;
    }
    var result := if polled.Done? then Some(polled.fields) else None;
    var assetId := ExtractAssetId(result);
    if assetId.Raised? {
      return t, true;
    }
    if Truthy(assetId.id) {
      t := Tally(t.ids[displayName := assetId.id], t.uploaded + 1);
    }
  }

  /** main()'s upload loop over the .fbx files, in glob order, starting from
      the ids already saved. */
  method UploadAll(
    files: seq<string>, existing: map<string, Json>,
    upload: nat -> UploadReply, poll: nat -> nat -> PollReply)
    returns (outcome: RunOutcome)
    ensures |files| == 0 ==> outcome == NoFiles
    ensures |files| > 0 ==> outcome == Outcome(Merged(Stems(files), existing, Outcomes(upload, poll), |files|))
  {
    if |files| == 0 {
      return NoFiles;
    }
    ghost var names := Stems(files);
    var t := Tally(existing, 0);
    for i := 0 to |files|
      invariant Merged(names, existing, Outcomes(upload, poll), i) == Some(t)
    {
      var crashed;
      ghost var before := t;
      t, crashed := UploadOne(files[i], upload, poll, i, t);
      assert names[i] == AssetNaming.Stem(files[i]);
      LoopStep(names, existing, Outcomes(upload, poll), i, before, t, crashed);
      if crashed {
        return Crashed;
      }
    }
    return Saved(t.ids, t.uploaded);
  }
}

=== FILE: combine.dfy ===
/** The max-combination the terrain generators use for every feature field
    (valleys, mountain ranges, sub-peaks, peaks): a running value starts at
    `init` and each feature that is in reach replaces it by
    max(running, contribution); features out of reach leave it alone. */
module Combine {
  import opened Wrappers
  import opened Numeric

  /** The running value after features 0 .. n - 1, where c(k) is feature k's
      contribution, or None when the feature's `if` guard fails. */
  function FoldMax(init: real, c: nat -> Option<real>, n: nat): real {
    if n == 0 then init
    else
      var acc := FoldMax(init, c, n - 1);
      match c(n - 1)
      case None => acc
      case Some(v) => Max(acc, v)
  }

  /** The fold never drops below its start nor below any contribution it has seen. */
  lemma {:induction false} FoldMaxAtLeast(init: real, c: nat -> Option<real>, n: nat)
    ensures init <= FoldMax(init, c, n)
    ensures forall k :: 0 <= k < n && c(k).Some? ==> c(k).value <= FoldMax(init, c, n)
  {
    if n > 0 {
      FoldMaxAtLeast(init, c, n - 1);
    }
  }

  /** The fold is the start or one of the contributions: a maximum, never a sum. */
  lemma {:induction false} FoldMaxAttained(init: real, c: nat -> Option<real>, n: nat)
    ensures FoldMax(init, c, n) == init ||
            exists k :: 0 <= k < n && c(k) == Some(FoldMax(init, c, n))
  {
    if n > 0 {
      FoldMaxAttained(init, c, n - 1);
      var acc := FoldMax(init, c, n - 1);
      if acc != init {
        var k :| 0 <= k < n - 1 && c(k) == Some(acc);
        assert c(k) == Some(acc);
      }
    }
  }

  /** A bound on the start and on every contribution bounds the fold. */
  lemma {:induction false} FoldMaxAtMost(init: real, c: nat -> Option<real>, n: nat, bound: real)
    requires init <= bound
    requires forall k :: 0 <= k < n && c(k).Some? ==> c(k).value <= bound
    ensures FoldMax(init, c, n) <= bound
  {
    if n > 0 {
      FoldMaxAtMost(init, c, n - 1, bound);
    }
  }

  /** With no contribution at all the fold keeps its start. */
  lemma {:induction false} FoldMaxNone(init: real, c: nat -> Option<real>, n: nat)
    requires forall k :: 0 <= k < n ==> c(k) == None
    ensures FoldMax(init, c, n) == init
  {
    if n > 0 {
      FoldMaxNone(init, c, n - 1);
    }
  }
}

=== FILE: dream_terrain.dfy ===
/** generate_dream_terrain.py: the height field of the dream world (domain-warped
    fbm layers, ridged mountain ranges with sub-peaks, carved river valleys, an
    edge fall-off and a safe spawn area) and the grid mesh built from it. */
module DreamTerrain {
  import opened Wrappers
  import opened Numeric
  import opened Noise
  import opened Combine
  import opened Grid
  import Strings

  const WORLD_SIZE: real := 3000.0
  const RESOLUTION: nat := 200
  const WATER_LEVEL: real := -8.0
  const SEED: int := 42069
  /** math.pi; only ever fed to sin and cos, whose values the model leaves open. */
  const PI: real := 3.141592653589793

  /** The peak shapes; the source's final `else` branch (shown as Eroded)
      catches every style string other than the first four. */
  datatype Style = Jagged | Ridged | Volcanic | Massive | Eroded

  /** A mountain range of MOUNTAIN_RANGES. */
  datatype MountainRange = MountainRange(
    name: string, cx: real, cy: real, radius: real,
    peakHeight: real, peaks: nat, style: Style)

  /** A river valley of RIVER_VALLEYS: a segment and its width (the carve
      reaches 2 * width from the segment). */
  datatype Valley = Valley(x1: real, y1: real, x2: real, y2: real, width: real, name: string)

  const MOUNTAIN_RANGES: seq<MountainRange> := [
    MountainRange("The Frozen Sentinels", 400.0, -500.0, 500.0, 420.0, 5, Jagged),
    MountainRange("Shadow's Teeth", 500.0, -200.0, 400.0, 350.0, 4, Ridged),
    MountainRange("The Ember Crown", 250.0, 300.0, 350.0, 300.0, 3, Volcanic),
    MountainRange("Giants' Throne", 450.0, 450.0, 550.0, 450.0, 6, Massive),
    MountainRange("The Broken Spine", -400.0, 350.0, 300.0, 200.0, 8, Eroded)
  ]

  const RIVER_VALLEYS: seq<Valley> := [
    Valley(-500.0, -400.0, -100.0, 400.0, 60.0, "Serpent's Flow"),
    Valley(100.0, -300.0, 350.0, 300.0, 40.0, "Whispering Waters"),
    Valley(-300.0, 100.0, 200.0, 400.0, 50.0, "Shadow Creek")
  ]

  /** The feature tables calculate_height reads: the mountain ranges and the
      river valleys. */
  datatype World = World(ranges: seq<MountainRange>, valleys: seq<Valley>)

  /** The world generate_dream_terrain.py builds. */
  const DREAM_WORLD: World := World(MOUNTAIN_RANGES, RIVER_VALLEYS)

  // ---------------------------------------------------------------------------
  // Noise
  // ---------------------------------------------------------------------------

  /** simple_noise: Blender noise at (x + seed/10, y + seed/10, z). */
  function SimpleNoise(env: Env, x: real, y: real, z: real, seed: int): real {
    env.noise(x + (seed as real) * 0.1, y + (seed as real) * 0.1, z)
  }

  /** simple_noise(x * f, y * f, seed=seed): one octave's sample at frequency f. */
  function OctaveNoise(env: Env, x: real, y: real, f: real, seed: int): real {
    SimpleNoise(env, x * f, y * f, 0.0, seed)
  }

  /** fbm's octave i: the sample at its frequency with seed + 100 * i. */
  function FbmSampler(env: Env, x: real, y: real, seed: int): OctaveSampler {
    (i: nat, f: real) => OctaveNoise(env, x, y, f, seed + i * 100)
  }

  /** ridged_multifractal's octave i: the sample at its frequency with seed + 50 * i. */
  function RidgedSampler(env: Env, x: real, y: real, seed: int): OctaveSampler {
    (i: nat, f: real) => OctaveNoise(env, x, y, f, seed + i * 50)
  }

  /** Bounded Blender noise makes every octave sample bounded. */
  lemma SamplersInUnitRange(env: Env, x: real, y: real, seed: int)
    ensures NoiseBounded(env) ==> UnitRange(FbmSampler(env, x, y, seed))
    ensures NoiseBounded(env) ==> UnitRange(RidgedSampler(env, x, y, seed))
  {
    if NoiseBounded(env) {
      forall i: nat, f: real
        ensures -1.0 <= FbmSampler(env, x, y, seed)(i, f) <= 1.0
        ensures -1.0 <= RidgedSampler(env, x, y, seed)(i, f) <= 1.0
      {
        assert FbmSampler(env, x, y, seed)(i, f) == OctaveNoise(env, x, y, f, seed + i * 100);
        assert RidgedSampler(env, x, y, seed)(i, f) == OctaveNoise(env, x, y, f, seed + i * 50);
      }
    }
  }

  /** The value of fbm(x, y, octaves, persistence, lacunarity, scale, seed):
      the generic fractal sum started at frequency 1 / scale. */
  function FbmAt(env: Env, x: real, y: real, octaves: nat, persistence: real,
                 lacunarity: real, scale: real, seed: int): real
    requires 1 <= octaves && 0.0 <= persistence && scale != 0.0
  {
    FbmValue(FbmSampler(env, x, y, seed), octaves, persistence, lacunarity, 1.0 / scale)
  }

  /** The value of ridged_multifractal(x, y, octaves, scale, seed). */
  function RidgedAt(env: Env, x: real, y: real, octaves: nat, scale: real, seed: int): real
    requires scale != 0.0
  {
    RidgedTotal(RidgedSampler(env, x, y, seed), 1.0 / scale, 2.2, true, octaves)
  }

  /** With Blender's noise in [-1, 1], fbm stays in [-1, 1]. */
  lemma FbmAtBounded(env: Env, x: real, y: real, octaves: nat, persistence: real,
                     lacunarity: real, scale: real, seed: int)
    requires NoiseBounded(env) && 1 <= octaves && 0.0 <= persistence && scale != 0.0
    ensures -1.0 <= FbmAt(env, x, y, octaves, persistence, lacunarity, scale, seed) <= 1.0
  {
    SamplersInUnitRange(env, x, y, seed);
    FbmBounded(FbmSampler(env, x, y, seed), octaves, persistence, lacunarity, 1.0 / scale);
  }

  /** ridged_multifractal is never negative, and below 2 when the noise is in [-1, 1]. */
  lemma RidgedAtRange(env: Env, x: real, y: real, octaves: nat, scale: real, seed: int)
    requires scale != 0.0
    ensures 0.0 <= RidgedAt(env, x, y, octaves, scale, seed)
    ensures NoiseBounded(env) ==> RidgedAt(env, x, y, octaves, scale, seed) < 2.0
  {
    SamplersInUnitRange(env, x, y, seed);
    RidgedRange(RidgedSampler(env, x, y, seed), 1.0 / scale, 2.2, true, octaves);
  }

  /** fbm(x, y, octaves, persistence, lacunarity, scale, seed): starts at frequency 1 / scale. */
  method Fbm(env: Env, x: real, y: real, octaves: nat, persistence: real,
             lacunarity: real, scale: real, seed: int) returns (r: real)
    requires 1 <= octaves && 0.0 <= persistence && scale != 0.0
    ensures r == FbmAt(env, x, y, octaves, persistence, lacunarity, scale, seed)
    ensures NoiseBounded(env) ==> -1.0 <= r <= 1.0
  {
    r := Noise.Fbm(FbmSampler(env, x, y, seed), octaves, persistence, lacunarity, 1.0 / scale);
    if NoiseBounded(env) {
      FbmAtBounded(env, x, y, octaves, persistence, lacunarity, scale, seed);
    }
  }

  /** ridged_multifractal(x, y, octaves, scale, seed): weighted by the previous
      octave, frequency times 2.2 per octave. */
  method RidgedMultifractal(env: Env, x: real, y: real, octaves: nat, scale: real, seed: int)
    returns (r: real)
    requires scale != 0.0
    ensures r == RidgedAt(env, x, y, octaves, scale, seed)
    ensures 0.0 <= r
    ensures NoiseBounded(env) ==> r < 2.0
  {
    r := Noise.Ridged(RidgedSampler(env, x, y, seed), octaves, 1.0 / scale, 2.2, true);
    RidgedAtRange(env, x, y, octaves, scale, seed);
  }

  /** domain_warp: each coordinate moves by a 3-octave fbm times strength * scale. */
  function DomainWarp(env: Env, x: real, y: real, strength: real, scale: real, seed: int): (real, real)
    requires scale != 0.0
  {
    (x + FbmAt(env, x + 1000.0, y + 1000.0, 3, 0.5, 2.0, scale, seed) * strength * scale,
     y + FbmAt(env, x + 2000.0, y + 2000.0, 3, 0.5, 2.0, scale, seed + 100) * strength * scale)
  }

  /** A value in [-1, 1] times s times c moves a coordinate by at most s * c. */
  lemma WarpStep(v: real, s: real, c: real)
    requires -1.0 <= v <= 1.0 && 0.0 <= s && 0.0 <= c
    ensures Abs(v * s * c) <= s * c
  {
    var w := s * c;
    assert v * s * c == v * w;
    assert Abs(v * s * c) == Abs(v * w);
    ScaledSampleBounded(v, w);
    if v * w < 0.0 {
      assert Abs(v * w) == -(v * w);
    } else {
      assert Abs(v * w) == v * w;
    }
  }

  /** The warp displaces each coordinate by at most strength * scale. */
  lemma DomainWarpBounded(env: Env, x: real, y: real, strength: real, scale: real, seed: int)
    requires NoiseBounded(env) && 0.0 <= strength && 0.0 < scale
    ensures Abs(DomainWarp(env, x, y, strength, scale, seed).0 - x) <= strength * scale
    ensures Abs(DomainWarp(env, x, y, strength, scale, seed).1 - y) <= strength * scale
  {
    var w := DomainWarp(env, x, y, strength, scale, seed);
    var a := FbmAt(env, x + 1000.0, y + 1000.0, 3, 0.5, 2.0, scale, seed);
    var b := FbmAt(env, x + 2000.0, y + 2000.0, 3, 0.5, 2.0, scale, seed + 100);
    FbmAtBounded(env, x + 1000.0, y + 1000.0, 3, 0.5, 2.0, scale, seed);
    FbmAtBounded(env, x + 2000.0, y + 2000.0, 3, 0.5, 2.0, scale, seed + 100);
    WarpStep(a, strength, scale);
    WarpStep(b, strength, scale);
    assert w.0 - x == a * strength * scale;
    assert w.1 - y == b * strength * scale;
  }

  // ---------------------------------------------------------------------------
  // Valleys
  // ---------------------------------------------------------------------------

  /** The unclamped projection parameter of (px, py) onto a segment of non-zero
      length: ((px - x1) * dx + (py - y1) * dy) / length_sq. */
  function ProjectionParam(px: real, py: real, x1: real, y1: real, x2: real, y2: real): real
    requires SqDist(x2, y2, x1, y1) != 0.0
  {
    ((px - x1) * (x2 - x1) + (py - y1) * (y2 - y1)) / SqDist(x2, y2, x1, y1)
  }

  /** The projection parameter clamped with max(0, min(1, ...)). */
  function SegmentParam(px: real, py: real, x1: real, y1: real, x2: real, y2: real): (t: real)
    requires SqDist(x2, y2, x1, y1) != 0.0
    ensures 0.0 <= t <= 1.0
    ensures 0.0 < t < 1.0 ==> t == ProjectionParam(px, py, x1, y1, x2, y2)
  {
    Max(0.0, Min(1.0, ProjectionParam(px, py, x1, y1, x2, y2)))
  }

  /** distance_to_line_segment: the distance to the clamped projection, or to
      (x1, y1) when the segment has length zero. */
  function DistanceToSegment(env: Env, px: real, py: real, x1: real, y1: real, x2: real, y2: real): NonNegReal {
    if SqDist(x2, y2, x1, y1) == 0.0 then Dist(env, px, py, x1, y1)
    else
      var t := SegmentParam(px, py, x1, y1, x2, y2);
      Dist(env, px, py, x1 + t * (x2 - x1), y1 + t * (y2 - y1))
  }

  /** The distance is never negative; for a zero-length segment it is the distance to its start. */
  lemma DistanceToSegmentFacts(env: Env, px: real, py: real, x1: real, y1: real, x2: real, y2: real)
    ensures 0.0 <= DistanceToSegment(env, px, py, x1, y1, x2, y2)
    ensures x1 == x2 && y1 == y2 ==>
      DistanceToSegment(env, px, py, x1, y1, x2, y2) == Dist(env, px, py, x1, y1)
  {
  }

  /** The clamped projection is the nearest point of the segment as far as the
      endpoints go: the distance to the segment is at most the distance to
      either endpoint. */
  lemma DistanceToSegmentAtMostEndpoints(env: Env, px: real, py: real, x1: real, y1: real, x2: real, y2: real)
    requires SqrtSound(env)
    ensures DistanceToSegment(env, px, py, x1, y1, x2, y2) <= Dist(env, px, py, x1, y1)
    ensures DistanceToSegment(env, px, py, x1, y1, x2, y2) <= Dist(env, px, py, x2, y2)
  {
    if SqDist(x2, y2, x1, y1) == 0.0 {
      ZeroLength(x1, y1, x2, y2);
    } else {
      var t := SegmentParam(px, py, x1, y1, x2, y2);
      var qx, qy := x1 + t * (x2 - x1), y1 + t * (y2 - y1);
      DistanceToProjection(env, px, py, x1, y1, x2, y2, t);
      ProjectionSquares(px, py, x1, y1, x2, y2, t);
      SqDistNonNegative(px, py, qx, qy);
      SqrtMonotone(env, SqDist(px, py, qx, qy), SqDist(px, py, x1, y1));
      SqrtMonotone(env, SqDist(px, py, qx, qy), SqDist(px, py, x2, y2));
    }
  }

  /** For a segment of non-zero length the distance is the one to the point at
      the clamped parameter t. */
  lemma DistanceToProjection(env: Env, px: real, py: real, x1: real, y1: real, x2: real, y2: real, t: real)
    requires SqDist(x2, y2, x1, y1) != 0.0 && t == SegmentParam(px, py, x1, y1, x2, y2)
    ensures DistanceToSegment(env, px, py, x1, y1, x2, y2) == Dist(env, px, py, x1 + t * (x2 - x1), y1 + t * (y2 - y1))
  {
  }

  /** A segment of squared length 0 has equal endpoints. */
  lemma ZeroLength(x1: real, y1: real, x2: real, y2: real)
    requires SqDist(x2, y2, x1, y1) == 0.0
    ensures x1 == x2 && y1 == y2
  {
    SquareNonNegative(x2 - x1);
    SquareNonNegative(y2 - y1);
  }

  /** The point at the clamped projection parameter t is no farther from (px, py)
      than either endpoint of the segment. */
  lemma ProjectionSquares(px: real, py: real, x1: real, y1: real, x2: real, y2: real, t: real)
    requires SqDist(x2, y2, x1, y1) != 0.0 && t == SegmentParam(px, py, x1, y1, x2, y2)
    ensures SqDist(px, py, x1 + t * (x2 - x1), y1 + t * (y2 - y1)) <= SqDist(px, py, x1, y1)
    ensures SqDist(px, py, x1 + t * (x2 - x1), y1 + t * (y2 - y1)) <= SqDist(px, py, x2, y2)
  {
    var lengthSq := SqDist(x2, y2, x1, y1);
    SqDistNonNegative(x2, y2, x1, y1);
    var u := ProjectionParam(px, py, x1, y1, x2, y2);
    ProjectionScaled(px, py, x1, y1, x2, y2);
    var e := PointOffset(px, py, x1, y1, x2, y2, u, t, x1 + t * (x2 - x1), y1 + t * (y2 - y1));
    var f := PointOffset(px, py, x1, y1, x2, y2, u, 1.0, x2, y2);
    ClampedOffset(lengthSq, u, t, e, f);
  }

  /** For the point q = p1 + s * (p2 - p1) of the segment's line, the squared
      distance from (px, py) to q is the squared distance to p1 plus
      e = s * L * (s - 2u), L being the squared length and u the projection parameter. */
  lemma PointOffset(px: real, py: real, x1: real, y1: real, x2: real, y2: real,
                    u: real, s: real, qx: real, qy: real) returns (e: real)
    requires u * SqDist(x2, y2, x1, y1) == (px - x1) * (x2 - x1) + (py - y1) * (y2 - y1)
    requires qx == x1 + s * (x2 - x1) && qy == y1 + s * (y2 - y1)
    ensures e == s * SqDist(x2, y2, x1, y1) * (s - 2.0 * u)
    ensures SqDist(px, py, qx, qy) == SqDist(px, py, x1, y1) + e
  {
    e := s * SqDist(x2, y2, x1, y1) * (s - 2.0 * u);
    OffsetExpansion(px - x1, py - y1, x2 - x1, y2 - y1, s, u, SqDist(x2, y2, x1, y1), e);
    SquareOfEqual(px - qx, (px - x1) - s * (x2 - x1));
    SquareOfEqual(py - qy, (py - y1) - s * (y2 - y1));
  }

  /** The projection parameter times the squared length is the dot product of
      (px - x1, py - y1) with the segment. */
  lemma ProjectionScaled(px: real, py: real, x1: real, y1: real, x2: real, y2: real)
    requires SqDist(x2, y2, x1, y1) != 0.0
    ensures ProjectionParam(px, py, x1, y1, x2, y2) * SqDist(x2, y2, x1, y1) ==
      (px - x1) * (x2 - x1) + (py - y1) * (y2 - y1)
  {
  }

  lemma SquareOfEqual(m: real, n: real)
    requires m == n
    ensures m * m == n * n
  {
  }

  /** Expanding the square: |(a, b) - s (dx, dy)|^2 = |(a, b)|^2 + s * L * (s - 2u)
      when a * dx + b * dy = u * L and L = dx^2 + dy^2. */
  lemma OffsetExpansion(a: real, b: real, dx: real, dy: real, s: real, u: real, lengthSq: real, e: real)
    requires e == s * lengthSq * (s - 2.0 * u)
    requires lengthSq == dx * dx + dy * dy && a * dx + b * dy == u * lengthSq
    ensures (a - s * dx) * (a - s * dx) + (b - s * dy) * (b - s * dy) == a * a + b * b + e
  {
    assert (a - s * dx) * (a - s * dx) == a * a - 2.0 * s * (a * dx) + s * s * (dx * dx);
    assert (b - s * dy) * (b - s * dy) == b * b - 2.0 * s * (b * dy) + s * s * (dy * dy);
    assert s * lengthSq * (s - 2.0 * u) == s * s * lengthSq - 2.0 * s * (u * lengthSq);
  }

  /** For t the clamp of u to [0, 1], the offset t * L * (t - 2u) is at most the
      offsets 0 and L * (1 - 2u) of the two endpoints. */
  lemma ClampedOffset(lengthSq: real, u: real, t: real, e: real, f: real)
    requires 0.0 < lengthSq && t == Max(0.0, Min(1.0, u))
    requires e == t * lengthSq * (t - 2.0 * u) && f == 1.0 * lengthSq * (1.0 - 2.0 * u)
    ensures e <= 0.0 && e <= f
  {
    if u <= 0.0 {
      assert t == 0.0;
      NonNegativeProduct(lengthSq, 1.0 - 2.0 * u);
    } else if u < 1.0 {
      assert t == u;
      var w := u * lengthSq;
      NonNegativeProduct(w, u);
      assert t * lengthSq * (t - 2.0 * u) == -(w * u);
      var v := 1.0 - u;
      NonNegativeProduct(lengthSq * v, v);
      assert 1.0 * lengthSq * (1.0 - 2.0 * u) + w * u == lengthSq * v * v;
    } else {
      assert t == 1.0;
      NonNegativeProduct(lengthSq, 2.0 * u - 1.0);
    }
  }

  /** The valley profile at distance dist: (1 - dist / (2 * width))^2 * 40. */
  function Carve(dist: real, width: real): real
    requires width != 0.0
  {
    var influence := 1.0 - dist / (width * 2.0);
    influence * influence * 40.0
  }

  /** Inside the valley (0 <= dist < 2 * width) the carved depth lies in (0, 40]. */
  lemma CarveRange(dist: real, width: real)
    requires 0.0 <= dist < width * 2.0
    ensures 0.0 < Carve(dist, width) <= 40.0
  {
    var influence := 1.0 - dist / (width * 2.0);
    assert 0.0 <= dist / (width * 2.0) < 1.0;
    assert 0.0 < influence <= 1.0;
    ScaledSampleBounded(influence, influence);
    assert 0.0 < influence * influence;
  }

  /** Valley k's depth at (x, y), or None when (x, y) is at least 2 * width away. */
  function ValleyCarve(env: Env, v: Valley, x: real, y: real): Option<real> {
    var dist := DistanceToSegment(env, x, y, v.x1, v.y1, v.x2, v.y2);
    if dist < v.width * 2.0 then Some(Carve(dist, v.width)) else None
  }

  function ValleyCarves(env: Env, valleys: seq<Valley>, x: real, y: real): nat -> Option<real> {
    (k: nat) => if k < |valleys| then ValleyCarve(env, valleys[k], x, y) else None
  }

  /** calculate_valley_depth: the deepest carve of the valleys in reach, 0 if none. */
  function ValleyDepthOf(env: Env, valleys: seq<Valley>, x: real, y: real): real {
    FoldMax(0.0, ValleyCarves(env, valleys, x, y), |valleys|)
  }

  /** Each carve in reach lies in (0, 40]. */
  lemma ValleyCarveRange(env: Env, v: Valley, x: real, y: real)
    ensures ValleyCarve(env, v, x, y).Some? ==> 0.0 < ValleyCarve(env, v, x, y).value <= 40.0
  {
    DistanceToSegmentFacts(env, x, y, v.x1, v.y1, v.x2, v.y2);
    var dist := DistanceToSegment(env, x, y, v.x1, v.y1, v.x2, v.y2);
    if dist < v.width * 2.0 {
      CarveRange(dist, v.width);
    }
  }

  /** A valley of width <= 0 never carves. */
  lemma NarrowValleyNeverCarves(env: Env, v: Valley, x: real, y: real)
    requires v.width <= 0.0
    ensures ValleyCarve(env, v, x, y) == None
  {
    DistanceToSegmentFacts(env, x, y, v.x1, v.y1, v.x2, v.y2);
  }

  /** The valley depth lies in [0, 40]; it is at least every carve in reach and
      equals 0 or one of them (a maximum, not a sum); far from every valley it is 0. */
  lemma ValleyDepthFacts(env: Env, valleys: seq<Valley>, x: real, y: real)
    ensures 0.0 <= ValleyDepthOf(env, valleys, x, y) <= 40.0
    ensures forall k :: 0 <= k < |valleys| && ValleyCarve(env, valleys[k], x, y).Some? ==>
      ValleyCarve(env, valleys[k], x, y).value <= ValleyDepthOf(env, valleys, x, y)
    ensures ValleyDepthOf(env, valleys, x, y) == 0.0 ||
      exists k :: 0 <= k < |valleys| && ValleyCarve(env, valleys[k], x, y) == Some(ValleyDepthOf(env, valleys, x, y))
    ensures (forall k :: 0 <= k < |valleys| ==>
               DistanceToSegment(env, x, y, valleys[k].x1, valleys[k].y1, valleys[k].x2, valleys[k].y2)
                 >= valleys[k].width * 2.0) ==>
      ValleyDepthOf(env, valleys, x, y) == 0.0
  {
    var c := ValleyCarves(env, valleys, x, y);
    forall k | 0 <= k < |valleys|
      ensures c(k) == ValleyCarve(env, valleys[k], x, y)
      ensures c(k).Some? ==> 0.0 < c(k).value <= 40.0
    {
      ValleyCarveRange(env, valleys[k], x, y);
    }
    FoldMaxAtLeast(0.0, c, |valleys|);
    FoldMaxAtMost(0.0, c, |valleys|, 40.0);
    FoldMaxAttained(0.0, c, |valleys|);
    if forall k :: 0 <= k < |valleys| ==>
         DistanceToSegment(env, x, y, valleys[k].x1, valleys[k].y1, valleys[k].x2, valleys[k].y2)
           >= valleys[k].width * 2.0
    {
      FoldMaxNone(0.0, c, |valleys|);
    }
  }

  /** The valley loop of calculate_valley_depth. */
  method ValleyDepth(env: Env, valleys: seq<Valley>, x: real, y: real) returns (minDepth: real)
    ensures minDepth == ValleyDepthOf(env, valleys, x, y)
    ensures 0.0 <= minDepth <= 40.0
  {
    minDepth := 0.0;
    for k := 0 to |valleys|
      invariant minDepth == FoldMax(0.0, ValleyCarves(env, valleys, x, y), k)
    {
      var valley := valleys[k];
      assert ValleyCarves(env, valleys, x, y)(k) == ValleyCarve(env, valley, x, y);
      var dist := DistanceToSegment(env, x, y, valley.x1, valley.y1, valley.x2, valley.y2);
      var width := valley.width;
      if dist < width * 2.0 {
        var depth := Carve(dist, width);
        minDepth := Max(minDepth, depth);
      }
    }
    ValleyDepthFacts(env, valleys, x, y);
  }

  // ---------------------------------------------------------------------------
  // Mountains
  // ---------------------------------------------------------------------------

  /** The range's base influence max(0, 1 - dist / radius). */
  function Influence(dist: real, radius: real): real
    requires radius != 0.0
  {
    Max(0.0, 1.0 - dist / radius)
  }

  /** A shaped peak: influence ** e times (base + n * k), n being a noise value. */
  function Shaped(powered: real, base: real, n: real, k: real): real {
    powered * (base + n * k)
  }

  /** The style-specific peak shape of a range at influence `influence`; the
      noise seeds are SEED + hash(name). */
  function PrimaryPeak(env: Env, m: MountainRange, x: real, y: real, influence: real): real {
    var seed := SEED + env.hash(m.name);
    match m.style
    case Jagged =>
      Shaped(env.pow(influence, 1.5), 0.7,
             RidgedAt(env, x, y, 6, 150.0, seed), 0.5)
    case Ridged =>
      Shaped(env.pow(influence, 1.3), 0.6,
             RidgedAt(env, x, y, 5, 200.0, seed), 0.6)
    case Volcanic =>
      if influence > 0.9 then env.pow(influence, 2.5) * 0.8 else env.pow(influence, 2.5)
    case Massive =>
      Shaped(env.pow(influence, 1.2), 0.8,
             RidgedAt(env, x, y, 4, 300.0, seed), 0.3)
    case Eroded =>
      Shaped(env.pow(influence, 1.8), 0.5,
             FbmAt(env, x, y, 5, 0.5, 2.0, 100.0, seed), 0.3)
  }

  /** A range's own height before its sub-peaks: the shaped peak times peak_height. */
  function RangeBase(env: Env, m: MountainRange, x: real, y: real): real
    requires m.radius != 0.0
  {
    PrimaryPeak(env, m, x, y, Influence(Dist(env, x, y, m.cx, m.cy), m.radius)) * m.peakHeight
  }

  /** Where sub-peak i of a range sits: at angle 2 pi i / peaks + hash(name + str(i)) / 10
      and at radius * (0.3 + (hash % 100) / 200) from the range's centre. */
  function SubPeakCentre(env: Env, m: MountainRange, i: nat): (real, real)
    requires i < m.peaks
  {
    var h := env.hash(m.name + Strings.DecimalString(i));
    var angle := ((i as real) / (m.peaks as real)) * PI * 2.0 + (h as real) * 0.1;
    var peakDist := m.radius * (0.3 + ((h % 100) as real) / 200.0);
    (m.cx + env.cos(angle) * peakDist, m.cy + env.sin(angle) * peakDist)
  }

  /** A sub-peak's height at distance subDist inside its radius: (1 - d / r)^2 * peak_height * 0.6. */
  function SubPeakRise(subDist: real, subRadius: real, peakHeight: real): real
    requires subRadius != 0.0
  {
    var s := 1.0 - subDist / subRadius;
    s * s * peakHeight * 0.6
  }

  /** Sub-peak i's height at (x, y), or None outside radius * 0.3 of its centre. */
  function SubPeak(env: Env, m: MountainRange, x: real, y: real, i: nat): Option<real>
    requires i < m.peaks
  {
    var c := SubPeakCentre(env, m, i);
    var subDist := Dist(env, x, y, c.0, c.1);
    var subRadius := m.radius * 0.3;
    if subDist < subRadius then Some(SubPeakRise(subDist, subRadius, m.peakHeight)) else None
  }

  function SubPeaks(env: Env, m: MountainRange, x: real, y: real): nat -> Option<real> {
    (k: nat) => if k < m.peaks then SubPeak(env, m, x, y, k) else None
  }

  /** A range's height at (x, y) once in reach: its shaped peak times peak_height,
      raised by max to each sub-peak in reach. */
  function RangeHeight(env: Env, m: MountainRange, x: real, y: real): real
    requires m.radius != 0.0
  {
    FoldMax(RangeBase(env, m, x, y), SubPeaks(env, m, x, y), m.peaks)
  }

  /** Range k's contribution, or None when (x, y) is at least 1.5 * radius from its centre. */
  function RangeContribution(env: Env, m: MountainRange, x: real, y: real): Option<real> {
    if Dist(env, x, y, m.cx, m.cy) < m.radius * 1.5 then Some(RangeHeight(env, m, x, y)) else None
  }

  function RangeContributions(env: Env, ranges: seq<MountainRange>, x: real, y: real): nat -> Option<real> {
    (k: nat) => if k < |ranges| then RangeContribution(env, ranges[k], x, y) else None
  }

  /** calculate_mountain_height: the highest range in reach, 0 if none. */
  function MountainHeightOf(env: Env, ranges: seq<MountainRange>, x: real, y: real): real {
    FoldMax(0.0, RangeContributions(env, ranges, x, y), |ranges|)
  }

  /** A range of radius <= 0 is never in reach. */
  lemma FlatRangeNeverContributes(env: Env, m: MountainRange, x: real, y: real)
    requires m.radius <= 0.0
    ensures RangeContribution(env, m, x, y) == None
  {
  }

  /** Each sub-peak lies in [0, 0.6 * peak_height] for a non-negative peak height. */
  lemma SubPeakAtMost(env: Env, m: MountainRange, x: real, y: real, i: nat)
    requires i < m.peaks && 0.0 <= m.peakHeight
    ensures SubPeak(env, m, x, y, i).Some? ==>
      0.0 <= SubPeak(env, m, x, y, i).value <= 0.6 * m.peakHeight
  {
    var c := SubPeakCentre(env, m, i);
    var subDist := Dist(env, x, y, c.0, c.1);
    var subRadius := m.radius * 0.3;
    if subDist < subRadius {
      var s := 1.0 - subDist / subRadius;
      assert 0.0 <= subDist / subRadius < 1.0;
      ScaledSampleBounded(s, s);
      SubPeakRiseBounds(s * s, m.peakHeight);
    }
  }

  lemma SubPeakRiseBounds(q: real, peakHeight: real)
    requires 0.0 <= q <= 1.0 && 0.0 <= peakHeight
    ensures 0.0 <= q * peakHeight * 0.6 <= 0.6 * peakHeight
  {
    ScaledSampleBounded(q, peakHeight);
  }

  /** A range's height is at least its shaped peak and every sub-peak in reach,
      and is one of them: sub-peaks combine by max. */
  lemma RangeHeightFacts(env: Env, m: MountainRange, x: real, y: real)
    requires m.radius != 0.0
    ensures RangeBase(env, m, x, y) <= RangeHeight(env, m, x, y)
    ensures forall i :: 0 <= i < m.peaks && SubPeak(env, m, x, y, i).Some? ==>
      SubPeak(env, m, x, y, i).value <= RangeHeight(env, m, x, y)
    ensures RangeHeight(env, m, x, y) == RangeBase(env, m, x, y) ||
      exists i :: 0 <= i < m.peaks && SubPeak(env, m, x, y, i) == Some(RangeHeight(env, m, x, y))
  {
    var c := SubPeaks(env, m, x, y);
    forall i | 0 <= i < m.peaks
      ensures c(i) == SubPeak(env, m, x, y, i)
    {
    }
    FoldMaxAtLeast(RangeBase(env, m, x, y), c, m.peaks);
    FoldMaxAttained(RangeBase(env, m, x, y), c, m.peaks);
  }

  /** The mountain height is never negative; it is at least every range in reach
      and equals 0 or one of them: ranges combine by max, never by sum. */
  lemma MountainHeightFacts(env: Env, ranges: seq<MountainRange>, x: real, y: real)
    ensures 0.0 <= MountainHeightOf(env, ranges, x, y)
    ensures forall k :: 0 <= k < |ranges| && RangeContribution(env, ranges[k], x, y).Some? ==>
      RangeContribution(env, ranges[k], x, y).value <= MountainHeightOf(env, ranges, x, y)
    ensures MountainHeightOf(env, ranges, x, y) == 0.0 ||
      exists k :: 0 <= k < |ranges| &&
        RangeContribution(env, ranges[k], x, y) == Some(MountainHeightOf(env, ranges, x, y))
  {
    var c := RangeContributions(env, ranges, x, y);
    forall k | 0 <= k < |ranges|
      ensures c(k) == RangeContribution(env, ranges[k], x, y)
    {
    }
    FoldMaxAtLeast(0.0, c, |ranges|);
    FoldMaxAttained(0.0, c, |ranges|);
  }

  /** The range loop of calculate_mountain_height. */
  method MountainHeight(env: Env, ranges: seq<MountainRange>, x: real, y: real)
    returns (totalHeight: real)
    ensures totalHeight == MountainHeightOf(env, ranges, x, y)
    ensures 0.0 <= totalHeight
  {
    totalHeight := 0.0;
    for k := 0 to |ranges|
      invariant totalHeight == FoldMax(0.0, RangeContributions(env, ranges, x, y), k)
    {
      assert RangeContributions(env, ranges, x, y)(k) == RangeContribution(env, ranges[k], x, y);
      totalHeight := AddRange(env, ranges[k], x, y, totalHeight);
    }
    MountainHeightFacts(env, ranges, x, y);
  }

  /** One pass of the range loop: a range in reach raises the running height
      to its own height; one out of reach leaves it alone. */
  method AddRange(env: Env, mtn: MountainRange, x: real, y: real, acc: real) returns (totalHeight: real)
    ensures RangeContribution(env, mtn, x, y).None? ==> totalHeight == acc
    ensures RangeContribution(env, mtn, x, y).Some? ==>
      totalHeight == Max(acc, RangeContribution(env, mtn, x, y).value)
  {
    totalHeight := acc;
    var dist := Dist(env, x, y, mtn.cx, mtn.cy);
    var radius := mtn.radius;
    if dist < radius * 1.5 {
      var height := RangeHeightAt(env, mtn, x, y, dist);
      totalHeight := Max(totalHeight, height);
    }
  }

  /** The body of the range loop for a range in reach: shape the peak, scale it
      by peak_height, then raise it to each sub-peak in reach. */
  method RangeHeightAt(env: Env, mtn: MountainRange, x: real, y: real, dist: real)
    returns (height: real)
    requires dist == Dist(env, x, y, mtn.cx, mtn.cy) && dist < mtn.radius * 1.5
    ensures height == RangeHeight(env, mtn, x, y)
  {
    var influence := Influence(dist, mtn.radius);
    var peak := ShapePeak(env, mtn, x, y, influence);
    assert peak == PrimaryPeak(env, mtn, x, y, Influence(Dist(env, x, y, mtn.cx, mtn.cy), mtn.radius));
    var base := peak * mtn.peakHeight;
    assert base == RangeBase(env, mtn, x, y);
    height := RaiseToSubPeaks(env, mtn, x, y, base);
  }

  /** The sub-peak loop: raise a range's height to each sub-peak in reach. */
  method RaiseToSubPeaks(env: Env, mtn: MountainRange, x: real, y: real, base: real)
    returns (height: real)
    ensures height == FoldMax(base, SubPeaks(env, mtn, x, y), mtn.peaks)
  {
    height := base;
    for i := 0 to mtn.peaks
      invariant height == FoldMax(base, SubPeaks(env, mtn, x, y), i)
    {
      assert SubPeaks(env, mtn, x, y)(i) == SubPeak(env, mtn, x, y, i);
      height := AddSubPeak(env, mtn, x, y, i, height);
    }
  }

  /** One pass of the sub-peak loop: a sub-peak in reach raises the height to
      its own; one out of reach leaves it alone. */
  method AddSubPeak(env: Env, mtn: MountainRange, x: real, y: real, i: nat, acc: real)
    returns (height: real)
    requires i < mtn.peaks
    ensures SubPeak(env, mtn, x, y, i).None? ==> height == acc
    ensures SubPeak(env, mtn, x, y, i).Some? ==> height == Max(acc, SubPeak(env, mtn, x, y, i).value)
  {
    height := acc;
    var centre := SubPeakCentre(env, mtn, i);
    var subDist := Dist(env, x, y, centre.0, centre.1);
    var subRadius := mtn.radius * 0.3;
    if subDist < subRadius {
      var subHeight := SubPeakRise(subDist, subRadius, mtn.peakHeight);
      height := Max(height, subHeight);
    }
  }

  /** The style dispatch of calculate_mountain_height, calling the noise loops. */
  method ShapePeak(env: Env, m: MountainRange, x: real, y: real, influence: real) returns (peak: real)
    ensures peak == PrimaryPeak(env, m, x, y, influence)
  {
    var seed := SEED + env.hash(m.name);
    match m.style {
      case Jagged =>
        var ridge := RidgedMultifractal(env, x, y, 6, 150.0, seed);
        peak := Shaped(env.pow(influence, 1.5), 0.7, ridge, 0.5);
        assert peak == PrimaryPeak(env, m, x, y, influence);
      case Ridged =>
        var ridge := RidgedMultifractal(env, x, y, 5, 200.0, seed);
        peak := Shaped(env.pow(influence, 1.3), 0.6, ridge, 0.6);
        assert peak == PrimaryPeak(env, m, x, y, influence);
      case Volcanic =>
        peak := env.pow(influence, 2.5);
        if influence > 0.9 {
          peak := peak * 0.8;
        }
        assert peak == PrimaryPeak(env, m, x, y, influence);
      case Massive =>
        var ridge := RidgedMultifractal(env, x, y, 4, 300.0, seed);
        peak := Shaped(env.pow(influence, 1.2), 0.8, ridge, 0.3);
        assert peak == PrimaryPeak(env, m, x, y, influence);
      case Eroded =>
        var erosion := Fbm(env, x, y, 5, 0.5, 2.0, 100.0, seed);
        peak := Shaped(env.pow(influence, 1.8), 0.5, erosion, 0.3);
        assert peak == PrimaryPeak(env, m, x, y, influence);
    }
  }

  // ---------------------------------------------------------------------------
  // The master height function
  // ---------------------------------------------------------------------------

  /** Half the world's side: 1500. */
  const HALF_SIZE: real := WORLD_SIZE / 2.0

  /** The three fbm layers of calculate_height, sampled at the domain-warped
      position: base terrain (4 octaves at scale 800, times 25, plus 15), rolling
      hills (5 octaves at scale 300, times 40) and detail (6 octaves at scale 80,
      times 10). */
  function NoiseLayers(env: Env, x: real, y: real): real {
    var w := DomainWarp(env, x, y, 0.3, 600.0, SEED);
    FbmAt(env, w.0, w.1, 4, 0.5, 2.0, 800.0, SEED) * 25.0 + 15.0
      + FbmAt(env, w.0, w.1, 5, 0.5, 2.0, 300.0, SEED + 1000) * 40.0
      + FbmAt(env, w.0, w.1, 6, 0.5, 2.0, 80.0, SEED + 2000) * 10.0
  }

  /** The layered height before the world-edge and spawn corrections: the fbm
      layers plus the mountains minus the valleys. */
  function LayeredHeight(env: Env, world: World, x: real, y: real): real {
    NoiseLayers(env, x, y) + MountainHeightOf(env, world.ranges, x, y)
      - ValleyDepthOf(env, world.valleys, x, y)
  }

  /** The world-edge fall-off: beyond 0.8 * half_size (Chebyshev distance) the
      height is scaled by a factor falling linearly to 0 at half_size and pulled
      down by up to 50. Inside 0.8 * half_size nothing changes; from half_size
      on the height is exactly -50 whatever it was. */
  function EdgeFalloff(height: real, x: real, y: real): (r: real)
    ensures Max(Abs(x), Abs(y)) <= HALF_SIZE * 0.8 ==> r == height
    ensures Max(Abs(x), Abs(y)) >= HALF_SIZE ==> r == -50.0
  {
    var edgeDist := Max(Abs(x), Abs(y));
    if edgeDist > HALF_SIZE * 0.8 then
      var falloff := Max(0.0, 1.0 - (edgeDist - HALF_SIZE * 0.8) / (HALF_SIZE * 0.2));
      height * falloff - (1.0 - falloff) * 50.0
    else height
  }

  /** The safe spawn area: within distance 100 of the origin the height is
      raised to at least 5; elsewhere it is left alone. */
  function SpawnClamp(env: Env, height: real, x: real, y: real): (r: real)
    ensures Dist(env, x, y, 0.0, 0.0) < 100.0 ==> 5.0 <= r && height <= r
    ensures Dist(env, x, y, 0.0, 0.0) >= 100.0 ==> r == height
  {
    if Dist(env, x, y, 0.0, 0.0) < 100.0 then Max(height, 5.0) else height
  }

  /** calculate_height: the layered height, then the edge fall-off, then the
      spawn clamp last. */
  function HeightOf(env: Env, world: World, x: real, y: real): real {
    SpawnClamp(env, EdgeFalloff(LayeredHeight(env, world, x, y), x, y), x, y)
  }

  /** At the world's edge (Chebyshev distance at least half_size) the terrain
      lies exactly at -50, below the water level. */
  lemma EdgeBelowWater(env: Env, world: World, x: real, y: real)
    requires SqrtSound(env) && Max(Abs(x), Abs(y)) >= HALF_SIZE
    ensures HeightOf(env, world, x, y) == -50.0 < WATER_LEVEL
  {
    DistAtLeastChebyshev(env, x, y);
  }

  /** The spawn clamp comes last: every point within 100 of the origin stands
      at height 5 or more. */
  lemma SpawnIsSafe(env: Env, world: World, x: real, y: real)
    requires Dist(env, x, y, 0.0, 0.0) < 100.0
    ensures HeightOf(env, world, x, y) >= 5.0
  {
  }

  /** With Blender's noise in [-1, 1] the noise layers add between -60 and 90
      to the mountains, and the valleys take away at most 40. */
  lemma LayeredHeightBounds(env: Env, world: World, x: real, y: real)
    requires NoiseBounded(env)
    ensures MountainHeightOf(env, world.ranges, x, y) - 100.0 <= LayeredHeight(env, world, x, y)
    ensures LayeredHeight(env, world, x, y) <= MountainHeightOf(env, world.ranges, x, y) + 90.0
  {
    NoiseLayersBounds(env, x, y);
    ValleyDepthFacts(env, world.valleys, x, y);
  }

  /** With Blender's noise in [-1, 1] the fbm layers lie in [-60, 90]. */
  lemma NoiseLayersBounds(env: Env, x: real, y: real)
    requires NoiseBounded(env)
    ensures -60.0 <= NoiseLayers(env, x, y) <= 90.0
  {
    var w := DomainWarp(env, x, y, 0.3, 600.0, SEED);
    FbmAtBounded(env, w.0, w.1, 4, 0.5, 2.0, 800.0, SEED);
    FbmAtBounded(env, w.0, w.1, 5, 0.5, 2.0, 300.0, SEED + 1000);
    FbmAtBounded(env, w.0, w.1, 6, 0.5, 2.0, 80.0, SEED + 2000);
  }

  /** The warp and the three fbm calls of calculate_height. */
  method SampleNoiseLayers(env: Env, x: real, y: real) returns (layers: real)
    ensures layers == NoiseLayers(env, x, y)
    ensures NoiseBounded(env) ==> -60.0 <= layers <= 90.0
  {
    var w := DomainWarp(env, x, y, 0.3, 600.0, SEED);
    var wx, wy := w.0, w.1;
    var base := Fbm(env, wx, wy, 4, 0.5, 2.0, 800.0, SEED);
    base := base * 25.0 + 15.0;
    var hills := Fbm(env, wx, wy, 5, 0.5, 2.0, 300.0, SEED + 1000);
    hills := hills * 40.0;
    var detail := Fbm(env, wx, wy, 6, 0.5, 2.0, 80.0, SEED + 2000);
    detail := detail * 10.0;
    layers := base + hills + detail;
    if NoiseBounded(env) {
      NoiseLayersBounds(env, x, y);
    }
  }

  /** The first half of calculate_height: the noise layers plus the mountains
      minus the valleys. */
  method LayeredHeightAt(env: Env, world: World, x: real, y: real) returns (height: real)
    ensures height == LayeredHeight(env, world, x, y)
    ensures NoiseBounded(env) ==>
      MountainHeightOf(env, world.ranges, x, y) - 100.0 <= height <= MountainHeightOf(env, world.ranges, x, y) + 90.0
  {
    var layers := SampleNoiseLayers(env, x, y);
    var mountains := MountainHeight(env, world.ranges, x, y);
    var valleyDepth := ValleyDepth(env, world.valleys, x, y);
    height := layers + mountains - valleyDepth;
  }

  /** The edge block of calculate_height. */
  method FallOffAtEdge(height: real, x: real, y: real) returns (r: real)
    ensures r == EdgeFalloff(height, x, y)
  {
    r := height;
    var edgeDist := Max(Abs(x), Abs(y));
    if edgeDist > HALF_SIZE * 0.8 {
      var falloff := 1.0 - (edgeDist - HALF_SIZE * 0.8) / (HALF_SIZE * 0.2);
      falloff := Max(0.0, falloff);
      r := r * falloff;
      r := r - (1.0 - falloff) * 50.0;
    }
  }

  /** calculate_height: the layered height, the edge fall-off, then the spawn
      clamp. */
  method CalculateHeight(env: Env, world: World, x: real, y: real) returns (height: real)
    ensures height == HeightOf(env, world, x, y)
    ensures Dist(env, x, y, 0.0, 0.0) < 100.0 ==> 5.0 <= height
    ensures SqrtSound(env) && Max(Abs(x), Abs(y)) >= HALF_SIZE ==> height == -50.0
  {
    height := LayeredHeightAt(env, world, x, y);
    height := FallOffAtEdge(height, x, y);
    var spawnDist := Dist(env, x, y, 0.0, 0.0);
    if spawnDist < 100.0 {
      height := Max(height, 5.0);
    }
    if SqrtSound(env) && Max(Abs(x), Abs(y)) >= HALF_SIZE {
      EdgeBelowWater(env, world, x, y);
    }
  }

  // ---------------------------------------------------------------------------
  // The mesh
  // ---------------------------------------------------------------------------

  /** The vertex create_terrain_mesh makes at grid position (ix, iy) of an
      r x r grid: on the grid lines -half_size + i * step, step being
      WORLD_SIZE / r, at calculate_height's height. */
  function DreamVertex(env: Env, world: World, r: nat, ix: nat, iy: nat): Vertex
    requires r > 0
  {
    var x := GridCoord(WORLD_SIZE, r, ix);
    var y := GridCoord(WORLD_SIZE, r, iy);
    Vertex(x, y, HeightOf(env, world, x, y))
  }

  /** The vertices of the r x r grid, as a function of the grid position. */
  function DreamPoints(env: Env, world: World, r: nat): (nat, nat) -> Vertex
    requires r > 0
  {
    (ix: nat, iy: nat) => DreamVertex(env, world, r, ix, iy)
  }

  /** The heights of the r x r grid, as a function of the grid position. */
  function DreamHeights(env: Env, world: World, r: nat): (nat, nat) -> real
    requires r > 0
  {
    (ix: nat, iy: nat) => DreamVertex(env, world, r, ix, iy).z
  }

  /** Every vertex on the border of the grid lies on the world's edge, so the
      edge fall-off puts it at -50, under the water. */
  lemma BorderVertexUnderwater(env: Env, world: World, r: nat, ix: nat, iy: nat)
    requires SqrtSound(env) && r > 0 && ix <= r && iy <= r
    requires ix == 0 || ix == r || iy == 0 || iy == r
    ensures DreamVertex(env, world, r, ix, iy).z == -50.0 < WATER_LEVEL
  {
    GridSpan(WORLD_SIZE, r);
    var v := DreamVertex(env, world, r, ix, iy);
    assert HALF_SIZE <= Max(Abs(v.x), Abs(v.y));
    EdgeBelowWater(env, world, v.x, v.y);
  }

  /** At RESOLUTION the centre vertex (100, 100) sits at the origin, inside the
      spawn area, so it stands at height 5 or more. */
  lemma CentreVertexIsSafe(env: Env, world: World)
    requires SqrtSound(env)
    ensures DreamVertex(env, world, RESOLUTION, RESOLUTION / 2, RESOLUTION / 2).x == 0.0
    ensures DreamVertex(env, world, RESOLUTION, RESOLUTION / 2, RESOLUTION / 2).y == 0.0
    ensures DreamVertex(env, world, RESOLUTION, RESOLUTION / 2, RESOLUTION / 2).z >= 5.0
  {
    CentreIsOrigin();
    DistToSelf(env, 0.0, 0.0);
    SpawnIsSafe(env, world, 0.0, 0.0);
  }

  /** Grid line RESOLUTION / 2 is the axis through the origin. */
  lemma CentreIsOrigin()
    ensures GridCoord(WORLD_SIZE, RESOLUTION, RESOLUTION / 2) == 0.0
  {
    assert RESOLUTION / 2 == 100;
  }

  /** The body of create_terrain_mesh's inner vertex loop: the position of
      grid vertex (ix, iy) and calculate_height there. */
  method DreamVertexAt(env: Env, world: World, r: nat, ix: nat, iy: nat) returns (vert: Vertex)
    requires r > 0
    ensures vert == DreamVertex(env, world, r, ix, iy)
  {
    var x := GridCoord(WORLD_SIZE, r, ix);
    var y := GridCoord(WORLD_SIZE, r, iy);
    var height := CalculateHeight(env, world, x, y);
    vert := Vertex(x, y, height);
  }

  /** One pass of create_terrain_mesh's inner vertex loop: row iy's vertices
      and their heights. */
  method DreamRow(env: Env, world: World, r: nat, iy: nat) returns (row: seq<Vertex>, rowHeights: seq<real>)
    requires r > 0
    ensures RowOf(row, DreamPoints(env, world, r), iy, r + 1)
    ensures RowOf(rowHeights, DreamHeights(env, world, r), iy, r + 1)
  {
    row, rowHeights := [], [];
    for ix := 0 to r + 1
      invariant RowOf(row, DreamPoints(env, world, r), iy, ix)
      invariant RowOf(rowHeights, DreamHeights(env, world, r), iy, ix)
    {
      var vert := DreamVertexAt(env, world, r, ix, iy);
      RowOfAppend(row, vert, DreamPoints(env, world, r), iy, ix);
      RowOfAppend(rowHeights, vert.z, DreamHeights(env, world, r), iy, ix);
      rowHeights := rowHeights + [vert.z];
      row := row + [vert];
    }
  }

  /** create_terrain_mesh's vertex loops for an r x r grid: the vertices row
      after row, and the rows of heights. */
  method DreamVertices(env: Env, world: World, r: nat) returns (verts: seq<Vertex>, heights: seq<seq<real>>)
    requires r > 0
    ensures RowMajor(verts, DreamPoints(env, world, r), r, r + 1)
    ensures Rows(heights, DreamHeights(env, world, r), r, r + 1)
  {
    verts, heights := [], [];
    for iy := 0 to r + 1
      invariant RowMajor(verts, DreamPoints(env, world, r), r, iy)
      invariant Rows(heights, DreamHeights(env, world, r), r, iy)
    {
      var row, rowHeights := DreamRow(env, world, r, iy);
      RowMajorAppend(verts, row, DreamPoints(env, world, r), r, iy);
      RowsAppend(heights, rowHeights, DreamHeights(env, world, r), r, iy);
      verts := verts + row;
      heights := heights + [rowHeights];
    }
  }

  /** create_terrain_mesh: the (RESOLUTION + 1)^2 vertices row by row, the
      height rows returned beside the mesh, and one smooth quad per cell. */
  method CreateTerrainMesh(env: Env, world: World) returns (verts: seq<Vertex>, faces: seq<Face>, heights: seq<seq<real>>)
    ensures |verts| == (RESOLUTION + 1) * (RESOLUTION + 1)
    ensures forall ix: nat, iy: nat :: ix <= RESOLUTION && iy <= RESOLUTION ==>
      verts[VertexIndex(RESOLUTION, ix, iy)] == DreamVertex(env, world, RESOLUTION, ix, iy)
    ensures |heights| == RESOLUTION + 1
    ensures forall iy :: 0 <= iy <= RESOLUTION ==> |heights[iy]| == RESOLUTION + 1
    ensures forall ix: nat, iy: nat :: ix <= RESOLUTION && iy <= RESOLUTION ==>
      heights[iy][ix] == DreamVertex(env, world, RESOLUTION, ix, iy).z
    ensures |faces| == RESOLUTION * RESOLUTION
    ensures forall ix: nat, iy: nat :: ix < RESOLUTION && iy < RESOLUTION ==>
      faces[CellIndex(RESOLUTION, ix, iy)] == Face(CellQuad(RESOLUTION, ix, iy), true)
    ensures forall k :: 0 <= k < |faces| ==> QuadBelow(faces[k].corners, |verts|) && faces[k].smooth
  {
    verts, heights := DreamVertices(env, world, RESOLUTION);
    var flat := GridFaces(RESOLUTION);
    faces := SmoothAll(flat);
  }
}

=== FILE: epic_terrain.dfy ===
/** generate_epic_terrain.py: a normalised heightmap built from fractal noise,
    ridges, turbulence and a handful of dramatic peaks, sunk to the sea floor
    towards the corners; then the terrain mesh over it, the cliff rocks on steep
    interior cells and the ancient ruins on gentle ground. */
module EpicTerrain {
  import opened Wrappers
  import opened Numeric
  import opened Noise
  import opened Combine
  import opened Grid

  const WORLD_SIZE: real := 2000.0
  const RESOLUTION: nat := 128
  const MAX_HEIGHT: real := 500.0
  /** The seed main passes to generate_heightmap. */
  const HEIGHTMAP_SEED: int := 12345
  /** The number of ruins main asks for. */
  const RUIN_COUNT: nat := 8

  // ---------------------------------------------------------------------------
  // Noise
  // ---------------------------------------------------------------------------

  /** fbm's octave sample: the third coordinate is z + seed. */
  function FbmSampler(env: Env, x: real, y: real, z: real, seed: int): OctaveSampler {
    (i: nat, f: real) => Probe(env, x, y, f, seed, z + seed as real)
  }

  /** ridged_multifractal's octave sample: the third coordinate is seed * 0.1. */
  function RidgedSampler(env: Env, x: real, y: real, seed: int): OctaveSampler {
    (i: nat, f: real) => Probe(env, x, y, f, seed, (seed as real) * 0.1)
  }

  /** Bounded Blender noise makes every octave sample bounded. */
  lemma SamplersInUnitRange(env: Env, x: real, y: real, z: real, seed: int)
    requires NoiseBounded(env)
    ensures UnitRange(FbmSampler(env, x, y, z, seed))
    ensures UnitRange(RidgedSampler(env, x, y, seed))
  {
    forall i: nat, f: real
      ensures -1.0 <= FbmSampler(env, x, y, z, seed)(i, f) <= 1.0
      ensures -1.0 <= RidgedSampler(env, x, y, seed)(i, f) <= 1.0
    {
      assert FbmSampler(env, x, y, z, seed)(i, f) == Probe(env, x, y, f, seed, z + seed as real);
      assert RidgedSampler(env, x, y, seed)(i, f) == Probe(env, x, y, f, seed, (seed as real) * 0.1);
    }
  }

  /** The value of fbm(x, y, z, octaves, persistence, lacunarity, seed): the
      generic fractal sum started at frequency 1. */
  function FbmAt(env: Env, x: real, y: real, z: real, octaves: nat, persistence: real,
                 lacunarity: real, seed: int): real
    requires 1 <= octaves && 0.0 <= persistence
  {
    FbmValue(FbmSampler(env, x, y, z, seed), octaves, persistence, lacunarity, 1.0)
  }

  /** The value of ridged_multifractal(x, y, octaves, seed): frequency 1, times
      2.1 per octave, each octave weighted by the previous one. */
  function RidgedAt(env: Env, x: real, y: real, octaves: nat, seed: int): real {
    RidgedTotal(RidgedSampler(env, x, y, seed), 1.0, 2.1, true, octaves)
  }

  /** With Blender's noise in [-1, 1], fbm stays in [-1, 1]. */
  lemma FbmAtBounded(env: Env, x: real, y: real, z: real, octaves: nat, persistence: real,
                     lacunarity: real, seed: int)
    requires NoiseBounded(env) && 1 <= octaves && 0.0 <= persistence
    ensures -1.0 <= FbmAt(env, x, y, z, octaves, persistence, lacunarity, seed) <= 1.0
  {
    SamplersInUnitRange(env, x, y, z, seed);
    FbmBounded(FbmSampler(env, x, y, z, seed), octaves, persistence, lacunarity, 1.0);
  }

  /** ridged_multifractal is never negative, and below 2 when the noise is in [-1, 1]. */
  lemma RidgedAtRange(env: Env, x: real, y: real, octaves: nat, seed: int)
    ensures 0.0 <= RidgedAt(env, x, y, octaves, seed)
    ensures NoiseBounded(env) ==> RidgedAt(env, x, y, octaves, seed) < 2.0
  {
    if NoiseBounded(env) {
      SamplersInUnitRange(env, x, y, 0.0, seed);
    }
    RidgedRange(RidgedSampler(env, x, y, seed), 1.0, 2.1, true, octaves);
  }

  /** fbm(x, y, z, octaves, persistence, lacunarity, seed). */
  method Fbm(env: Env, x: real, y: real, z: real, octaves: nat, persistence: real,
             lacunarity: real, seed: int) returns (r: real)
    requires 1 <= octaves && 0.0 <= persistence
    ensures r == FbmAt(env, x, y, z, octaves, persistence, lacunarity, seed)
    ensures NoiseBounded(env) ==> -1.0 <= r <= 1.0
  {
    r := Noise.Fbm(FbmSampler(env, x, y, z, seed), octaves, persistence, lacunarity, 1.0);
    if NoiseBounded(env) {
      FbmAtBounded(env, x, y, z, octaves, persistence, lacunarity, seed);
    }
  }

  /** ridged_multifractal(x, y, octaves, seed). */
  method RidgedMultifractal(env: Env, x: real, y: real, octaves: nat, seed: int)
    returns (r: real)
    ensures r == RidgedAt(env, x, y, octaves, seed)
    ensures 0.0 <= r
    ensures NoiseBounded(env) ==> r < 2.0
  {
    r := Noise.Ridged(RidgedSampler(env, x, y, seed), octaves, 1.0, 2.1, true);
    RidgedAtRange(env, x, y, octaves, seed);
  }

  // ---------------------------------------------------------------------------
  // Swiss turbulence
  // ---------------------------------------------------------------------------

  /** swiss_turbulence's running state: the total and the two gradient sums
      that displace every later sample. */
  datatype Swiss = Swiss(total: real, dxSum: real, dySum: real)

  /** The offset of the gradient probes. */
  const EPS: real := 0.01

  /** Octave i of swiss_turbulence from state s, at frequency f and amplitude a:
      sample at the point displaced by the gradient sums so far, take forward
      differences along x and y, add half of each (scaled by a) to the
      displacement and the sample (scaled by a) to the total. */
  function SwissOctave(env: Env, x: real, y: real, seed: int, s: Swiss, f: real, a: real): Swiss {
    var px := x * f + seed as real + s.dxSum;
    var py := y * f + seed as real + s.dySum;
    var n := env.noise(px, py, 0.0);
    var dx := env.noise(px + EPS, py, 0.0) - n;
    var dy := env.noise(px, py + EPS, 0.0) - n;
    Swiss(s.total + n * a, s.dxSum + dx * a * 0.5, s.dySum + dy * a * 0.5)
  }

  /** The state after n octaves: octave i runs at frequency 2^i and amplitude 0.5^i. */
  function SwissAfter(env: Env, x: real, y: real, seed: int, n: nat): Swiss {
    if n == 0 then Swiss(0.0, 0.0, 0.0)
    else SwissOctave(env, x, y, seed, SwissAfter(env, x, y, seed, n - 1),
                     Frequency(1.0, 2.0, n - 1), Power(0.5, n - 1))
  }

  /** The value swiss_turbulence(x, y, octaves, seed) returns. */
  function SwissAt(env: Env, x: real, y: real, octaves: nat, seed: int): real {
    SwissAfter(env, x, y, seed, octaves).total
  }

  /** One octave moves the total by at most its amplitude. */
  lemma SwissOctaveBounded(env: Env, x: real, y: real, seed: int, s: Swiss, f: real, a: real)
    requires NoiseBounded(env) && 0.0 <= a
    ensures s.total - a <= SwissOctave(env, x, y, seed, s, f, a).total <= s.total + a
  {
    var px, py := x * f + seed as real + s.dxSum, y * f + seed as real + s.dySum;
    ScaledSampleBounded(env.noise(px, py, 0.0), a);
    assert SwissOctave(env, x, y, seed, s, f, a).total == s.total + env.noise(px, py, 0.0) * a;
  }

  /** Whatever the displacement, the total is bounded by the sum of the amplitudes. */
  lemma {:induction false} SwissTotalBounded(env: Env, x: real, y: real, seed: int, n: nat)
    requires NoiseBounded(env)
    ensures -AmplitudeSum(0.5, n) <= SwissAfter(env, x, y, seed, n).total <= AmplitudeSum(0.5, n)
  {
    if n > 0 {
      SwissTotalBounded(env, x, y, seed, n - 1);
      PowerNonNegative(0.5, n - 1);
      SwissOctaveBounded(env, x, y, seed, SwissAfter(env, x, y, seed, n - 1),
                         Frequency(1.0, 2.0, n - 1), Power(0.5, n - 1));
    }
  }

  /** With Blender's noise in [-1, 1], swiss_turbulence stays strictly inside (-2, 2). */
  lemma SwissAtBounded(env: Env, x: real, y: real, octaves: nat, seed: int)
    requires NoiseBounded(env)
    ensures -2.0 < SwissAt(env, x, y, octaves, seed) < 2.0
  {
    SwissTotalBounded(env, x, y, seed, octaves);
    HalvingAmplitudesBelowTwo(octaves);
  }

  /** The body of swiss_turbulence's loop: one octave from state s. */
  method SwissOctaveAt(env: Env, x: real, y: real, seed: int, s: Swiss, f: real, a: real)
    returns (next: Swiss)
    ensures next == SwissOctave(env, x, y, seed, s, f, a)
  {
    var px := x * f + seed as real + s.dxSum;
    var py := y * f + seed as real + s.dySum;
    var n := env.noise(px, py, 0.0);
    var dx := env.noise(px + EPS, py, 0.0) - n;
    var dy := env.noise(px, py + EPS, 0.0) - n;
    next := Swiss(s.total + n * a, s.dxSum + dx * a * 0.5, s.dySum + dy * a * 0.5);
  }

  /** swiss_turbulence(x, y, octaves, seed). */
  method SwissTurbulence(env: Env, x: real, y: real, octaves: nat, seed: int)
    returns (total: real)
    ensures total == SwissAt(env, x, y, octaves, seed)
    ensures NoiseBounded(env) ==> -2.0 < total < 2.0
  {
    var state := Swiss(0.0, 0.0, 0.0);
    var frequency := 1.0;
    var amplitude := 1.0;
    for i := 0 to octaves
      invariant state == SwissAfter(env, x, y, seed, i)
      invariant frequency == Frequency(1.0, 2.0, i)
      invariant amplitude == Power(0.5, i)
    {
      state := SwissOctaveAt(env, x, y, seed, state, frequency, amplitude);
      amplitude := amplitude * 0.5;
      frequency := frequency * 2.0;
    }
    total := state.total;
    if NoiseBounded(env) {
      SwissAtBounded(env, x, y, octaves, seed);
    }
  }

  /** voronoi_ridges(x, y, scale, seed): the gap between two samples, the second
      at 1.5 times the scale and 100 further along. */
  function VoronoiRidges(env: Env, x: real, y: real, scale: real, seed: int): (r: real)
    ensures 0.0 <= r
    ensures NoiseBounded(env) ==> r <= 2.0
  {
    var s := seed as real;
    Abs(env.noise(x * scale + s, y * scale + s, 0.0) -
        env.noise(x * scale * 1.5 + s + 100.0, y * scale * 1.5 + s + 100.0, 0.0))
  }

  // ---------------------------------------------------------------------------
  // Heightmap
  // ---------------------------------------------------------------------------

  /** The combination of the four layers: the ridges grow with the base. */
  function CombineLayers(base: real, ridges: real, erosion: real, valleys: real): real {
    base + ridges * (0.5 + base) - valleys * 0.3 + erosion
  }

  /** generate_heightmap's layered relief at normalised (x, y), before the peaks. */
  function Relief(env: Env, rc: Recipe, x: real, y: real, seed: int): real
    requires 1 <= rc.baseOctaves
  {
    CombineLayers(BaseLayer(env, rc, x, y, seed), RidgeLayer(env, rc, x, y, seed),
                  ErosionLayer(env, rc, x, y, seed), ValleyLayer(env, x, y, seed))
  }

  /** The base layer: fbm at twice the coordinates, weight 0.3. */
  function BaseLayer(env: Env, rc: Recipe, x: real, y: real, seed: int): real
    requires 1 <= rc.baseOctaves
  {
    FbmAt(env, x * 2.0, y * 2.0, 0.0, rc.baseOctaves, 0.5, 2.0, seed) * 0.3
  }

  /** The mountain ridges: ridged multifractal at three times the coordinates, weight 0.5. */
  function RidgeLayer(env: Env, rc: Recipe, x: real, y: real, seed: int): real {
    RidgedAt(env, x * 3.0, y * 3.0, rc.ridgedOctaves, seed + 100) * 0.5
  }

  /** The erosion detail: swiss turbulence at five times the coordinates, weight 0.15. */
  function ErosionLayer(env: Env, rc: Recipe, x: real, y: real, seed: int): real {
    SwissAt(env, x * 5.0, y * 5.0, rc.swissOctaves, seed + 200) * 0.15
  }

  /** The valley carving: Voronoi ridges at four times the coordinates, weight 0.2. */
  function ValleyLayer(env: Env, x: real, y: real, seed: int): real {
    VoronoiRidges(env, x * 4.0, y * 4.0, 1.0, seed + 300) * 0.2
  }

  /** A dramatic peak: its normalised centre and its intensity. */
  datatype Peak = Peak(px: real, py: real, intensity: real)

  /** peak_positions: Frozen Peaks, Shadow Mountains, Ember Ridge, The Giants,
      Broken Hills. */
  const PEAK_POSITIONS: seq<Peak> := [
    Peak(0.3, -0.4, 1.0),
    Peak(0.4, -0.2, 0.85),
    Peak(0.2, 0.2, 0.7),
    Peak(0.35, 0.35, 0.95),
    Peak(-0.35, 0.3, 0.5)
  ]

  /** What generate_heightmap fixes in its body: the peak table and the octave
      counts of the base fbm (4) and of the ridged (6) and swiss (5) layers. */
  datatype Recipe = Recipe(peaks: seq<Peak>, baseOctaves: nat, ridgedOctaves: nat,
                           swissOctaves: nat)

  /** The recipe of generate_epic_terrain.py. */
  const EPIC_RECIPE: Recipe := Recipe(PEAK_POSITIONS, 4, 6, 5)

  /** One peak's height at (x, y), or None beyond its reach of 0.3:
      (1 - dist / 0.3)^2 * intensity, roughened by a ridged sample. */
  function PeakHeight(env: Env, rc: Recipe, p: Peak, x: real, y: real, seed: int): Option<real> {
    var dist := Dist(env, x, y, p.px, p.py);
    if dist < 0.3 then
      Some(PeakShape(dist, p.intensity,
                     RidgedAt(env, x * 10.0 + p.px, y * 10.0 + p.py, rc.ridgedOctaves, seed + 400)))
    else None
  }

  /** (1 - dist / 0.3)^2 * intensity, roughened by the factor 1 + detail * 0.3. */
  function PeakShape(dist: real, intensity: real, detail: real): real {
    var q := 1.0 - dist / 0.3;
    q * q * intensity * (1.0 + detail * 0.3)
  }

  /** The contribution of peak k of the table. */
  function PeakTerms(env: Env, rc: Recipe, x: real, y: real, seed: int): nat -> Option<real> {
    (k: nat) => if k < |rc.peaks| then PeakHeight(env, rc, rc.peaks[k], x, y, seed) else None
  }

  /** peak_influence: starts at 0 and keeps the maximum over the peaks in reach. */
  function PeakInfluence(env: Env, rc: Recipe, x: real, y: real, seed: int): real {
    FoldMax(0.0, PeakTerms(env, rc, x, y, seed), |rc.peaks|)
  }

  /** A peak of non-negative intensity never digs below zero. */
  lemma PeakHeightNonNegative(env: Env, rc: Recipe, p: Peak, x: real, y: real, seed: int)
    requires 0.0 <= p.intensity
    ensures PeakHeight(env, rc, p, x, y, seed).Some? ==> 0.0 <= PeakHeight(env, rc, p, x, y, seed).value
  {
    RidgedAtRange(env, x * 10.0 + p.px, y * 10.0 + p.py, rc.ridgedOctaves, seed + 400);
    PeakShapeNonNegative(Dist(env, x, y, p.px, p.py), p.intensity,
                         RidgedAt(env, x * 10.0 + p.px, y * 10.0 + p.py, rc.ridgedOctaves, seed + 400));
  }

  lemma PeakShapeNonNegative(dist: real, intensity: real, detail: real)
    requires 0.0 <= intensity && 0.0 <= detail
    ensures 0.0 <= PeakShape(dist, intensity, detail)
  {
    var q := 1.0 - dist / 0.3;
    SquareNonNegative(q);
    NonNegativeProduct(q * q, intensity);
    NonNegativeProduct(q * q * intensity, 1.0 + detail * 0.3);
  }

  /** peak_influence is never negative; it is at least every peak in reach; it
      is one of them (a maximum, not a sum) unless it is still 0; and it is 0
      when no peak is in reach. */
  lemma PeakInfluenceFacts(env: Env, rc: Recipe, x: real, y: real, seed: int)
    ensures 0.0 <= PeakInfluence(env, rc, x, y, seed)
    ensures forall k :: 0 <= k < |rc.peaks| && PeakHeight(env, rc, rc.peaks[k], x, y, seed).Some? ==>
              PeakHeight(env, rc, rc.peaks[k], x, y, seed).value <= PeakInfluence(env, rc, x, y, seed)
    ensures PeakInfluence(env, rc, x, y, seed) == 0.0 ||
            exists k :: 0 <= k < |rc.peaks| &&
              PeakHeight(env, rc, rc.peaks[k], x, y, seed) == Some(PeakInfluence(env, rc, x, y, seed))
    ensures (forall k :: 0 <= k < |rc.peaks| ==> PeakHeight(env, rc, rc.peaks[k], x, y, seed).None?) ==>
              PeakInfluence(env, rc, x, y, seed) == 0.0
  {
    var c := PeakTerms(env, rc, x, y, seed);
    FoldMaxAtLeast(0.0, c, |rc.peaks|);
    forall k | 0 <= k < |rc.peaks| && PeakHeight(env, rc, rc.peaks[k], x, y, seed).Some?
      ensures PeakHeight(env, rc, rc.peaks[k], x, y, seed).value <= PeakInfluence(env, rc, x, y, seed)
    {
      assert c(k) == PeakHeight(env, rc, rc.peaks[k], x, y, seed);
    }
    FoldMaxAttained(0.0, c, |rc.peaks|);
    if PeakInfluence(env, rc, x, y, seed) != 0.0 {
      var k :| 0 <= k < |rc.peaks| && c(k) == Some(PeakInfluence(env, rc, x, y, seed));
      assert PeakHeight(env, rc, rc.peaks[k], x, y, seed) == Some(PeakInfluence(env, rc, x, y, seed));
    }
    if forall k :: 0 <= k < |rc.peaks| ==> PeakHeight(env, rc, rc.peaks[k], x, y, seed).None? {
      forall k | 0 <= k < |rc.peaks| ensures c(k) == None {
        assert c(k) == PeakHeight(env, rc, rc.peaks[k], x, y, seed);
      }
      FoldMaxNone(0.0, c, |rc.peaks|);
    }
  }

  /** The ocean falloff: beyond 0.7 of 1.5 times the distance from the centre
      the height is scaled down by the falloff and lowered by (1 - falloff) / 10. */
  function OceanFalloff(env: Env, h: real, x: real, y: real): real {
    var d := Dist(env, x, y, 0.0, 0.0) * 1.5;
    if d > 0.7 then
      var falloff := Max(0.0, 1.0 - (d - 0.7) / 0.3);
      h * falloff - (1.0 - falloff) * 0.1
    else h
  }

  /** The value generate_heightmap stores for normalised (x, y): the relief and
      the peaks blended 40 / 60, sunk by the falloff and clamped at -0.1. */
  function CellHeight(env: Env, rc: Recipe, x: real, y: real, seed: int): (r: real)
    requires 1 <= rc.baseOctaves
    ensures -0.1 <= r
  {
    var h := Relief(env, rc, x, y, seed) * 0.4 + PeakInfluence(env, rc, x, y, seed) * 0.6;
    Max(-0.1, OceanFalloff(env, h, x, y))
  }

  /** The normalised coordinate (-half + i * step) / size of grid line i. */
  function NormCoord(size: real, r: nat, i: nat): real
    requires r > 0 && size != 0.0
  {
    GridCoord(size, r, i) / size
  }

  /** The heightmap entry of cell (ix, iy) on a grid of r cells per side. */
  function HeightmapValue(env: Env, rc: Recipe, size: real, r: nat, seed: int,
                          ix: nat, iy: nat): real
    requires 1 <= rc.baseOctaves
    requires r > 0 && size != 0.0
  {
    CellHeight(env, rc, NormCoord(size, r, ix), NormCoord(size, r, iy), seed)
  }

  /** The heightmap as a function of the cell. */
  function HeightmapEntries(env: Env, rc: Recipe, size: real, r: nat, seed: int)
    : (nat, nat) -> real
    requires 1 <= rc.baseOctaves
    requires r > 0 && size != 0.0
  {
    (ix: nat, iy: nat) => HeightmapValue(env, rc, size, r, seed, ix, iy)
  }

  /** Once 1.5 times the distance from the centre reaches 1, the falloff is 0
      and whatever the relief, the result is exactly -0.1. */
  lemma FalloffFarIsSeaFloor(env: Env, h: real, x: real, y: real)
    requires 1.0 <= Dist(env, x, y, 0.0, 0.0) * 1.5
    ensures OceanFalloff(env, h, x, y) == -0.1
  {
    var d := Dist(env, x, y, 0.0, 0.0) * 1.5;
    assert 1.0 - (d - 0.7) / 0.3 <= 0.0;
  }

  /** Far from the centre the stored value is the sea floor -0.1. */
  lemma FarCellIsSeaFloor(env: Env, rc: Recipe, x: real, y: real, seed: int)
    requires 1 <= rc.baseOctaves
    requires 1.0 <= Dist(env, x, y, 0.0, 0.0) * 1.5
    ensures CellHeight(env, rc, x, y, seed) == -0.1
  {
    var h := Relief(env, rc, x, y, seed) * 0.4 + PeakInfluence(env, rc, x, y, seed) * 0.6;
    FalloffFarIsSeaFloor(env, h, x, y);
  }

  /** The normalised coordinates of the first and last grid lines are -0.5 and 0.5. */
  lemma NormSpan(size: real, r: nat)
    requires r > 0 && size != 0.0
    ensures NormCoord(size, r, 0) == -0.5
    ensures NormCoord(size, r, r) == 0.5
  {
    GridSpan(size, r);
    Quotient(-(size / 2.0), size, -0.5);
    Quotient(size / 2.0, size, 0.5);
  }

  /** a / b is c when a is c * b. */
  lemma Quotient(a: real, b: real, c: real)
    requires b != 0.0 && a == c * b
    ensures a / b == c
  {
  }

  /** The four corners of the heightmap lie at distance sqrt(0.5) from the
      centre, beyond the reach of the land: they hold the sea floor -0.1. */
  lemma CornerIsSeaFloor(env: Env, rc: Recipe, size: real, r: nat, seed: int,
                         ix: nat, iy: nat)
    requires 1 <= rc.baseOctaves
    requires SqrtSound(env) && r > 0 && size != 0.0
    requires (ix == 0 || ix == r) && (iy == 0 || iy == r)
    ensures HeightmapValue(env, rc, size, r, seed, ix, iy) == -0.1
  {
    NormSpan(size, r);
    var x, y := NormCoord(size, r, ix), NormCoord(size, r, iy);
    assert x * x == 0.25 && y * y == 0.25;
    assert SqDist(x, y, 0.0, 0.0) == 0.5;
    SqrtAtLeast(env, 0.5, 2.0 / 3.0);
    FarCellIsSeaFloor(env, rc, x, y, seed);
  }

  /** The relief of generate_heightmap's inner loop. */
  method ReliefAt(env: Env, rc: Recipe, x: real, y: real, seed: int) returns (h: real)
    requires 1 <= rc.baseOctaves
    ensures h == Relief(env, rc, x, y, seed)
  {
    var base := Fbm(env, x * 2.0, y * 2.0, 0.0, rc.baseOctaves, 0.5, 2.0, seed);
    base := base * 0.3;
    assert base == BaseLayer(env, rc, x, y, seed);
    var ridges := RidgedMultifractal(env, x * 3.0, y * 3.0, rc.ridgedOctaves, seed + 100);
    ridges := ridges * 0.5;
    assert ridges == RidgeLayer(env, rc, x, y, seed);
    var erosion := SwissTurbulence(env, x * 5.0, y * 5.0, rc.swissOctaves, seed + 200);
    erosion := erosion * 0.15;
    assert erosion == ErosionLayer(env, rc, x, y, seed);
    var valleys := VoronoiRidges(env, x * 4.0, y * 4.0, 1.0, seed + 300) * 0.2;
    h := CombineLayers(base, ridges, erosion, valleys);
  }


  /** The loop over peak_positions. */
  method PeakInfluenceAt(env: Env, rc: Recipe, x: real, y: real, seed: int)
    returns (influence: real)
    ensures influence == PeakInfluence(env, rc, x, y, seed)
    ensures 0.0 <= influence
  {
    influence := 0.0;
    for k := 0 to |rc.peaks|
      invariant influence == FoldMax(0.0, PeakTerms(env, rc, x, y, seed), k)
    {
      var p := rc.peaks[k];
      var dist := Dist(env, x, y, p.px, p.py);
      if dist < 0.3 {
        var detail := RidgedMultifractal(env, x * 10.0 + p.px, y * 10.0 + p.py, rc.ridgedOctaves, seed + 400);
        var peakH := PeakShape(dist, p.intensity, detail);
        assert PeakHeight(env, rc, p, x, y, seed) == Some(peakH);
        assert PeakTerms(env, rc, x, y, seed)(k) == Some(peakH);
        influence := Max(influence, peakH);
      } else {
        assert PeakTerms(env, rc, x, y, seed)(k) == None;
      }
    }
    PeakInfluenceFacts(env, rc, x, y, seed);
  }

  /** The inline ocean falloff. */
  method FallOffToOcean(env: Env, h: real, x: real, y: real) returns (r: real)
    ensures r == OceanFalloff(env, h, x, y)
  {
    r := h;
    var distFromCenter := Dist(env, x, y, 0.0, 0.0) * 1.5;
    if distFromCenter > 0.7 {
      var falloff := Max(0.0, 1.0 - (distFromCenter - 0.7) / 0.3);
      r := r * falloff;
      r := r - (1.0 - falloff) * 0.1;
    }
  }

  /** The value generate_heightmap appends for cell (ix, iy). */
  method HeightAt(env: Env, rc: Recipe, size: real, r: nat, seed: int, ix: nat, iy: nat)
    returns (h: real)
    requires 1 <= rc.baseOctaves
    requires r > 0 && size != 0.0
    ensures h == HeightmapValue(env, rc, size, r, seed, ix, iy)
  {
    var x := GridCoord(size, r, ix) / size;
    var y := GridCoord(size, r, iy) / size;
    h := ReliefAt(env, rc, x, y, seed);
    var influence := PeakInfluenceAt(env, rc, x, y, seed);
    h := h * 0.4 + influence * 0.6;
    h := FallOffToOcean(env, h, x, y);
    h := Max(-0.1, h);
  }

  /** One row of the heightmap. */
  method HeightmapRow(env: Env, rc: Recipe, size: real, r: nat, seed: int, iy: nat)
    returns (row: seq<real>)
    requires 1 <= rc.baseOctaves
    requires r > 0 && size != 0.0
    ensures RowOf(row, HeightmapEntries(env, rc, size, r, seed), iy, r + 1)
  {
    row := [];
    for ix := 0 to r + 1
      invariant RowOf(row, HeightmapEntries(env, rc, size, r, seed), iy, ix)
    {
      var h := HeightAt(env, rc, size, r, seed, ix, iy);
      RowOfAppend(row, h, HeightmapEntries(env, rc, size, r, seed), iy, ix);
      row := row + [h];
    }
  }

  /** generate_heightmap(size, resolution, seed) with the peak table as a
      parameter: resolution + 1 rows of resolution + 1 values, each the cell's
      height, and none below -0.1. */
  method GenerateHeightmap(env: Env, rc: Recipe, size: real, resolution: nat, seed: int)
    returns (heightmap: seq<seq<real>>)
    requires 1 <= rc.baseOctaves
    requires resolution > 0 && size != 0.0
    ensures |heightmap| == resolution + 1
    ensures forall iy :: 0 <= iy < |heightmap| ==> |heightmap[iy]| == resolution + 1
    ensures forall ix: nat, iy: nat :: ix <= resolution && iy <= resolution ==>
              heightmap[iy][ix] == HeightmapValue(env, rc, size, resolution, seed, ix, iy)
    ensures forall iy, ix :: 0 <= iy < |heightmap| && 0 <= ix < |heightmap[iy]| ==>
              -0.1 <= heightmap[iy][ix]
  {
    heightmap := [];
    for iy := 0 to resolution + 1
      invariant Rows(heightmap, HeightmapEntries(env, rc, size, resolution, seed), resolution, iy)
    {
      var row := HeightmapRow(env, rc, size, resolution, seed, iy);
      RowsAppend(heightmap, row, HeightmapEntries(env, rc, size, resolution, seed), resolution, iy);
      heightmap := heightmap + [row];
    }
  }

  // ---------------------------------------------------------------------------
  // Terrain mesh
  // ---------------------------------------------------------------------------

  /** Every row has as many entries as there are rows. */
  predicate Rectangular(heightmap: seq<seq<real>>) {
    forall iy :: 0 <= iy < |heightmap| ==> |heightmap[iy]| == |heightmap|
  }

  /** The vertex create_terrain_mesh makes for entry (ix, iy), with
      resolution = len(heightmap) - 1 (height 0 outside the heightmap). */
  function MeshVertex(heightmap: seq<seq<real>>, size: real, maxHeight: real, ix: nat, iy: nat)
    : Vertex
    requires |heightmap| >= 2
  {
    var r := |heightmap| - 1;
    var z := if iy < |heightmap| && ix < |heightmap[iy]| then heightmap[iy][ix] * maxHeight else 0.0;
    Vertex(GridCoord(size, r, ix), GridCoord(size, r, iy), z)
  }

  /** The mesh vertices as a function of the entry. */
  function MeshPoints(heightmap: seq<seq<real>>, size: real, maxHeight: real): (nat, nat) -> Vertex
    requires |heightmap| >= 2
  {
    (ix: nat, iy: nat) => MeshVertex(heightmap, size, maxHeight, ix, iy)
  }

  /** The vertices of one heightmap row. */
  method MeshRow(heightmap: seq<seq<real>>, size: real, maxHeight: real, iy: nat)
    returns (row: seq<Vertex>)
    requires |heightmap| >= 2 && Rectangular(heightmap) && iy < |heightmap|
    ensures RowOf(row, MeshPoints(heightmap, size, maxHeight), iy, |heightmap|)
  {
    var r := |heightmap| - 1;
    row := [];
    for ix := 0 to |heightmap[iy]|
      invariant RowOf(row, MeshPoints(heightmap, size, maxHeight), iy, ix)
    {
      var v := Vertex(GridCoord(size, r, ix), GridCoord(size, r, iy), heightmap[iy][ix] * maxHeight);
      RowOfAppend(row, v, MeshPoints(heightmap, size, maxHeight), iy, ix);
      row := row + [v];
    }
  }

  /** The resolution of a heightmap: its number of cells per side. */
  function Resolution(heightmap: seq<seq<real>>): nat {
    if |heightmap| == 0 then 0 else |heightmap| - 1
  }

  /** create_terrain_mesh(heightmap, size, max_height): one vertex per entry in
      row-major order at z = h * max_height, and one smooth quad per cell whose
      corner indices are all vertices. An empty heightmap gives an empty mesh. */
  method CreateTerrainMesh(heightmap: seq<seq<real>>, size: real, maxHeight: real)
    returns (verts: seq<Vertex>, faces: seq<Face>)
    requires |heightmap| != 1 && Rectangular(heightmap)
    ensures |heightmap| == 0 ==> verts == [] && faces == []
    ensures |heightmap| >= 2 ==> |verts| == |heightmap| * |heightmap|
    ensures |heightmap| >= 2 ==>
              forall ix: nat, iy: nat :: ix < |heightmap| && iy < |heightmap| ==>
                VertexIndex(Resolution(heightmap), ix, iy) < |verts| &&
                verts[VertexIndex(Resolution(heightmap), ix, iy)] ==
                Vertex(GridCoord(size, Resolution(heightmap), ix), GridCoord(size, Resolution(heightmap), iy),
                       heightmap[iy][ix] * maxHeight)
    ensures |heightmap| >= 2 ==> |faces| == (Resolution(heightmap)) * (Resolution(heightmap))
    ensures |heightmap| >= 2 ==>
              forall ix: nat, iy: nat :: ix < Resolution(heightmap) && iy < Resolution(heightmap) ==>
                CellIndex(Resolution(heightmap), ix, iy) < |faces| &&
                faces[CellIndex(Resolution(heightmap), ix, iy)] ==
                Face(CellQuad(Resolution(heightmap), ix, iy), true)
    ensures forall k :: 0 <= k < |faces| ==> QuadBelow(faces[k].corners, |verts|) && faces[k].smooth
  {
    if |heightmap| == 0 {
      return [], [];
    }
    var r := |heightmap| - 1;
    verts := [];
    for iy := 0 to |heightmap|
      invariant RowMajor(verts, MeshPoints(heightmap, size, maxHeight), r, iy)
    {
      var row := MeshRow(heightmap, size, maxHeight, iy);
      RowMajorAppend(verts, row, MeshPoints(heightmap, size, maxHeight), r, iy);
      verts := verts + row;
    }
    var flat := GridFaces(r);
    faces := SmoothAll(flat);
  }

  // ---------------------------------------------------------------------------
  // Cliff rocks
  // ---------------------------------------------------------------------------

  /** A cliff rock: the cell it stands on, its location and its size. */
  datatype CliffRock = CliffRock(ix: nat, iy: nat, x: real, y: real, z: real, size: real)

  /** Cell (ix, iy) is interior: all four neighbours exist. */
  predicate Interior(heightmap: seq<seq<real>>, ix: nat, iy: nat) {
    1 <= ix < |heightmap| - 1 && 1 <= iy < |heightmap| - 1
  }

  /** The slope at an interior cell: central differences over two steps, scaled
      by max_height, combined as a Euclidean norm. */
  function CellSlope(env: Env, heightmap: seq<seq<real>>, size: real, maxHeight: real,
                     ix: nat, iy: nat): NonNegReal
    requires Rectangular(heightmap) && Interior(heightmap, ix, iy) && size != 0.0
  {
    var step := size / ((|heightmap| - 1) as real);
    var slopeX := Gradient(heightmap[iy][ix - 1], heightmap[iy][ix + 1], step, maxHeight);
    var slopeY := Gradient(heightmap[iy - 1][ix], heightmap[iy + 1][ix], step, maxHeight);
    Hypot(env, slopeX, slopeY)
  }

  /** The central-difference slope between two neighbours 2 * step apart, in metres. */
  function Gradient(before: real, after: real, step: real, maxHeight: real): real
    requires step != 0.0
  {
    Abs(after - before) / (2.0 * step) * maxHeight
  }

  /** The cliff condition: steeper than threshold * max_height and above 0.2. */
  predicate IsSteep(env: Env, heightmap: seq<seq<real>>, size: real, maxHeight: real,
                    threshold: real, ix: nat, iy: nat)
    requires Rectangular(heightmap) && Interior(heightmap, ix, iy) && size != 0.0
  {
    CellSlope(env, heightmap, size, maxHeight, ix, iy) > threshold * maxHeight &&
    heightmap[iy][ix] > 0.2
  }

  /** The rock create_cliff_rock makes on cell (ix, iy), half as large as the slope. */
  function CliffAt(env: Env, heightmap: seq<seq<real>>, size: real, maxHeight: real,
                   ix: nat, iy: nat): CliffRock
    requires Rectangular(heightmap) && Interior(heightmap, ix, iy) && size != 0.0
  {
    var r := |heightmap| - 1;
    CliffRock(ix, iy, GridCoord(size, r, ix), GridCoord(size, r, iy),
              heightmap[iy][ix] * maxHeight,
              CellSlope(env, heightmap, size, maxHeight, ix, iy) * 0.5)
  }

  /** Whether the scan places a rock on (ix, iy); chance(ix, iy) is the
      random.random() draw made for a steep cell. */
  predicate Places(env: Env, heightmap: seq<seq<real>>, size: real, maxHeight: real,
                   threshold: real, chance: (nat, nat) -> real, ix: nat, iy: nat)
    requires Rectangular(heightmap) && Interior(heightmap, ix, iy) && size != 0.0
  {
    IsSteep(env, heightmap, size, maxHeight, threshold, ix, iy) && chance(ix, iy) < 0.1
  }

  /** The rocks of cells 1 .. n - 1 of interior row iy, in scan order. */
  function CliffRow(env: Env, heightmap: seq<seq<real>>, size: real, maxHeight: real,
                    threshold: real, chance: (nat, nat) -> real, iy: nat, n: nat)
    : seq<CliffRock>
    requires Rectangular(heightmap) && size != 0.0
    requires 1 <= iy < |heightmap| - 1 && n <= |heightmap| - 1
  {
    if n <= 1 then []
    else
      CliffRow(env, heightmap, size, maxHeight, threshold, chance, iy, n - 1) +
      (if Places(env, heightmap, size, maxHeight, threshold, chance, n - 1, iy)
       then [CliffAt(env, heightmap, size, maxHeight, n - 1, iy)] else [])
  }

  /** The rocks of interior rows 1 .. m - 1, in scan order. */
  function CliffRows(env: Env, heightmap: seq<seq<real>>, size: real, maxHeight: real,
                     threshold: real, chance: (nat, nat) -> real, m: nat)
    : seq<CliffRock>
    requires Rectangular(heightmap) && size != 0.0 && m <= |heightmap| - 1
  {
    if m <= 1 then []
    else
      CliffRows(env, heightmap, size, maxHeight, threshold, chance, m - 1) +
      CliffRow(env, heightmap, size, maxHeight, threshold, chance, m - 1, |heightmap| - 1)
  }

  /** A rock the scan may place: on an interior cell that is steep and whose
      draw came up, and exactly the rock create_cliff_rock makes there. */
  ghost predicate Justified(env: Env, heightmap: seq<seq<real>>, size: real, maxHeight: real,
                            threshold: real, chance: (nat, nat) -> real, c: CliffRock)
    requires Rectangular(heightmap) && size != 0.0
  {
    Interior(heightmap, c.ix, c.iy) &&
    IsSteep(env, heightmap, size, maxHeight, threshold, c.ix, c.iy) &&
    chance(c.ix, c.iy) < 0.1 &&
    c == CliffAt(env, heightmap, size, maxHeight, c.ix, c.iy)
  }

  lemma {:induction false} CliffRowJustified(env: Env, heightmap: seq<seq<real>>, size: real,
                                             maxHeight: real, threshold: real,
                                             chance: (nat, nat) -> real, iy: nat, n: nat)
    requires Rectangular(heightmap) && size != 0.0
    requires 1 <= iy < |heightmap| - 1 && n <= |heightmap| - 1
    ensures forall c :: c in CliffRow(env, heightmap, size, maxHeight, threshold, chance, iy, n) ==>
              c.iy == iy && c.ix < n &&
              Justified(env, heightmap, size, maxHeight, threshold, chance, c)
  {
    if n > 1 {
      CliffRowJustified(env, heightmap, size, maxHeight, threshold, chance, iy, n - 1);
    }
  }

  /** Every rock the scan places stands on an interior cell of rows 1 .. m - 1
      that passes the cliff condition and whose draw is below 0.1. */
  lemma {:induction false} CliffRowsJustified(env: Env, heightmap: seq<seq<real>>, size: real,
                                              maxHeight: real, threshold: real,
                                              chance: (nat, nat) -> real, m: nat)
    requires Rectangular(heightmap) && size != 0.0 && m <= |heightmap| - 1
    ensures forall c :: c in CliffRows(env, heightmap, size, maxHeight, threshold, chance, m) ==>
              c.iy < m && Justified(env, heightmap, size, maxHeight, threshold, chance, c)
  {
    if m > 1 {
      CliffRowsJustified(env, heightmap, size, maxHeight, threshold, chance, m - 1);
      CliffRowJustified(env, heightmap, size, maxHeight, threshold, chance, m - 1,
                        |heightmap| - 1);
    }
  }

  /** Every interior cell of row iy (below n) that passes the condition and
      whose draw came up carries its rock. */
  lemma {:induction false} CliffRowComplete(env: Env, heightmap: seq<seq<real>>, size: real,
                                            maxHeight: real, threshold: real,
                                            chance: (nat, nat) -> real, iy: nat, n: nat, ix: nat)
    requires Rectangular(heightmap) && size != 0.0
    requires 1 <= iy < |heightmap| - 1 && n <= |heightmap| - 1 && 1 <= ix < n
    requires Places(env, heightmap, size, maxHeight, threshold, chance, ix, iy)
    ensures CliffAt(env, heightmap, size, maxHeight, ix, iy) in
              CliffRow(env, heightmap, size, maxHeight, threshold, chance, iy, n)
  {
    if ix < n - 1 {
      CliffRowComplete(env, heightmap, size, maxHeight, threshold, chance, iy, n - 1, ix);
    }
  }

  /** The scan misses no rock: every interior cell of rows 1 .. m - 1 that
      passes the condition and whose draw came up carries its rock. */
  lemma {:induction false} CliffRowsComplete(env: Env, heightmap: seq<seq<real>>, size: real,
                                             maxHeight: real, threshold: real,
                                             chance: (nat, nat) -> real, m: nat, ix: nat, iy: nat)
    requires Rectangular(heightmap) && size != 0.0 && m <= |heightmap| - 1
    requires Interior(heightmap, ix, iy) && iy < m
    requires Places(env, heightmap, size, maxHeight, threshold, chance, ix, iy)
    ensures CliffAt(env, heightmap, size, maxHeight, ix, iy) in
              CliffRows(env, heightmap, size, maxHeight, threshold, chance, m)
  {
    if iy < m - 1 {
      CliffRowsComplete(env, heightmap, size, maxHeight, threshold, chance, m - 1, ix, iy);
    } else {
      CliffRowComplete(env, heightmap, size, maxHeight, threshold, chance, iy,
                       |heightmap| - 1, ix);
    }
  }

  /** The slope computation of create_cliff_meshes' inner loop. */
  method SlopeAt(env: Env, heightmap: seq<seq<real>>, size: real, maxHeight: real, ix: nat, iy: nat)
    returns (slope: real)
    requires Rectangular(heightmap) && Interior(heightmap, ix, iy) && size != 0.0
    ensures slope == CellSlope(env, heightmap, size, maxHeight, ix, iy)
  {
    var step := size / ((|heightmap| - 1) as real);
    var slopeX := Gradient(heightmap[iy][ix - 1], heightmap[iy][ix + 1], step, maxHeight);
    var slopeY := Gradient(heightmap[iy - 1][ix], heightmap[iy + 1][ix], step, maxHeight);
    slope := Hypot(env, slopeX, slopeY);
  }

  /** One row of create_cliff_meshes' scan: the interior cells of row iy, left to right. */
  method CliffRowAt(env: Env, heightmap: seq<seq<real>>, size: real, maxHeight: real,
                    threshold: real, chance: (nat, nat) -> real, iy: nat)
    returns (rowRocks: seq<CliffRock>)
    requires Rectangular(heightmap) && size != 0.0 && 1 <= iy < |heightmap| - 1
    ensures rowRocks == CliffRow(env, heightmap, size, maxHeight, threshold, chance, iy, |heightmap| - 1)
  {
    var resolution := |heightmap| - 1;
    rowRocks := [];
    for ix := 1 to resolution
      invariant rowRocks == CliffRow(env, heightmap, size, maxHeight, threshold, chance, iy, ix)
    {
      assert CliffRow(env, heightmap, size, maxHeight, threshold, chance, iy, ix + 1) ==
             rowRocks + if Places(env, heightmap, size, maxHeight, threshold, chance, ix, iy)
                        then [CliffAt(env, heightmap, size, maxHeight, ix, iy)] else [];
      var h := heightmap[iy][ix];
      var slope := SlopeAt(env, heightmap, size, maxHeight, ix, iy);
      if slope > threshold * maxHeight && h > 0.2 {
        if chance(ix, iy) < 0.1 {
          assert h * maxHeight == heightmap[iy][ix] * maxHeight;
          assert slope * 0.5 == CellSlope(env, heightmap, size, maxHeight, ix, iy) * 0.5;
          var rock := CliffRock(ix, iy, GridCoord(size, resolution, ix), GridCoord(size, resolution, iy),
                                h * maxHeight, slope * 0.5);
          assert rock == CliffAt(env, heightmap, size, maxHeight, ix, iy);
          rowRocks := rowRocks + [rock];
        }
      }
    }
  }

  /** create_cliff_meshes(heightmap, size, max_height, threshold): the scan of
      the interior cells row by row; chance(ix, iy) is the random draw. */
  method CreateCliffMeshes(env: Env, heightmap: seq<seq<real>>, size: real, maxHeight: real,
                           threshold: real, chance: (nat, nat) -> real)
    returns (cliffs: seq<CliffRock>)
    requires |heightmap| != 1 && Rectangular(heightmap) && size != 0.0
    ensures |heightmap| >= 2 ==>
              cliffs == CliffRows(env, heightmap, size, maxHeight, threshold, chance, |heightmap| - 1)
    ensures |heightmap| < 2 ==> cliffs == []
  {
    cliffs := [];
    if |heightmap| < 2 {
      return;
    }
    for iy := 1 to |heightmap| - 1
      invariant cliffs == CliffRows(env, heightmap, size, maxHeight, threshold, chance, iy)
    {
      var rowRocks := CliffRowAt(env, heightmap, size, maxHeight, threshold, chance, iy);
      cliffs := cliffs + rowRocks;
    }
  }


  // ---------------------------------------------------------------------------
  // Ancient ruins
  // ---------------------------------------------------------------------------

  datatype RuinStyle = Pillar | Arch | Wall

  /** A ruin: the cell it stands on, its location and its style. */
  datatype Ruin = Ruin(ix: nat, iy: nat, x: real, y: real, z: real, style: RuinStyle)

  /** The attempt cap of create_ancient_ruins. */
  const MAX_ATTEMPTS: nat := 100

  /** A heightmap cell. */
  datatype Spot = Spot(ix: nat, iy: nat)

  /** A spot for a ruin: on the heightmap, above 0.15 and below 0.5. */
  predicate GoodSpot(heightmap: seq<seq<real>>, c: Spot) {
    c.iy < |heightmap| && c.ix < |heightmap[c.iy]| && 0.15 < heightmap[c.iy][c.ix] < 0.5
  }

  /** The first good spot of a list of candidates, if any. */
  function FirstGood(heightmap: seq<seq<real>>, cands: seq<Spot>): (s: Option<Spot>)
    ensures s.Some? ==> GoodSpot(heightmap, s.value)
  {
    if |cands| == 0 then None
    else if GoodSpot(heightmap, cands[0]) then Some(cands[0])
    else FirstGood(heightmap, cands[1..])
  }

  /** The spots ruin i tries, one per attempt; pick(i, k) holds the two randint
      draws of attempt k. */
  function Attempts(pick: (nat, nat) -> Spot, i: nat): seq<Spot> {
    seq(MAX_ATTEMPTS, (k: int) requires 0 <= k => Draw(pick, i, k))
  }

  /** The spot attempt k of ruin i draws. */
  function Draw(pick: (nat, nat) -> Spot, i: nat, k: nat): Spot {
    pick(i, k)
  }

  /** The spot ruin i settles on, or None when all its attempts miss. */
  function RuinSite(heightmap: seq<seq<real>>, pick: (nat, nat) -> Spot, i: nat): Option<Spot> {
    FirstGood(heightmap, Attempts(pick, i))
  }

  /** The ruin built on spot c for ruin i, in the style choose(i). */
  function RuinAt(heightmap: seq<seq<real>>, size: real, maxHeight: real, choose: nat -> RuinStyle,
                  i: nat, c: Spot): Ruin
    requires |heightmap| >= 2 && GoodSpot(heightmap, c)
  {
    var r := |heightmap| - 1;
    Ruin(c.ix, c.iy, GridCoord(size, r, c.ix), GridCoord(size, r, c.iy),
         heightmap[c.iy][c.ix] * maxHeight, choose(i))
  }

  /** The ruins create_ancient_ruins places for ruins 0 .. n - 1; choose(i) is
      the random.choice of ruin i's style. */
  function RuinsOf(heightmap: seq<seq<real>>, size: real, maxHeight: real,
                   pick: (nat, nat) -> Spot, choose: nat -> RuinStyle, n: nat)
    : seq<Ruin>
    requires |heightmap| >= 2
  {
    if n == 0 then []
    else
      RuinsOf(heightmap, size, maxHeight, pick, choose, n - 1) +
      match RuinSite(heightmap, pick, n - 1)
      case None => []
      case Some(c) => [RuinAt(heightmap, size, maxHeight, choose, n - 1, c)]
  }

  /** The search keeps the first good candidate; with none, it finds nothing. */
  lemma {:induction false} FirstGoodFirst(heightmap: seq<seq<real>>, cands: seq<Spot>)
    ensures FirstGood(heightmap, cands).Some? ==>
              exists j :: 0 <= j < |cands| && cands[j] == FirstGood(heightmap, cands).value &&
                forall l :: 0 <= l < j ==> !GoodSpot(heightmap, cands[l])
    ensures FirstGood(heightmap, cands).None? ==>
              forall l :: 0 <= l < |cands| ==> !GoodSpot(heightmap, cands[l])
  {
    if |cands| > 0 && !GoodSpot(heightmap, cands[0]) {
      var rest := cands[1..];
      FirstGoodFirst(heightmap, rest);
      if FirstGood(heightmap, rest).Some? {
        var j :| 0 <= j < |rest| && rest[j] == FirstGood(heightmap, rest).value &&
                 forall l :: 0 <= l < j ==> !GoodSpot(heightmap, rest[l]);
        assert cands[j + 1] == rest[j];
        forall l | 0 <= l < j + 1 ensures !GoodSpot(heightmap, cands[l]) {
          if l > 0 {
            assert cands[l] == rest[l - 1];
          }
        }
      } else {
        forall l | 0 <= l < |cands| ensures !GoodSpot(heightmap, cands[l]) {
          if l > 0 {
            assert cands[l] == rest[l - 1];
          }
        }
      }
    }
  }

  /** A ruin's spot is the first good draw among at most MAX_ATTEMPTS attempts,
      and when every attempt misses there is no ruin. */
  lemma RuinSiteFirst(heightmap: seq<seq<real>>, pick: (nat, nat) -> Spot, i: nat)
    ensures RuinSite(heightmap, pick, i).Some? ==>
              exists j: nat :: j < MAX_ATTEMPTS && pick(i, j) == RuinSite(heightmap, pick, i).value &&
                forall l: nat :: l < j ==> !GoodSpot(heightmap, pick(i, l))
    ensures RuinSite(heightmap, pick, i).None? ==>
              forall l: nat :: l < MAX_ATTEMPTS ==> !GoodSpot(heightmap, pick(i, l))
  {
    var cands := Attempts(pick, i);
    FirstGoodFirst(heightmap, cands);
    if RuinSite(heightmap, pick, i).Some? {
      var j :| 0 <= j < |cands| && cands[j] == FirstGood(heightmap, cands).value &&
               forall l :: 0 <= l < j ==> !GoodSpot(heightmap, cands[l]);
      assert pick(i, j) == cands[j];
      forall l: nat | l < j ensures !GoodSpot(heightmap, pick(i, l)) {
        assert pick(i, l) == cands[l];
      }
    } else {
      forall l: nat | l < MAX_ATTEMPTS ensures !GoodSpot(heightmap, pick(i, l)) {
        assert pick(i, l) == cands[l];
      }
    }
  }

  /** The band the randint draws come from: 20 .. resolution - 20 on both axes. */
  ghost predicate InBand(heightmap: seq<seq<real>>, pick: (nat, nat) -> Spot) {
    forall i, k :: 20 <= pick(i, k).ix <= |heightmap| - 21 && 20 <= pick(i, k).iy <= |heightmap| - 21
  }

  /** At most one ruin per requested ruin, each on a good spot inside the band
      the draws come from. */
  lemma {:induction false} RuinsPlaced(heightmap: seq<seq<real>>, size: real, maxHeight: real,
                                       pick: (nat, nat) -> Spot, choose: nat -> RuinStyle, n: nat)
    requires |heightmap| >= 2 && InBand(heightmap, pick)
    ensures |RuinsOf(heightmap, size, maxHeight, pick, choose, n)| <= n
    ensures forall ru :: ru in RuinsOf(heightmap, size, maxHeight, pick, choose, n) ==>
              20 <= ru.ix <= |heightmap| - 21 && 20 <= ru.iy <= |heightmap| - 21 &&
              GoodSpot(heightmap, Spot(ru.ix, ru.iy))
  {
    if n > 0 {
      RuinsPlaced(heightmap, size, maxHeight, pick, choose, n - 1);
      RuinSiteFirst(heightmap, pick, n - 1);
    }
  }

  /** One ruin's search: up to MAX_ATTEMPTS draws, keeping the first spot with
      0.15 < h < 0.5. */
  method PlaceRuin(heightmap: seq<seq<real>>, size: real, maxHeight: real,
                   pick: (nat, nat) -> Spot, choose: nat -> RuinStyle, i: nat)
    returns (placed: seq<Ruin>)
    requires |heightmap| >= 2 && Rectangular(heightmap) && InBand(heightmap, pick)
    ensures placed == match RuinSite(heightmap, pick, i)
                      case None => []
                      case Some(c) => [RuinAt(heightmap, size, maxHeight, choose, i, c)]
  {
    ghost var cands := Attempts(pick, i);
    placed := [];
    var attempts := 0;
    while attempts < MAX_ATTEMPTS
      invariant attempts <= |cands|
      invariant RuinSite(heightmap, pick, i) == FirstGood(heightmap, cands[attempts..])
    {
      var spot := Draw(pick, i, attempts);
      assert cands[attempts..][0] == spot;
      var h := heightmap[spot.iy][spot.ix];
      if 0.15 < h < 0.5 {
        assert GoodSpot(heightmap, spot);
        assert RuinSite(heightmap, pick, i) == Some(spot);
        placed := [RuinAt(heightmap, size, maxHeight, choose, i, spot)];
        return;
      }
      assert cands[attempts..][1..] == cands[attempts + 1..];
      attempts := attempts + 1;
    }
    assert cands[attempts..] == [];
  }

  /** create_ancient_ruins(heightmap, size, max_height, count): one search per
      requested ruin, in order. */
  method CreateAncientRuins(heightmap: seq<seq<real>>, size: real, maxHeight: real, count: nat,
                            pick: (nat, nat) -> Spot, choose: nat -> RuinStyle)
    returns (ruins: seq<Ruin>)
    requires |heightmap| >= 2 && Rectangular(heightmap) && InBand(heightmap, pick)
    ensures ruins == RuinsOf(heightmap, size, maxHeight, pick, choose, count)
  {
    ruins := [];
    for i := 0 to count
      invariant ruins == RuinsOf(heightmap, size, maxHeight, pick, choose, i)
    {
      var placed := PlaceRuin(heightmap, size, maxHeight, pick, choose, i);
      ruins := ruins + placed;
    }
  }
}

=== FILE: fbx_inspect.dfy ===
/** inspect_fbx.py: a raw scan of an FBX file for vertex coordinates. Decoding
    a little-endian 32-bit float is an oracle, `decode`, that maps four bytes
    to their value, or to None for NaN and the infinities (which every
    comparison in the filter rejects). */
module FbxInspect {
  import opened Wrappers
  import Numeric

  newtype byte = b: int | 0 <= b < 256

  /** b'Kaydara FBX Binary'. */
  const MAGIC: seq<byte> := [75, 97, 121, 100, 97, 114, 97, 32, 70, 66, 88, 32, 66, 105, 110, 97, 114, 121]

  /** b'Vertices'. */
  const VERTICES_MARKER: seq<byte> := [86, 101, 114, 116, 105, 99, 101, 115]

  /** How many bytes read_fbx_header() reads. */
  const HEADER_READ: nat := 23

  /** How far past a marker the coordinate search looks. */
  const SEARCH_SPAN: nat := 500

  // ---------------------------------------------------------------------------
  // read_fbx_header
  // ---------------------------------------------------------------------------

  datatype Format = Binary | Ascii

  predicate StartsWithBytes(s: seq<byte>, prefix: seq<byte>) {
    |prefix| <= |s| && s[..|prefix|] == prefix
  }

  /** The format named by the first 23 bytes: binary exactly when the file
      starts with the magic text, ascii otherwise, short files included. */
  function ReadFbxHeader(data: seq<byte>): (f: Format)
    ensures f == Binary <==> |data| >= |MAGIC| && data[..|MAGIC|] == MAGIC
  {
    var n := if |data| < HEADER_READ then |data| else HEADER_READ;
    var magic := data[..n];
    if StartsWithBytes(magic, MAGIC) then Binary else Ascii
  }

  // ---------------------------------------------------------------------------
  // bytes.find and the marker scan
  // ---------------------------------------------------------------------------

  /** The marker occurs in the data at offset j. */
  predicate MatchAt(data: seq<byte>, marker: seq<byte>, j: nat) {
    j + |marker| <= |data| && data[j..j + |marker|] == marker
  }

  /** data.find(marker, from): the first offset at or after from where the
      marker occurs, or -1. */
  function Find(data: seq<byte>, marker: seq<byte>, from: nat): (i: int)
    requires |marker| > 0
    ensures i == -1 || (from <= i && MatchAt(data, marker, i))
    decreases |data| - from
  {
    if from + |marker| > |data| then -1
    else if MatchAt(data, marker, from) then from
    else Find(data, marker, from + 1)
  }

  /** find() misses no occurrence: -1 means none at or after from, and an
      offset is the first one. */
  lemma {:induction false} FindFirst(data: seq<byte>, marker: seq<byte>, from: nat)
    requires |marker| > 0
    ensures var i := Find(data, marker, from);
      (i == -1 ==> forall j :: from <= j ==> !MatchAt(data, marker, j)) &&
      (i >= 0 ==> forall j :: from <= j < i ==> !MatchAt(data, marker, j))
    decreases |data| - from
  {
    if from + |marker| <= |data| && !MatchAt(data, marker, from) {
      FindFirst(data, marker, from + 1);
    }
  }

  /** Every offset at or after from where the marker occurs, in increasing
      order. */
  function Occurrences(data: seq<byte>, marker: seq<byte>, from: nat): seq<nat>
    requires |marker| > 0
    decreases |data| - from
  {
    if from + |marker| > |data| then []
    else if MatchAt(data, marker, from) then [from] + Occurrences(data, marker, from + 1)
    else Occurrences(data, marker, from + 1)
  }

  /** Occurrences lists exactly the matching offsets. */
  lemma {:induction false} OccurrencesExactly(data: seq<byte>, marker: seq<byte>, from: nat)
    requires |marker| > 0
    ensures forall j :: j in Occurrences(data, marker, from) <==> from <= j && MatchAt(data, marker, j)
    decreases |data| - from
  {
    if from + |marker| <= |data| {
      OccurrencesExactly(data, marker, from + 1);
    }
  }

  /** Occurrences are listed in strictly increasing order. */
  lemma {:induction false} OccurrencesIncreasing(data: seq<byte>, marker: seq<byte>, from: nat)
    requires |marker| > 0
    ensures forall a, b :: 0 <= a < b < |Occurrences(data, marker, from)| ==>
      Occurrences(data, marker, from)[a] < Occurrences(data, marker, from)[b]
    decreases |data| - from
  {
    if from + |marker| <= |data| {
      OccurrencesIncreasing(data, marker, from + 1);
      var rest := Occurrences(data, marker, from + 1);
      OccurrencesExactly(data, marker, from + 1);
      assert forall b :: 0 <= b < |rest| ==> rest[b] in rest;
    }
  }

  /** Restarting one byte after each find() walks through the occurrences. */
  lemma {:induction false} FindNext(data: seq<byte>, marker: seq<byte>, from: nat)
    requires |marker| > 0
    ensures var i := Find(data, marker, from);
      if i == -1 then Occurrences(data, marker, from) == []
      else Occurrences(data, marker, from) == [i as nat] + Occurrences(data, marker, i as nat + 1)
    decreases |data| - from
  {
    if from + |marker| > |data| {
    } else if MatchAt(data, marker, from) {
    } else {
      FindNext(data, marker, from + 1);
      assert Find(data, marker, from) == Find(data, marker, from + 1);
      assert Occurrences(data, marker, from) == Occurrences(data, marker, from + 1);
    }
  }

  // ---------------------------------------------------------------------------
  // The coordinate windows after a marker
  // ---------------------------------------------------------------------------

  datatype Vec3 = Vec3(x: real, y: real, z: real)

  /** -100000 < v < 100000 and abs(v) > 1e-10, or v == 0. */
  predicate Plausible(v: real) {
    (-100000.0 < v < 100000.0 && Numeric.Abs(v) > 0.0000000001) || v == 0.0
  }

  /** A triple kept as a candidate vertex: three plausible coordinates, one of
      them away from zero. */
  predicate Kept(p: Vec3) {
    Plausible(p.x) && Plausible(p.y) && Plausible(p.z) &&
    (Numeric.Abs(p.x) > 0.01 || Numeric.Abs(p.y) > 0.01 || Numeric.Abs(p.z) > 0.01)
  }

  /** The float stored in the four bytes at offset. */
  function FloatAt(decode: seq<byte> -> Option<real>, data: seq<byte>, offset: nat): Option<real>
    requires offset + 4 <= |data|
  {
    decode(data[offset..offset + 4])
  }

  /** The triple at offset, when its three floats decode to finite values. */
  function TripleAt(decode: seq<byte> -> Option<real>, data: seq<byte>, offset: nat): Option<Vec3>
    requires offset + 12 <= |data|
  {
    var x, y, z := FloatAt(decode, data, offset), FloatAt(decode, data, offset + 4), FloatAt(decode, data, offset + 8);
    if x.Some? && y.Some? && z.Some? then Some(Vec3(x.value, y.value, z.value)) else None
  }

  /** search_end: min(search_start + 500, len(data)). */
  function SearchEnd(data: seq<byte>, searchStart: nat): (e: nat)
    ensures e <= |data| && e <= searchStart + SEARCH_SPAN
  {
    if searchStart + SEARCH_SPAN < |data| then searchStart + SEARCH_SPAN else |data|
  }

  /** The offset of the k-th window: search_start + 4k. */
  function WindowOffset(searchStart: nat, k: nat): nat {
    searchStart + 4 * k
  }

  /** The number of offsets in range(search_start, search_end - 12, 4). */
  function WindowCount(searchStart: nat, searchEnd: nat): (n: nat)
    ensures forall k :: 0 <= k < n ==> WindowOffset(searchStart, k) < searchEnd - 12
    ensures WindowOffset(searchStart, n) >= searchEnd - 12
  {
    if searchEnd - 12 <= searchStart then 0 else (searchEnd - 12 - searchStart + 3) / 4
  }

  /** The triples kept from the first n windows after search_start, in offset
      order. Every window lies inside the data. */
  function KeptWindows(decode: seq<byte> -> Option<real>, data: seq<byte>, searchStart: nat, n: nat): seq<Vec3>
    requires n <= WindowCount(searchStart, SearchEnd(data, searchStart))
  {
    if n == 0 then []
    else
      var offset := WindowOffset(searchStart, n - 1);
      var t := TripleAt(decode, data, offset);
      KeptWindows(decode, data, searchStart, n - 1) + (if t.Some? && Kept(t.value) then [t.value] else [])
  }

  /** Every triple read after a marker lies inside the data and inside the
      500-byte span, and starts 4k bytes after the marker's end. */
  lemma WindowsInBounds(data: seq<byte>, searchStart: nat, k: nat)
    requires k < WindowCount(searchStart, SearchEnd(data, searchStart))
    ensures WindowOffset(searchStart, k) + 12 < SearchEnd(data, searchStart) <= |data|
    ensures WindowOffset(searchStart, k) + 12 < searchStart + SEARCH_SPAN
    ensures WindowOffset(searchStart, k) == searchStart + 4 * k
  {
  }

  /** Each kept triple passed the filter. */
  lemma {:induction false} KeptWindowsFiltered(decode: seq<byte> -> Option<real>, data: seq<byte>, searchStart: nat, n: nat)
    requires n <= WindowCount(searchStart, SearchEnd(data, searchStart))
    ensures forall p :: p in KeptWindows(decode, data, searchStart, n) ==> Kept(p)
  {
    if n > 0 {
      KeptWindowsFiltered(decode, data, searchStart, n - 1);
    }
  }

  /** struct.unpack('<f', ...) at offset, offset + 4 and offset + 8; None when
      any of the three fails to decode. */
  method ReadTriple(decode: seq<byte> -> Option<real>, data: seq<byte>, offset: nat) returns (t: Option<Vec3>)
    requires offset + 12 <= |data|
    ensures t == TripleAt(decode, data, offset)
  {
    var x := FloatAt(decode, data, offset);
    var y := FloatAt(decode, data, offset + 4);
    var z := FloatAt(decode, data, offset + 8);
    if x.Some? && y.Some? && z.Some? {
      t := Some(Vec3(x.value, y.value, z.value));
    } else {
      t := None;
    }
  }

  /** Window k adds its triple to the kept ones when it decodes and passes
      the filter, and adds nothing otherwise. */
  lemma KeptWindowsNext(decode: seq<byte> -> Option<real>, data: seq<byte>, searchStart: nat, k: nat)
    requires k < WindowCount(searchStart, SearchEnd(data, searchStart))
    ensures WindowOffset(searchStart, k) + 12 <= |data|
    ensures var t := TripleAt(decode, data, WindowOffset(searchStart, k));
      KeptWindows(decode, data, searchStart, k + 1) ==
        KeptWindows(decode, data, searchStart, k) + (if t.Some? && Kept(t.value) then [t.value] else [])
  {
    WindowsInBounds(data, searchStart, k);
  }

  /** range() yields window k exactly when k is below the window count. */
  lemma WindowIndex(searchStart: nat, searchEnd: nat, k: nat)
    ensures k < WindowCount(searchStart, searchEnd) <==> WindowOffset(searchStart, k) < searchEnd - 12
  {
    var n := WindowCount(searchStart, searchEnd);
    if k >= n {
      assert WindowOffset(searchStart, k) >= WindowOffset(searchStart, n);
    }
  }

  /** The plausible triples in the windows after the marker found at idx. */
  function MarkerWindows(decode: seq<byte> -> Option<real>, data: seq<byte>, idx: nat): seq<Vec3> {
    var searchStart := idx + |VERTICES_MARKER|;
    KeptWindows(decode, data, searchStart, WindowCount(searchStart, SearchEnd(data, searchStart)))
  }

  /** The inner loop: reads the triples after one marker and keeps the
      plausible ones. */
  method ScanWindows(decode: seq<byte> -> Option<real>, data: seq<byte>, idx: nat) returns (kept: seq<Vec3>)
    ensures kept == MarkerWindows(decode, data, idx)
  {
    kept := ScanFrom(decode, data, idx + |VERTICES_MARKER|);
  }

  /** The windows from searchStart up to searchEnd - 12, four bytes apart. */
  method ScanFrom(decode: seq<byte> -> Option<real>, data: seq<byte>, searchStart: nat) returns (kept: seq<Vec3>)
    ensures kept == KeptWindows(decode, data, searchStart, WindowCount(searchStart, SearchEnd(data, searchStart)))
  {
    var searchEnd: int := SearchEnd(data, searchStart);
    var n := WindowCount(searchStart, searchEnd);
    kept := [];
    var offset: int := searchStart;
    var k := 0;
    while offset < searchEnd - 12
      invariant k <= n && offset == WindowOffset(searchStart, k)
      invariant kept == KeptWindows(decode, data, searchStart, k)
      decreases searchEnd - offset
    {
      WindowIndex(searchStart, searchEnd, k);
      WindowsInBounds(data, searchStart, k);
      var t := ReadTriple(decode, data, offset);
      KeptWindowsNext(decode, data, searchStart, k);
      if t.Some? && Kept(t.value) {
        kept := kept + [t.value];
      }
      offset := offset + 4;
      k := k + 1;
    }
    WindowIndex(searchStart, searchEnd, k);
  }

  // ---------------------------------------------------------------------------
  // The whole scan and the bounds
  // ---------------------------------------------------------------------------

  /** The triples kept after each of the given markers, marker by marker. */
  function Candidates(decode: seq<byte> -> Option<real>, data: seq<byte>, found: seq<nat>): seq<Vec3> {
    if |found| == 0 then []
    else Candidates(decode, data, found[..|found| - 1]) + MarkerWindows(decode, data, found[|found| - 1])
  }

  /** One more marker adds its own triples after the earlier ones. */
  lemma CandidatesAppend(decode: seq<byte> -> Option<real>, data: seq<byte>, found: seq<nat>, idx: nat)
    ensures Candidates(decode, data, found + [idx]) == Candidates(decode, data, found) + MarkerWindows(decode, data, idx)
  {
    assert (found + [idx])[..|found|] == found;
  }

  /** Every candidate passed the filter. */
  lemma {:induction false} CandidatesFiltered(decode: seq<byte> -> Option<real>, data: seq<byte>, found: seq<nat>)
    ensures forall p :: p in Candidates(decode, data, found) ==> Kept(p)
  {
    if |found| > 0 {
      CandidatesFiltered(decode, data, found[..|found| - 1]);
      var searchStart := found[|found| - 1] + |VERTICES_MARKER|;
      KeptWindowsFiltered(decode, data, searchStart, WindowCount(searchStart, SearchEnd(data, searchStart)));
    }
  }

  /** Coordinate a of a triple: 0 is x, 1 is y, anything else z. */
  function Axis(p: Vec3, a: nat): real {
    if a == 0 then p.x else if a == 1 then p.y else p.z
  }

  /** min(p[a] for p in ps). */
  function MinAxis(ps: seq<Vec3>, a: nat): (m: real)
    requires |ps| > 0
    ensures forall i :: 0 <= i < |ps| ==> m <= Axis(ps[i], a)
    ensures exists i :: 0 <= i < |ps| && m == Axis(ps[i], a)
  {
    if |ps| == 1 then Axis(ps[0], a)
    else
      var rest := MinAxis(ps[1..], a);
      assert forall i :: 1 <= i < |ps| ==> ps[i] == ps[1..][i - 1];
      if Axis(ps[0], a) <= rest then Axis(ps[0], a) else rest
  }

  /** max(p[a] for p in ps). */
  function MaxAxis(ps: seq<Vec3>, a: nat): (m: real)
    requires |ps| > 0
    ensures forall i :: 0 <= i < |ps| ==> Axis(ps[i], a) <= m
    ensures exists i :: 0 <= i < |ps| && m == Axis(ps[i], a)
  {
    if |ps| == 1 then Axis(ps[0], a)
    else
      var rest := MaxAxis(ps[1..], a);
      assert forall i :: 1 <= i < |ps| ==> ps[i] == ps[1..][i - 1];
      if Axis(ps[0], a) >= rest then Axis(ps[0], a) else rest
  }

  /** max - min along axis a. */
  function Extent(ps: seq<Vec3>, a: nat): real
    requires |ps| > 0
  {
    MaxAxis(ps, a) - MinAxis(ps, a)
  }

  /** max(width, height, depth), or None without candidates. */
  function MaxDimension(ps: seq<Vec3>): Option<real> {
    if |ps| == 0 then None
    else Some(Numeric.Max(Numeric.Max(Extent(ps, 0), Extent(ps, 1)), Extent(ps, 2)))
  }

  /** The returned size is None exactly when there is no candidate; otherwise
      it is never negative, no two candidates are further apart along any
      axis, and it is the distance along some axis between two candidates. */
  lemma MaxDimensionBounds(ps: seq<Vec3>)
    ensures MaxDimension(ps).None? <==> |ps| == 0
    ensures MaxDimension(ps).Some? ==>
      var d := MaxDimension(ps).value;
      0.0 <= d &&
      (forall i, j, a :: 0 <= i < |ps| && 0 <= j < |ps| && a < 3 ==> Axis(ps[i], a) - Axis(ps[j], a) <= d) &&
      (d == Extent(ps, 0) || d == Extent(ps, 1) || d == Extent(ps, 2))
  {
    if |ps| > 0 {
      var d := MaxDimension(ps).value;
      assert d == Numeric.Max(Numeric.Max(Extent(ps, 0), Extent(ps, 1)), Extent(ps, 2));
      ExtentAttained(ps, 0);
      forall i, j, a | 0 <= i < |ps| && 0 <= j < |ps| && a < 3
        ensures Axis(ps[i], a) - Axis(ps[j], a) <= d
      {
        WithinExtent(ps, a, i, j);
        assert a == 0 || a == 1 || a == 2;
      }
    }
  }

  /** No two candidates are further apart along an axis than its extent. */
  lemma WithinExtent(ps: seq<Vec3>, a: nat, i: nat, j: nat)
    requires i < |ps| && j < |ps|
    ensures Axis(ps[i], a) - Axis(ps[j], a) <= Extent(ps, a)
  {
    assert Axis(ps[i], a) <= MaxAxis(ps, a);
    assert MinAxis(ps, a) <= Axis(ps[j], a);
  }

  /** The extent is the distance between two candidates, and not negative. */
  lemma ExtentAttained(ps: seq<Vec3>, a: nat)
    requires |ps| > 0
    ensures 0.0 <= Extent(ps, a)
    ensures exists i, j :: 0 <= i < |ps| && 0 <= j < |ps| && Extent(ps, a) == Axis(ps[i], a) - Axis(ps[j], a)
  {
    var i :| 0 <= i < |ps| && MaxAxis(ps, a) == Axis(ps[i], a);
    var j :| 0 <= j < |ps| && MinAxis(ps, a) == Axis(ps[j], a);
    assert MinAxis(ps, a) <= Axis(ps[0], a) <= MaxAxis(ps, a);
  }

  /** The bounds of the candidates: the widths along x, y and z, and the
      largest of them. */
  method Bounds(positions: seq<Vec3>) returns (size: Option<real>)
    ensures size == MaxDimension(positions)
  {
    if |positions| == 0 {
      return None;
    }
    var width := MaxAxis(positions, 0) - MinAxis(positions, 0);
    var height := MaxAxis(positions, 1) - MinAxis(positions, 1);
    var depth := MaxAxis(positions, 2) - MinAxis(positions, 2);
    size := Some(Numeric.Max(Numeric.Max(width, height), depth));
  }

  /** The offsets found so far, followed by those find() will still return
      from idx, are all the occurrences; find() extends the first part by one
      offset or ends the scan. */
  lemma FoundSoFar(data: seq<byte>, marker: seq<byte>, found: seq<nat>, idx: nat)
    requires |marker| > 0
    requires found + Occurrences(data, marker, idx) == Occurrences(data, marker, 0)
    ensures var next := Find(data, marker, idx);
      if next == -1 then found == Occurrences(data, marker, 0)
      else (found + [next as nat]) + Occurrences(data, marker, next as nat + 1) == Occurrences(data, marker, 0)
  {
    FindNext(data, marker, idx);
    var next := Find(data, marker, idx);
    if next != -1 {
      assert found + Occurrences(data, marker, idx)
          == (found + [next as nat]) + Occurrences(data, marker, next as nat + 1);
    }
  }

  /** The outer loop: find() from the start, scan the windows after each
      marker, and restart one byte after it, until find() returns -1. */
  method ScanMarkers(decode: seq<byte> -> Option<real>, data: seq<byte>, marker: seq<byte>)
    returns (found: seq<nat>, positions: seq<Vec3>)
    requires |marker| > 0
    ensures found == Occurrences(data, marker, 0)
    ensures positions == Candidates(decode, data, found)
  {
    found, positions := [], [];
    var idx: nat := 0;
    ghost var all := Occurrences(data, marker, 0);
    while true
      invariant idx <= |data| + 1
      invariant found + Occurrences(data, marker, idx) == all
      invariant positions == Candidates(decode, data, found)
      decreases |data| + 1 - idx
    {
      var next := Find(data, marker, idx);
      FoundSoFar(data, marker, found, idx);
      if next == -1 {
        return;
      }
      var kept := ScanWindows(decode, data, next);
      CandidatesAppend(decode, data, found, next as nat);
      found := found + [next as nat];
      positions := positions + kept;
      idx := next + 1;
    }
  }

  /** analyze_fbx_simple(): the header format, the marker offsets in scan
      order, the candidate triples, and the largest dimension (None when no
      candidate was kept). */
  method AnalyzeFbx(decode: seq<byte> -> Option<real>, data: seq<byte>)
    returns (format: Format, found: seq<nat>, positions: seq<Vec3>, size: Option<real>)
    ensures format == ReadFbxHeader(data)
    ensures found == Occurrences(data, VERTICES_MARKER, 0)
    ensures positions == Candidates(decode, data, found)
    ensures size == MaxDimension(positions)
  {
    format := ReadFbxHeader(data);
    found, positions := ScanMarkers(decode, data, VERTICES_MARKER);
    size := Bounds(positions);
  }
}

=== FILE: fbx_upload.dfy ===
/** upload-fbx-to-roblox.py: which files are uploaded, under which display
    name, which uploads are followed up, and what is recorded for each. The
    HTTP calls are oracles: `upload(i)` is the dict upload_fbx() returns for
    the i-th .fbx file (the decoded reply, or an {"error": ...} dict), and
    `status(j)` the value check_operation_status() returns for the j-th
    operation: the decoded reply, whatever JSON value it is, or an
    {"error": ...} dict. */
module FbxUpload {
  import opened Wrappers
  import opened Strings
  import opened JsonValues

  const DISPLAY_PREFIX: string := "Structures_"

  // ---------------------------------------------------------------------------
  // The .fbx filter
  // ---------------------------------------------------------------------------

  predicate IsFbxName(f: string) {
    EndsWith(f, ".fbx")
  }

  /** The names of the directory listing that end in ".fbx", in listing order. */
  function FbxFiles(listing: seq<string>): (r: seq<string>)
    ensures forall f :: f in r <==> f in listing && IsFbxName(f)
    ensures |r| <= |listing|
  {
    if |listing| == 0 then []
    else
      var init := listing[..|listing| - 1];
      var last := listing[|listing| - 1];
      assert listing == init + [last];
      FbxFiles(init) + (if IsFbxName(last) then [last] else [])
  }

  // ---------------------------------------------------------------------------
  // The display name
  // ---------------------------------------------------------------------------

  /** The file name with every ".fbx" removed. */
  function StemText(file: string): string {
    ReplaceAll(file, ".fbx", "")
  }

  /** "Structures_" + the stem with '_' read as a space, title-cased, and the
      spaces then removed. */
  function DisplayName(file: string): string {
    var name := Title(ReplaceAll(StemText(file), "_", " "));
    DISPLAY_PREFIX + ReplaceAll(name, " ", "")
  }

  /** After the prefix, the display name is the stem without its separators,
      up to case: title-casing only changes case, and the '_' and ' '
      characters are the only ones dropped. */
  lemma DisplayNameCaseless(file: string)
    ensures |DisplayName(file)| >= |DISPLAY_PREFIX|
    ensures DisplayName(file)[..|DISPLAY_PREFIX|] == DISPLAY_PREFIX
    ensures Lower(DisplayName(file)[|DISPLAY_PREFIX|..]) ==
      Without(Without(Lower(StemText(file)), '_'), ' ')
  {
    var stem := StemText(file);
    var spaced := ReplaceAll(stem, "_", " ");
    ReplaceAllSwaps(stem, '_', ' ');
    assert spaced == SwapChar(stem, '_', ' ');
    var titled := Title(spaced);
    var rest := ReplaceAll(titled, " ", "");
    ReplaceAllDrops(titled, ' ');
    assert rest == Without(titled, ' ');
    assert DisplayName(file) == DISPLAY_PREFIX + rest;
    assert DisplayName(file)[|DISPLAY_PREFIX|..] == rest;
    LowerWithout(titled, ' ');
    LowerTitle(spaced);
    LowerSwap(stem, '_', ' ');
    WithoutSwap(Lower(stem), '_', ' ');
  }

  /** The display name has no spaces, and no '_' after the prefix. */
  lemma DisplayNameSeparators(file: string)
    ensures ' ' !in DisplayName(file)
    ensures '_' !in DisplayName(file)[|DISPLAY_PREFIX|..]
  {
    DisplayNameCaseless(file);
    var name := DisplayName(file);
    var rest := name[|DISPLAY_PREFIX|..];
    var dropped := Without(Lower(StemText(file)), '_');
    assert ' ' !in Without(dropped, ' ');
    if ' ' in rest {
      UncasedKept(rest, ' ');
      assert false;
    }
    if '_' in rest {
      UncasedKept(rest, '_');
      WithoutKeeps(dropped, ' ', '_');
      assert false;
    }
    assert name == DISPLAY_PREFIX + rest;
    assert ' ' !in DISPLAY_PREFIX;
  }

  /** A two-word snake_case file name of lower-case letters gets both words
      capitalised and joined. */
  lemma SnakePairName(a: string, b: string)
    requires |a| > 0 && |b| > 0 && AllLowerLetters(a) && AllLowerLetters(b)
    ensures DisplayName(a + "_" + b + ".fbx") == DISPLAY_PREFIX + Capitalize(a) + Capitalize(b)
  {
    var stem := a + "_" + b;
    SnakeStem(a, b);
    ReplaceAllSwaps(stem, '_', ' ');
    SwapSeparator(a, b);
    SnakeTitled(a, b);
    CapitalizedWord(a);
    CapitalizedWord(b);
    JoinWords(Capitalize(a), Capitalize(b));
  }

  /** ".fbx" goes and nothing else. */
  lemma SnakeStem(a: string, b: string)
    requires AllLowerLetters(a) && AllLowerLetters(b)
    ensures StemText(a + "_" + b + ".fbx") == a + "_" + b
  {
    var stem := a + "_" + b;
    assert '.' !in stem by {
      forall i | 0 <= i < |stem| ensures stem[i] != '.' {
        if i < |a| { assert stem[i] == a[i]; }
        else if i > |a| { assert stem[i] == b[i - |a| - 1]; }
      }
    }
    ReplaceAllAfter(stem, ".fbx", ".fbx", "");
    assert ReplaceAll(".fbx", ".fbx", "") == "";
    assert stem + ".fbx" == a + "_" + b + ".fbx";
  }

  /** Title-casing two lower-case words capitalises each. */
  lemma SnakeTitled(a: string, b: string)
    requires AllLowerLetters(a) && AllLowerLetters(b)
    ensures Title(a + " " + b) == Capitalize(a) + " " + Capitalize(b)
  {
    TitleAround(a, ' ', b);
    TitleLowerWord(a);
    TitleLowerWord(b);
  }

  /** A capitalised lower-case word holds no space. */
  lemma CapitalizedWord(w: string)
    requires AllLowerLetters(w)
    ensures ' ' !in Capitalize(w)
  {
    forall i | 0 <= i < |w| ensures Capitalize(w)[i] != ' ' {
      assert IsCased(w[i]);
    }
  }

  /** Removing the one space between two capitalised words joins them. */
  lemma JoinWords(x: string, y: string)
    requires ' ' !in x && ' ' !in y
    ensures ReplaceAll(x + " " + y, " ", "") == x + y
  {
    ReplaceAllDrops(x + " " + y, ' ');
    WithoutAppend(x + " ", y, ' ');
    WithoutAppend(x, " ", ' ');
    WithoutAbsent(x, ' ');
    WithoutAbsent(y, ' ');
    assert Without(" ", ' ') == "" + Without("", ' ');
    assert x + "" == x;
  }

  /** Swapping '_' for ' ' between two lower-case words. */
  lemma SwapSeparator(a: string, b: string)
    requires AllLowerLetters(a) && AllLowerLetters(b)
    ensures SwapChar(a + "_" + b, '_', ' ') == a + " " + b
  {
    var stem := a + "_" + b;
    var spaced := a + " " + b;
    forall i | 0 <= i < |stem| ensures SwapChar(stem, '_', ' ')[i] == spaced[i] {
      if i < |a| {
        assert stem[i] == a[i] && spaced[i] == a[i];
        assert IsLowerChar(a[i]);
      } else if i == |a| {
        assert stem[i] == '_' && spaced[i] == ' ';
      } else {
        assert stem[i] == b[i - |a| - 1] && spaced[i] == b[i - |a| - 1];
        assert IsLowerChar(b[i - |a| - 1]);
      }
    }
  }

  /** The water tower's display name, as the download tool lists it. */
  lemma WaterTower(file: string)
    requires file == "water_tower.fbx"
    ensures DisplayName(file) == DISPLAY_PREFIX + "Water" + "Tower"
  {
    WaterTowerFile(file);
    SnakePairName("water", "tower");
    WaterTowerWords();
  }

  lemma WaterTowerFile(file: string)
    requires file == "water_tower.fbx"
    ensures file == "water" + "_" + "tower" + ".fbx"
  {
  }

  lemma WaterTowerWords()
    ensures AllLowerLetters("water") && AllLowerLetters("tower")
    ensures Capitalize("water") == "Water" && Capitalize("tower") == "Tower"
  {
    CapitalizedAs("water", "Water");
    CapitalizedAs("tower", "Tower");
  }

  /** A lower-case word whose capitalisation differs from it only in the
      first letter, upper-cased. */
  lemma CapitalizedAs(w: string, cap: string)
    requires |w| > 0 && AllLowerLetters(w)
    requires |cap| == |w| && cap[0] == UpperChar(w[0]) && cap[1..] == w[1..]
    ensures Capitalize(w) == cap
  {
    CapitalizeLowerWord(w);
  }

  /** Dropping one character never brings in another. */
  lemma {:induction false} WithoutKeeps(s: string, c: char, d: char)
    requires d in Without(s, c)
    ensures d in s
    decreases |s|
  {
    if |s| > 0 {
      assert Without(s, c) == (if s[0] == c then "" else [s[0]]) + Without(s[1..], c);
      if d !in (if s[0] == c then "" else [s[0]]) {
        WithoutKeeps(s[1..], c, d);
      }
    }
  }

  // ---------------------------------------------------------------------------
  // The upload loop: operations
  // ---------------------------------------------------------------------------

  /** {"file": fbx_file, "operation": result["path"]}. */
  datatype Operation = Operation(file: string, operation: Json)

  /** The operations recorded for the first n files: one for each upload
      result holding a "path" key, in file order. */
  function Operations(files: seq<string>, upload: nat -> map<string, Json>, n: nat): seq<Operation>
    requires n <= |files|
  {
    if n == 0 then []
    else
      var result := upload(n - 1);
      Operations(files, upload, n - 1) +
        (if "path" in result then [Operation(files[n - 1], result["path"])] else [])
  }

  /** An operation is recorded exactly for each file whose upload result has
      a "path", carrying that path. */
  lemma {:induction false} OperationsExactly(files: seq<string>, upload: nat -> map<string, Json>, n: nat)
    requires n <= |files|
    ensures forall op :: op in Operations(files, upload, n) ==>
      exists i :: 0 <= i < n && "path" in upload(i) && op == Operation(files[i], upload(i)["path"])
    ensures forall i :: 0 <= i < n && "path" in upload(i) ==>
      Operation(files[i], upload(i)["path"]) in Operations(files, upload, n)
  {
    if n > 0 {
      OperationsExactly(files, upload, n - 1);
    }
  }

  /** A failed upload, reported as an {"error": ...} dict, is not followed up. */
  lemma ErrorNotFollowed(files: seq<string>, upload: nat -> map<string, Json>, n: nat, i: nat, e: Json)
    requires i < n <= |files|
    requires upload(i) == map["error" := e]
    requires forall j :: 0 <= j < n && j != i ==> files[j] != files[i]
    ensures forall op :: op in Operations(files, upload, n) ==> op.file != files[i]
  {
    OperationsExactly(files, upload, n);
  }

  /** main()'s upload loop: names and uploads every file, keeping the
      operations; `names[i]` is the display name of the i-th upload. */
  method UploadFiles(files: seq<string>, upload: nat -> map<string, Json>)
    returns (operations: seq<Operation>, names: seq<string>)
    ensures operations == Operations(files, upload, |files|)
    ensures |names| == |files|
    ensures forall i :: 0 <= i < |files| ==> names[i] == DisplayName(files[i])
  {
    operations, names := [], [];
    for i := 0 to |files|
      invariant operations == Operations(files, upload, i)
      invariant |names| == i
      invariant forall k :: 0 <= k < i ==> names[k] == DisplayName(files[k])
    {
      var fbxFile := files[i];
      var name := DisplayName(fbxFile);
      names := names + [name];
      var result := upload(i);
      if "path" in result {
        operations := operations + [Operation(fbxFile, result["path"])];
      }
    }
  }

  // ---------------------------------------------------------------------------
  // The status check: final_results
  // ---------------------------------------------------------------------------

  /** The record written for one file. */
  datatype FinalRecord =
    | Completed(assetId: Json, name: Json, state: Json)  // {"assetId", "name", "state"}
    | Errored(error: Json)                               // {"error"}
    | Processing(operation: Json)                        // {"operation", "status": "processing"}

  /** What one status value leads to: a record, no entry at all, or an
      exception. */
  datatype Classified = Record(record: FinalRecord) | NoEntry | Raises

  /** Whether a dict status is finished: `"done" in status and status["done"]`. */
  predicate DoneIn(fields: map<string, Json>) {
    "done" in fields && Truthy(fields["done"])
  }

  /** One status through the loop body. `"done" in status` is a key test on
      a dict, a substring test on a str and a membership test on a list, and
      raises TypeError on None, a bool or a number; `status["done"]` raises
      TypeError on a str or a list. A dict's "response" that is not an object
      raises at `.get`. */
  function Classify(status: Json, operation: Json): (c: Classified)
    ensures status.Object? && !DoneIn(status.fields) ==> c == Record(Processing(operation))
    ensures status.Object? && DoneIn(status.fields) ==>
      (c == NoEntry <==> "response" !in status.fields && "error" !in status.fields)
    ensures status.Object? ==> (c == Raises <==>
      DoneIn(status.fields) && "response" in status.fields && !status.fields["response"].Object?)
    ensures c.Record? && c.record.Errored? ==>
      status.Object? && "response" !in status.fields && "error" in status.fields &&
      c.record.error == status.fields["error"]
    ensures status.Null? || status.Bool? || status.Number? ==> c == Raises
    ensures status.Str? ==> (c == Raises <==> HasInfix(status.s, "done"))
    ensures status.Array? ==> (c == Raises <==> Str("done") in status.items)
    ensures !status.Object? ==> c == Raises || c == Record(Processing(operation))
  {
    match status
    case Object(fields) =>
      if DoneIn(fields) then
        if "response" in fields then
          var assetInfo := fields["response"];
          if !assetInfo.Object? then Raises
          else
            Record(Completed(
              Get(assetInfo.fields, "assetId", Str("unknown")),
              Get(assetInfo.fields, "displayName", Str("")),
              Get(assetInfo.fields, "state", Str(""))))
        else if "error" in fields then Record(Errored(fields["error"]))
        else NoEntry
      else Record(Processing(operation))
    case Str(s) => if HasInfix(s, "done") then Raises else Record(Processing(operation))
    case Array(items) => if Str("done") in items then Raises else Record(Processing(operation))
    case _ => Raises
  }

  /** A finished operation's record carries the response's asset id, display
      name and state, with the source's defaults. */
  lemma CompletedRecord(status: map<string, Json>, operation: Json, info: map<string, Json>)
    requires "done" in status && Truthy(status["done"]) && "response" in status
    requires status["response"] == Object(info)
    ensures Classify(Object(status), operation) == Record(Completed(
      Get(info, "assetId", Str("unknown")), Get(info, "displayName", Str("")), Get(info, "state", Str(""))))
  {
  }

  /** The final results after the first n operations, or None once one raised. */
  function FinalResults(operations: seq<Operation>, status: nat -> Json, n: nat): Option<map<string, FinalRecord>>
    requires n <= |operations|
  {
    if n == 0 then Some(map[])
    else
      match FinalResults(operations, status, n - 1)
      case None => None
      case Some(results) =>
        var op := operations[n - 1];
        match Classify(status(n - 1), op.operation)
        case Raises => None
        case NoEntry => Some(results)
        case Record(r) => Some(results[op.file := r])
  }

  /** With distinct files, each file's entry is exactly what its own status
      classifies to, and no other key appears. */
  lemma {:induction false} FinalResultsExactly(operations: seq<Operation>, status: nat -> Json, n: nat)
    requires n <= |operations|
    requires forall i, j :: 0 <= i < j < n ==> operations[i].file != operations[j].file
    requires FinalResults(operations, status, n).Some?
    ensures var results := FinalResults(operations, status, n).value;
      (forall j :: 0 <= j < n ==>
        match Classify(status(j), operations[j].operation)
        case Record(r) => operations[j].file in results && results[operations[j].file] == r
        case NoEntry => operations[j].file !in results
        case Raises => false) &&
      (forall f :: f in results ==> exists j :: 0 <= j < n && operations[j].file == f)
  {
    if n > 0 {
      FinalResultsExactly(operations, status, n - 1);
    }
  }

  /** Once a status has raised, the run stays crashed. */
  lemma {:induction false} StatusCrashPersists(operations: seq<Operation>, status: nat -> Json, n: nat, m: nat)
    requires n <= m <= |operations|
    requires FinalResults(operations, status, n).None?
    ensures FinalResults(operations, status, m).None?
    decreases m
  {
    if m > n {
      StatusCrashPersists(operations, status, n, m - 1);
    }
  }

  /** A status that is None, a bool or a number, a str holding "done", or a
      list holding "done" raises TypeError in the loop, and the results are
      never written. */
  lemma NonObjectStatusEndsRun(operations: seq<Operation>, status: nat -> Json, j: nat)
    requires j < |operations|
    requires status(j).Null? || status(j).Bool? || status(j).Number? ||
      (status(j).Str? && HasInfix(status(j).s, "done")) ||
      (status(j).Array? && Str("done") in status(j).items)
    ensures FinalResults(operations, status, |operations|).None?
  {
    assert Classify(status(j), operations[j].operation) == Raises;
    assert FinalResults(operations, status, j + 1).None?;
    StatusCrashPersists(operations, status, j + 1, |operations|);
  }

  /** main()'s status loop over the operations. */
  method CheckOperations(operations: seq<Operation>, status: nat -> Json)
    returns (finalResults: Option<map<string, FinalRecord>>)
    ensures finalResults == FinalResults(operations, status, |operations|)
  {
    var results: map<string, FinalRecord> := map[];
    for j := 0 to |operations|
      invariant FinalResults(operations, status, j) == Some(results)
    {
      var op := operations[j];
      var c := Classify(status(j), op.operation);
      if c.Raises? {
        StatusCrashPersists(operations, status, j + 1, |operations|);
        return None;
      }
      if c.Record? {
        results := results[op.file := c.record];
      }
    }
    return Some(results);
  }

  // ---------------------------------------------------------------------------
  // main
  // ---------------------------------------------------------------------------

  /** The end of main(): no .fbx file (exit 0), an exception before the
      results were written, or the results written. */
  datatype RunOutcome = NoFbxFiles | Crashed | Written(finalResults: map<string, FinalRecord>)

  /** Written or Crashed, from the final results. */
  function Outcome(finalResults: Option<map<string, FinalRecord>>): RunOutcome {
    match finalResults
    case None => Crashed
    case Some(results) => Written(results)
  }

  /** main(): filter the listing, upload every .fbx file, check the
      operations, and write final_results. `names[i]` is the display name
      the i-th .fbx file was uploaded under. */
  method RunUpload(listing: seq<string>, upload: nat -> map<string, Json>, status: nat -> Json)
    returns (outcome: RunOutcome, names: seq<string>)
    ensures |FbxFiles(listing)| == 0 ==> outcome == NoFbxFiles
    ensures |FbxFiles(listing)| > 0 ==>
      var files := FbxFiles(listing);
      var ops := Operations(files, upload, |files|);
      |names| == |files| &&
      (forall i :: 0 <= i < |files| ==> names[i] == DisplayName(files[i])) &&
      outcome == Outcome(FinalResults(ops, status, |ops|))
  {
    var files := FbxFiles(listing);
    if |files| == 0 {
      return NoFbxFiles, [];
    }
    var operations;
    operations, names := UploadFiles(files, upload);
    var finalResults := CheckOperations(operations, status);
    outcome := Outcome(finalResults);
  }
}

=== FILE: grid.dfy ===
/** The regular grid the three terrain generators tessellate: (r + 1) x (r + 1)
    vertices stored row by row, and one quad per cell, built by the same index
    arithmetic in generate_dream_terrain.py, generate_epic_terrain.py and
    generate_terrain.py. */
module Grid {

  /** A mesh vertex position. */
  datatype Vertex = Vertex(x: real, y: real, z: real)

  /** A quad's four corner indices, in the order handed to bm.faces.new. */
  datatype Quad = Quad(a: nat, b: nat, c: nat, d: nat)

  /** A face: its corners and its smooth-shading flag (bmesh creates faces flat). */
  datatype Face = Face(corners: Quad, smooth: bool)

  /** Index of vertex (ix, iy) when rows of r + 1 vertices are appended one after another. */
  function VertexIndex(r: nat, ix: nat, iy: nat): nat {
    iy * (r + 1) + ix
  }

  /** Position of cell (ix, iy) in the face list, cells being visited row by row. */
  function CellIndex(r: nat, ix: nat, iy: nat): nat {
    iy * r + ix
  }

  /** The face the loops create for cell (ix, iy): with i = iy * (r + 1) + ix,
      the vertices [i, i + 1, i + r + 2, i + r + 1]. */
  function CellQuad(r: nat, ix: nat, iy: nat): Quad {
    var i := VertexIndex(r, ix, iy);
    Quad(i, i + 1, i + r + 2, i + r + 1)
  }

  /** Every corner of q is an index below n. */
  predicate QuadBelow(q: Quad, n: nat) {
    q.a < n && q.b < n && q.c < n && q.d < n
  }

  /** The offsets +1, +r+2, +r+1 name the cell's right, diagonal and upper
      neighbours, so a cell's quad goes once around the cell. */
  lemma CellQuadCorners(r: nat, ix: nat, iy: nat)
    ensures CellQuad(r, ix, iy) ==
      Quad(VertexIndex(r, ix, iy), VertexIndex(r, ix + 1, iy),
           VertexIndex(r, ix + 1, iy + 1), VertexIndex(r, ix, iy + 1))
  {
    assert (iy + 1) * (r + 1) == iy * (r + 1) + r + 1;
  }

  /** Every vertex of the (r + 1) x (r + 1) grid has an index below (r + 1)^2. */
  lemma VertexIndexBelow(r: nat, ix: nat, iy: nat)
    requires ix <= r && iy <= r
    ensures VertexIndex(r, ix, iy) < (r + 1) * (r + 1)
  {
    assert iy * (r + 1) <= r * (r + 1);
    assert (r + 1) * (r + 1) == r * (r + 1) + r + 1;
  }

  /** A vertex of an earlier row comes before every vertex of row iy. */
  lemma VertexIndexEarlierRow(r: nat, jx: nat, jy: nat, iy: nat)
    requires jx <= r && jy < iy
    ensures VertexIndex(r, jx, jy) < VertexIndex(r, 0, iy)
  {
    assert jy * (r + 1) + (r + 1) <= iy * (r + 1) by {
      assert (jy + 1) * (r + 1) <= iy * (r + 1);
    }
  }

  /** A cell of an earlier row comes before every cell of row iy. */
  lemma CellIndexEarlierRow(r: nat, jx: nat, jy: nat, iy: nat)
    requires jx < r && jy < iy
    ensures CellIndex(r, jx, jy) < CellIndex(r, 0, iy)
  {
    assert jy * r + r <= iy * r by {
      assert (jy + 1) * r <= iy * r;
    }
  }

  /** Every quad of an r x r grid only names vertices of the (r + 1) x (r + 1) grid. */
  lemma CellQuadInRange(r: nat, ix: nat, iy: nat)
    requires ix < r && iy < r
    ensures QuadBelow(CellQuad(r, ix, iy), (r + 1) * (r + 1))
  {
    CellQuadCorners(r, ix, iy);
    VertexIndexBelow(r, ix + 1, iy + 1);
    VertexIndexBelow(r, ix, iy + 1);
  }

  /** The faces of cells 0 .. n - 1 of row iy, as the inner loop creates them. */
  function RowFaces(r: nat, iy: nat, n: nat): seq<Face> {
    if n == 0 then [] else RowFaces(r, iy, n - 1) + [Face(CellQuad(r, n - 1, iy), false)]
  }

  /** The faces of rows 0 .. m - 1, each row of r cells. */
  function GridFacesOf(r: nat, m: nat): seq<Face> {
    if m == 0 then [] else GridFacesOf(r, m - 1) + RowFaces(r, m - 1, r)
  }

  /** A row prefix holds n faces; its k-th face is the quad of cell (k, iy). */
  lemma {:induction false} RowFacesAt(r: nat, iy: nat, n: nat)
    ensures |RowFaces(r, iy, n)| == n
    ensures forall k :: 0 <= k < n ==> RowFaces(r, iy, n)[k] == Face(CellQuad(r, k, iy), false)
  {
    if n > 0 {
      RowFacesAt(r, iy, n - 1);
    }
  }

  /** m rows hold m * r faces. */
  lemma {:induction false} GridFacesLength(r: nat, m: nat)
    ensures |GridFacesOf(r, m)| == CellIndex(r, 0, m)
  {
    if m > 0 {
      GridFacesLength(r, m - 1);
      RowFacesAt(r, m - 1, r);
      NextRowStart(r, m - 1);
    }
  }

  /** The face at CellIndex(r, ix, iy) is the quad of cell (ix, iy). */
  lemma {:induction false} GridFaceAt(r: nat, m: nat, ix: nat, iy: nat)
    requires ix < r && iy < m
    ensures CellIndex(r, ix, iy) < |GridFacesOf(r, m)|
    ensures GridFacesOf(r, m)[CellIndex(r, ix, iy)] == Face(CellQuad(r, ix, iy), false)
  {
    GridFacesLength(r, m - 1);
    RowFacesAt(r, m - 1, r);
    var prefix, row := GridFacesOf(r, m - 1), RowFaces(r, m - 1, r);
    assert GridFacesOf(r, m) == prefix + row;
    if iy < m - 1 {
      GridFaceAt(r, m - 1, ix, iy);
      CellIndexEarlierRow(r, ix, iy, m - 1);
    } else {
      assert CellIndex(r, ix, iy) == |prefix| + ix;
    }
  }

  /** Every cell of the r x r grid has its quad at its cell index. */
  lemma GridFacesAtEveryCell(r: nat)
    ensures forall ix: nat, iy: nat :: ix < r && iy < r ==>
      CellIndex(r, ix, iy) < |GridFacesOf(r, r)| &&
      GridFacesOf(r, r)[CellIndex(r, ix, iy)] == Face(CellQuad(r, ix, iy), false)
  {
    forall ix: nat, iy: nat | ix < r && iy < r
      ensures CellIndex(r, ix, iy) < |GridFacesOf(r, r)| &&
              GridFacesOf(r, r)[CellIndex(r, ix, iy)] == Face(CellQuad(r, ix, iy), false)
    {
      GridFaceAt(r, r, ix, iy);
    }
  }

  /** Row iy + 1 starts r cells after row iy. */
  lemma NextRowStart(r: nat, iy: nat)
    ensures CellIndex(r, 0, iy + 1) == CellIndex(r, 0, iy) + r
  {
  }

  /** Every face of a row prefix names only grid vertices and is not yet smooth. */
  lemma {:induction false} RowFacesInRange(r: nat, iy: nat, n: nat)
    requires iy < r && n <= r
    ensures forall f :: f in RowFaces(r, iy, n) ==> QuadBelow(f.corners, (r + 1) * (r + 1)) && !f.smooth
  {
    if n > 0 {
      RowFacesInRange(r, iy, n - 1);
      CellQuadInRange(r, n - 1, iy);
    }
  }

  /** Every face of the grid names only grid vertices and is not yet smooth. */
  lemma {:induction false} GridFacesInRange(r: nat, m: nat)
    requires m <= r
    ensures forall f :: f in GridFacesOf(r, m) ==> QuadBelow(f.corners, (r + 1) * (r + 1)) && !f.smooth
  {
    if m > 0 {
      GridFacesInRange(r, m - 1);
      RowFacesInRange(r, m - 1, r);
    }
  }

  /** The face loops shared by the three mesh builders: for iy, ix in range(r)
      create the quad [v1, v2, v4, v3] of cell (ix, iy). */
  method GridFaces(r: nat) returns (faces: seq<Face>)
    ensures |faces| == r * r
    ensures forall ix: nat, iy: nat :: ix < r && iy < r ==>
      CellIndex(r, ix, iy) < |faces| && faces[CellIndex(r, ix, iy)] == Face(CellQuad(r, ix, iy), false)
    ensures forall f :: f in faces ==> QuadBelow(f.corners, (r + 1) * (r + 1)) && !f.smooth
  {
    faces := [];
    for iy := 0 to r
      invariant faces == GridFacesOf(r, iy)
    {
      for ix := 0 to r
        invariant faces == GridFacesOf(r, iy) + RowFaces(r, iy, ix)
      {
        faces := faces + [Face(CellQuad(r, ix, iy), false)];
      }
    }
    GridFacesLength(r, r);
    GridFacesInRange(r, r);
    assert CellIndex(r, 0, r) == r * r;
    GridFacesAtEveryCell(r);
  }

  /** Coordinate of grid line i: -size / 2 + i * (size / r). */
  function GridCoord(size: real, r: nat, i: nat): real
    requires r > 0
  {
    -(size / 2.0) + (i as real) * (size / (r as real))
  }

  /** The first and the last grid line lie on the borders -size / 2 and size / 2. */
  lemma GridSpan(size: real, r: nat)
    requires r > 0
    ensures GridCoord(size, r, 0) == -(size / 2.0)
    ensures GridCoord(size, r, r) == size / 2.0
  {
    var step := size / (r as real);
    assert (r as real) * step == size;
  }

  /** verts lists rows 0 .. m - 1 of a grid with r + 1 vertices per row, row
      after row: vertex (ix, iy) is p(ix, iy) and sits at VertexIndex(r, ix, iy). */
  ghost predicate RowMajor<T>(verts: seq<T>, p: (nat, nat) -> T, r: nat, m: nat) {
    |verts| == VertexIndex(r, 0, m) &&
    forall ix: nat, iy: nat :: ix <= r && iy < m ==>
      VertexIndex(r, ix, iy) < |verts| && verts[VertexIndex(r, ix, iy)] == p(ix, iy)
  }

  /** row holds entries (0, iy) .. (n - 1, iy) of the grid given by p. */
  ghost predicate RowOf<T>(row: seq<T>, p: (nat, nat) -> T, iy: nat, n: nat) {
    |row| == n && forall ix :: 0 <= ix < n ==> row[ix] == p(ix, iy)
  }

  /** Appending entry (n, iy) extends a row prefix by one. */
  lemma RowOfAppend<T>(row: seq<T>, v: T, p: (nat, nat) -> T, iy: nat, n: nat)
    requires RowOf(row, p, iy, n) && v == p(n, iy)
    ensures RowOf(row + [v], p, iy, n + 1)
  {
  }

  /** Appending row m, vertex by vertex, extends the row-major layout by one row. */
  lemma RowMajorAppend<T>(verts: seq<T>, row: seq<T>, p: (nat, nat) -> T, r: nat, m: nat)
    requires RowMajor(verts, p, r, m) && RowOf(row, p, m, r + 1)
    ensures RowMajor(verts + row, p, r, m + 1)
  {
    var all := verts + row;
    assert |all| == VertexIndex(r, 0, m + 1);
    forall ix: nat, iy: nat | ix <= r && iy < m + 1
      ensures VertexIndex(r, ix, iy) < |all| && all[VertexIndex(r, ix, iy)] == p(ix, iy)
    {
      if iy < m {
        VertexIndexEarlierRow(r, ix, iy, m);
      } else {
        assert VertexIndex(r, ix, iy) == |verts| + ix;
      }
    }
  }

  /** rows holds rows 0 .. m - 1 of r + 1 entries each, entry ix of row iy being p(ix, iy). */
  ghost predicate Rows<T>(rows: seq<seq<T>>, p: (nat, nat) -> T, r: nat, m: nat) {
    |rows| == m && forall iy :: 0 <= iy < m ==> RowOf(rows[iy], p, iy, r + 1)
  }

  /** Appending row m extends the rows by one. */
  lemma RowsAppend<T>(rows: seq<seq<T>>, row: seq<T>, p: (nat, nat) -> T, r: nat, m: nat)
    requires Rows(rows, p, r, m) && RowOf(row, p, m, r + 1)
    ensures Rows(rows + [row], p, r, m + 1)
  {
    var all := rows + [row];
    forall iy | 0 <= iy < m + 1
      ensures RowOf(all[iy], p, iy, r + 1)
    {
      if iy < m {
        assert all[iy] == rows[iy];
      }
    }
  }

  /** The loop `for face in bm.faces: face.smooth = True`. */
  method SmoothAll(faces: seq<Face>) returns (out: seq<Face>)
    ensures |out| == |faces|
    ensures forall k :: 0 <= k < |out| ==> out[k] == faces[k].(smooth := true)
  {
    out := [];
    for k := 0 to |faces|
      invariant |out| == k
      invariant forall j :: 0 <= j < k ==> out[j] == faces[j].(smooth := true)
    {
      out := out + [faces[k].(smooth := true)];
    }
  }
}

=== FILE: json.dfy ===
/** Decoded JSON values as the upload tools handle them (json.loads results
    and requests' response.json()). Numbers are reals. */
module JsonValues {
  datatype Json =
    | Null
    | Bool(b: bool)
    | Number(n: real)
    | Str(s: string)
    | Array(items: seq<Json>)
    | Object(fields: map<string, Json>)

  /** Python truthiness of the decoded value: None, False, 0, "", [] and {}
      are false, everything else is true. */
  predicate Truthy(j: Json) {
    match j
    case Null => false
    case Bool(b) => b
    case Number(n) => n != 0.0
    case Str(s) => |s| > 0
    case Array(items) => |items| > 0
    case Object(fields) => |fields| > 0
  }

  /** dict.get(key, default). */
  function Get(d: map<string, Json>, key: string, default: Json): (v: Json)
    ensures key in d ==> v == d[key]
    ensures key !in d ==> v == default
  {
    if key in d then d[key] else default
  }
}

=== FILE: mountain_terrain.dfy ===
/** generate_terrain.py: one island-like mountain per entry of MOUNTAINS, built
    from domain-warped fractal noise and ridges, raised towards a few randomly
    placed peaks and faded to zero at the mountain's rim. */
module MountainTerrain {
  import opened Wrappers
  import opened Numeric
  import opened Noise
  import opened Combine
  import opened Grid

  /** Grid cells per side of a mountain mesh. */
  const RESOLUTION: nat := 64
  const NOISE_OCTAVES: nat := 6
  const NOISE_PERSISTENCE: real := 0.5
  const NOISE_LACUNARITY: real := 2.0
  /** math.pi. */
  const PI: real := 3.141592653589793

  /** One entry of MOUNTAINS: where it stands, its footprint and height, how
      rough its ridges are, and how many peaks it gets. */
  datatype Mountain = Mountain(name: string, px: real, py: real, size: real, height: real,
                               roughness: real, peaks: nat, snowLine: real)

  const MOUNTAINS: seq<Mountain> := [
    Mountain("Frozen_Peaks", 300.0, -400.0, 400.0, 350.0, 0.7, 3, 200.0),
    Mountain("Shadow_Mountains", 400.0, -200.0, 350.0, 300.0, 0.8, 4, 250.0),
    Mountain("Ember_Ridge", 200.0, 200.0, 300.0, 250.0, 0.6, 2, 300.0),
    Mountain("The_Giants", 350.0, 350.0, 450.0, 400.0, 0.75, 5, 180.0),
    Mountain("Broken_Hills", -350.0, 300.0, 250.0, 150.0, 0.5, 6, 200.0)
  ]

  /** The octave counts create_mountain_mesh uses: fbm_noise's default for the
      base height, 3 for the domain warp and ridged_noise's default of 4. */
  datatype Octaves = Octaves(base: nat, warp: nat, ridged: nat)

  const MOUNTAIN_OCTAVES: Octaves := Octaves(NOISE_OCTAVES, 3, 4)

  /** Every octave count is at least one, so fbm_noise never divides by zero. */
  predicate Usable(oct: Octaves) {
    1 <= oct.base && 1 <= oct.warp
  }

  // ---------------------------------------------------------------------------
  // Noise
  // ---------------------------------------------------------------------------

  /** fbm_noise's octave sample: the third coordinate is the seed itself. */
  function FbmSampler(env: Env, x: real, y: real, seed: int): OctaveSampler {
    (i: nat, f: real) => Probe(env, x, y, f, seed, seed as real)
  }

  /** ridged_noise's octave sample: the third coordinate is seed * 0.5. */
  function RidgedSampler(env: Env, x: real, y: real, seed: int): OctaveSampler {
    (i: nat, f: real) => Probe(env, x, y, f, seed, (seed as real) * 0.5)
  }

  lemma SamplersInUnitRange(env: Env, x: real, y: real, seed: int)
    requires NoiseBounded(env)
    ensures UnitRange(FbmSampler(env, x, y, seed))
    ensures UnitRange(RidgedSampler(env, x, y, seed))
  {
    forall i: nat, f: real
      ensures -1.0 <= FbmSampler(env, x, y, seed)(i, f) <= 1.0
      ensures -1.0 <= RidgedSampler(env, x, y, seed)(i, f) <= 1.0
    {
      assert FbmSampler(env, x, y, seed)(i, f) == Probe(env, x, y, f, seed, seed as real);
      assert RidgedSampler(env, x, y, seed)(i, f) == Probe(env, x, y, f, seed, (seed as real) * 0.5);
    }
  }

  /** The value of fbm_noise(x, y, octaves, seed=seed) with the default
      persistence and lacunarity. */
  function FbmNoiseAt(env: Env, x: real, y: real, octaves: nat, seed: int): real
    requires 1 <= octaves
  {
    FbmValue(FbmSampler(env, x, y, seed), octaves, NOISE_PERSISTENCE, NOISE_LACUNARITY, 1.0)
  }

  /** The value of ridged_noise(x, y, octaves, seed): frequency doubling and
      amplitude halving, each octave folded on its own (no previous-octave
      weighting). */
  function RidgedNoiseAt(env: Env, x: real, y: real, octaves: nat, seed: int): real {
    RidgedTotal(RidgedSampler(env, x, y, seed), 1.0, 2.0, false, octaves)
  }

  /** fbm_noise lies in [-1, 1] when Blender's noise does. */
  lemma FbmNoiseBounded(env: Env, x: real, y: real, octaves: nat, seed: int)
    requires NoiseBounded(env) && 1 <= octaves
    ensures -1.0 <= FbmNoiseAt(env, x, y, octaves, seed) <= 1.0
  {
    SamplersInUnitRange(env, x, y, seed);
    FbmBounded(FbmSampler(env, x, y, seed), octaves, NOISE_PERSISTENCE, NOISE_LACUNARITY, 1.0);
  }

  /** ridged_noise is never negative and, with Blender's noise in [-1, 1], at
      most the sum of its amplitudes 1 + 1/2 + ... (below 2). */
  lemma RidgedNoiseRange(env: Env, x: real, y: real, octaves: nat, seed: int)
    ensures 0.0 <= RidgedNoiseAt(env, x, y, octaves, seed)
    ensures NoiseBounded(env) ==>
              RidgedNoiseAt(env, x, y, octaves, seed) <= AmplitudeSum(0.5, octaves) < 2.0
  {
    if NoiseBounded(env) {
      SamplersInUnitRange(env, x, y, seed);
    }
    RidgedRange(RidgedSampler(env, x, y, seed), 1.0, 2.0, false, octaves);
  }

  /** fbm_noise(x, y, octaves, seed=seed). */
  method FbmNoise(env: Env, x: real, y: real, octaves: nat, seed: int) returns (r: real)
    requires 1 <= octaves
    ensures r == FbmNoiseAt(env, x, y, octaves, seed)
    ensures NoiseBounded(env) ==> -1.0 <= r <= 1.0
  {
    r := Noise.Fbm(FbmSampler(env, x, y, seed), octaves, NOISE_PERSISTENCE, NOISE_LACUNARITY, 1.0);
    if NoiseBounded(env) {
      FbmNoiseBounded(env, x, y, octaves, seed);
    }
  }

  /** ridged_noise(x, y, octaves, seed). */
  method RidgedNoise(env: Env, x: real, y: real, octaves: nat, seed: int) returns (r: real)
    ensures r == RidgedNoiseAt(env, x, y, octaves, seed)
    ensures 0.0 <= r
    ensures NoiseBounded(env) ==> r <= AmplitudeSum(0.5, octaves)
  {
    r := Noise.Ridged(RidgedSampler(env, x, y, seed), octaves, 1.0, 2.0, false);
    RidgedNoiseRange(env, x, y, octaves, seed);
  }

  /** One coordinate's shift in domain_warp: fbm_noise at the point moved
      diagonally by the offset, times the strength. */
  function Shift(env: Env, x: real, y: real, offset: real, strength: real, octaves: nat, seed: int): real
    requires 1 <= octaves
  {
    FbmNoiseAt(env, x + offset, y + offset, octaves, seed) * strength
  }

  /** The first coordinate domain_warp returns: x shifted by fbm_noise at
      (x + 100, y + 100). */
  function WarpX(env: Env, x: real, y: real, strength: real, octaves: nat, seed: int): real
    requires 1 <= octaves
  {
    x + Shift(env, x, y, 100.0, strength, octaves, seed)
  }

  /** The second coordinate: y shifted by fbm_noise at (x + 200, y + 200) with seed + 50. */
  function WarpY(env: Env, x: real, y: real, strength: real, octaves: nat, seed: int): real
    requires 1 <= octaves
  {
    y + Shift(env, x, y, 200.0, strength, octaves, seed + 50)
  }

  /** A shift is at most the strength either way. */
  lemma ShiftBounded(env: Env, x: real, y: real, offset: real, strength: real, octaves: nat, seed: int)
    requires NoiseBounded(env) && 1 <= octaves && 0.0 <= strength
    ensures Abs(Shift(env, x, y, offset, strength, octaves, seed)) <= strength
  {
    FbmNoiseBounded(env, x + offset, y + offset, octaves, seed);
    ScaledSampleBounded(FbmNoiseAt(env, x + offset, y + offset, octaves, seed), strength);
  }

  /** domain_warp moves each coordinate by at most the strength. */
  lemma DomainWarpBounded(env: Env, x: real, y: real, strength: real, octaves: nat, seed: int)
    requires NoiseBounded(env) && 1 <= octaves && 0.0 <= strength
    ensures Abs(WarpX(env, x, y, strength, octaves, seed) - x) <= strength
    ensures Abs(WarpY(env, x, y, strength, octaves, seed) - y) <= strength
  {
    ShiftBounded(env, x, y, 100.0, strength, octaves, seed);
    ShiftBounded(env, x, y, 200.0, strength, octaves, seed + 50);
  }

  /** domain_warp(x, y, strength, seed), with the warp's octave count. */
  method DomainWarp(env: Env, x: real, y: real, strength: real, octaves: nat, seed: int)
    returns (wx: real, wy: real)
    requires 1 <= octaves
    ensures wx == WarpX(env, x, y, strength, octaves, seed)
    ensures wy == WarpY(env, x, y, strength, octaves, seed)
  {
    var warpX := FbmNoise(env, x + 100.0, y + 100.0, octaves, seed);
    warpX := warpX * strength;
    var warpY := FbmNoise(env, x + 200.0, y + 200.0, octaves, seed + 50);
    warpY := warpY * strength;
    wx, wy := x + warpX, y + warpY;
  }

  // ---------------------------------------------------------------------------
  // Peaks
  // ---------------------------------------------------------------------------

  /** The three random.uniform draws made for one peak: the angle jitter in
      [-0.3, 0.3], the reach in [0.1, 0.4] (a fraction of half the size) and the
      height factor in [0.7, 1.0]. */
  datatype PeakDraw = PeakDraw(jitter: real, reach: real, lift: real)

  /** Every draw lies in the range its random.uniform call gives. */
  ghost predicate DrawsInRange(draw: nat -> PeakDraw) {
    forall i :: -0.3 <= draw(i).jitter <= 0.3 && 0.1 <= draw(i).reach <= 0.4 &&
                0.7 <= draw(i).lift <= 1.0
  }

  /** An entry of peak_positions: the peak's offset from the mountain's centre
      and its height factor. */
  datatype PeakSpot = PeakSpot(px: real, py: real, lift: real)

  /** Peak i of n: at angle (i / n) * 2 pi plus the jitter, reach * size / 2
      from the centre. */
  function PeakSpotOf(env: Env, m: Mountain, draw: nat -> PeakDraw, i: nat): PeakSpot
    requires i < m.peaks
  {
    var d := draw(i);
    var angle := (i as real / m.peaks as real) * PI * 2.0 + d.jitter;
    var dist := d.reach * (m.size / 2.0);
    PeakSpot(env.cos(angle) * dist, env.sin(angle) * dist, d.lift)
  }

  /** A point c * d, s * d with c^2 + s^2 = 1 lies at distance d from the origin. */
  lemma PolarDistance(env: Env, c: real, s: real, d: real)
    requires SqrtSound(env) && c * c + s * s == 1.0 && 0.0 <= d
    ensures Dist(env, c * d, s * d, 0.0, 0.0) == d
  {
    ProductSquare(c, d);
    ProductSquare(s, d);
    assert SqDist(c * d, s * d, 0.0, 0.0) == (c * c + s * s) * (d * d);
    assert SqDist(c * d, s * d, 0.0, 0.0) == d * d;
    SqrtOfSquare(env, d);
    assert Dist(env, c * d, s * d, 0.0, 0.0) == d;
  }

  lemma ProductSquare(a: real, b: real)
    ensures (a * b) * (a * b) == (a * a) * (b * b)
  {
  }

  /** Each peak sits between 0.1 and 0.4 of half the size from the centre, at a
      height factor between 0.7 and 1. */
  lemma PeakPlacement(env: Env, m: Mountain, draw: nat -> PeakDraw, i: nat)
    requires Pythagorean(env) && SqrtSound(env) && DrawsInRange(draw)
    requires 0.0 < m.size && i < m.peaks
    ensures 0.1 * (m.size / 2.0) <= Dist(env, PeakSpotOf(env, m, draw, i).px,
                                         PeakSpotOf(env, m, draw, i).py, 0.0, 0.0)
                                 <= 0.4 * (m.size / 2.0)
    ensures 0.7 <= PeakSpotOf(env, m, draw, i).lift <= 1.0
  {
    var d := draw(i);
    var angle := (i as real / m.peaks as real) * PI * 2.0 + d.jitter;
    var half := m.size / 2.0;
    var dist := d.reach * half;
    assert 0.1 * half <= dist <= 0.4 * half by {
      assert dist - 0.1 * half == (d.reach - 0.1) * half;
      assert 0.4 * half - dist == (0.4 - d.reach) * half;
      NonNegativeProduct(d.reach - 0.1, half);
      NonNegativeProduct(0.4 - d.reach, half);
    }
    var c, sn := env.cos(angle), env.sin(angle);
    assert PeakSpotOf(env, m, draw, i) == PeakSpot(c * dist, sn * dist, d.lift);
    PolarDistance(env, c, sn, dist);
  }

  /** The peak_positions loop: one entry per peak, in order. */
  method PeakPositions(env: Env, m: Mountain, draw: nat -> PeakDraw) returns (spots: seq<PeakSpot>)
    ensures |spots| == m.peaks
    ensures forall i :: 0 <= i < m.peaks ==> spots[i] == PeakSpotOf(env, m, draw, i)
  {
    var halfSize := m.size / 2.0;
    spots := [];
    for i := 0 to m.peaks
      invariant |spots| == i
      invariant forall k :: 0 <= k < i ==> spots[k] == PeakSpotOf(env, m, draw, k)
    {
      var d := draw(i);
      var angle := (i as real / m.peaks as real) * PI * 2.0 + d.jitter;
      var dist := d.reach * halfSize;
      var px := env.cos(angle) * dist;
      var py := env.sin(angle) * dist;
      spots := spots + [PeakSpot(px, py, d.lift)];
    }
  }

  // ---------------------------------------------------------------------------
  // Heights
  // ---------------------------------------------------------------------------

  /** The height before the peaks: fbm_noise at three times the warped
      normalised coordinates, mapped to [0, 1], blended 0.6 : 0.4 with
      ridged_noise at twice them scaled by the roughness. */
  function NoisyHeight(env: Env, oct: Octaves, m: Mountain, seed: int, x: real, y: real): real
    requires Usable(oct) && m.size != 0.0
  {
    var nx, ny := x / m.size, y / m.size;
    WarpedHeight(env, oct, m.roughness, seed,
                 WarpX(env, nx, ny, 0.4, oct.warp, seed), WarpY(env, nx, ny, 0.4, oct.warp, seed))
  }

  /** The noisy height at the warped coordinates (wx, wy). */
  function WarpedHeight(env: Env, oct: Octaves, roughness: real, seed: int, wx: real, wy: real): real
    requires Usable(oct)
  {
    Blend(FbmNoiseAt(env, wx * 3.0, wy * 3.0, oct.base, seed),
          RidgedNoiseAt(env, wx * 2.0, wy * 2.0, oct.ridged, seed + 100), roughness)
  }

  /** The fbm value mapped from [-1, 1] to [0, 1], blended 0.6 : 0.4 with the
      ridge value scaled by the roughness. */
  function Blend(base: real, ridge: real, roughness: real): real {
    (base * 0.5 + 0.5) * 0.6 + ridge * roughness * 0.4
  }

  /** A peak's pull on (x, y): (max(0, 1 - dist / (0.8 * half size)))^2 times
      the peak's height factor. */
  function PeakTerm(env: Env, m: Mountain, spot: PeakSpot, x: real, y: real): real
    requires m.size != 0.0
  {
    var influence := Max(0.0, 1.0 - Dist(env, x, y, spot.px, spot.py) / (m.size / 2.0 * 0.8));
    influence * influence * spot.lift
  }

  /** Peak k's pull, for each of the peaks. */
  function PeakTerms(env: Env, m: Mountain, spots: seq<PeakSpot>, x: real, y: real): nat -> Option<real>
    requires m.size != 0.0
  {
    (k: nat) => if k < |spots| then Some(PeakTerm(env, m, spots[k], x, y)) else None
  }

  /** The height after the peaks loop: h = max(h, pull) for each peak in turn. */
  function Raised(env: Env, m: Mountain, spots: seq<PeakSpot>, x: real, y: real, h: real): real
    requires m.size != 0.0
  {
    FoldMax(h, PeakTerms(env, m, spots, x, y), |spots|)
  }

  /** The island falloff max(0, 1 - (dist / half size) ** 1.5). */
  function Falloff(env: Env, m: Mountain, x: real, y: real): real
    requires m.size != 0.0
  {
    Max(0.0, 1.0 - env.pow(Dist(env, x, y, 0.0, 0.0) / (m.size / 2.0), 1.5))
  }

  /** The vertex height z at (x, y): the raised height times the falloff, times
      the mountain's height. */
  function MountainHeight(env: Env, oct: Octaves, m: Mountain, spots: seq<PeakSpot>, seed: int,
                          x: real, y: real): real
    requires Usable(oct) && m.size != 0.0
  {
    Faded(env, m, x, y, Raised(env, m, spots, x, y, NoisyHeight(env, oct, m, seed, x, y)))
  }

  /** A height h after the island falloff, scaled to the mountain's height. */
  function Faded(env: Env, m: Mountain, x: real, y: real, h: real): real
    requires m.size != 0.0
  {
    h * Falloff(env, m, x, y) * m.height
  }

  /** The peaks combine by maximum: the raised height is at least the height it
      started from and at least every peak's pull, and it is one of them. */
  lemma RaisedIsMaximum(env: Env, m: Mountain, spots: seq<PeakSpot>, x: real, y: real, h: real)
    requires m.size != 0.0
    ensures h <= Raised(env, m, spots, x, y, h)
    ensures forall k :: 0 <= k < |spots| ==> PeakTerm(env, m, spots[k], x, y) <= Raised(env, m, spots, x, y, h)
    ensures Raised(env, m, spots, x, y, h) == h ||
            exists k :: 0 <= k < |spots| && Raised(env, m, spots, x, y, h) == PeakTerm(env, m, spots[k], x, y)
  {
    var c := PeakTerms(env, m, spots, x, y);
    FoldMaxAtLeast(h, c, |spots|);
    FoldMaxAttained(h, c, |spots|);
    forall k | 0 <= k < |spots|
      ensures PeakTerm(env, m, spots[k], x, y) <= Raised(env, m, spots, x, y, h)
    {
      assert c(k) == Some(PeakTerm(env, m, spots[k], x, y));
    }
    if Raised(env, m, spots, x, y, h) != h {
      var k :| 0 <= k < |spots| && c(k) == Some(Raised(env, m, spots, x, y, h));
      assert Raised(env, m, spots, x, y, h) == PeakTerm(env, m, spots[k], x, y);
    }
  }

  /** The falloff lies in [0, 1], and it is 0 from half the size outwards. */
  lemma FalloffRange(env: Env, m: Mountain, x: real, y: real)
    requires PowSound(env) && 0.0 < m.size
    ensures 0.0 <= Falloff(env, m, x, y) <= 1.0
    ensures m.size / 2.0 <= Dist(env, x, y, 0.0, 0.0) ==> Falloff(env, m, x, y) == 0.0
  {
    var half := m.size / 2.0;
    var d := Dist(env, x, y, 0.0, 0.0);
    var ratio := d / half;
    assert 0.0 <= ratio;
    if half <= d {
      RatioAtLeastOne(d, half);
    }
  }

  /** With the roughness non-negative and Blender's noise in [-1, 1], the
      height before the falloff is never negative. */
  lemma NoisyHeightNonNegative(env: Env, oct: Octaves, m: Mountain, seed: int, x: real, y: real)
    requires NoiseBounded(env) && Usable(oct) && m.size != 0.0 && 0.0 <= m.roughness
    ensures 0.0 <= NoisyHeight(env, oct, m, seed, x, y)
  {
    var nx, ny := x / m.size, y / m.size;
    WarpedBlendNonNegative(env, oct, m.roughness, seed,
                           WarpX(env, nx, ny, 0.4, oct.warp, seed), WarpY(env, nx, ny, 0.4, oct.warp, seed));
  }

  /** The blend is non-negative wherever it is sampled. */
  lemma WarpedBlendNonNegative(env: Env, oct: Octaves, roughness: real, seed: int, wx: real, wy: real)
    requires NoiseBounded(env) && Usable(oct) && 0.0 <= roughness
    ensures 0.0 <= WarpedHeight(env, oct, roughness, seed, wx, wy)
  {
    FbmNoiseBounded(env, wx * 3.0, wy * 3.0, oct.base, seed);
    RidgedNoiseRange(env, wx * 2.0, wy * 2.0, oct.ridged, seed + 100);
    BlendNonNegative(FbmNoiseAt(env, wx * 3.0, wy * 3.0, oct.base, seed),
                     RidgedNoiseAt(env, wx * 2.0, wy * 2.0, oct.ridged, seed + 100), roughness);
  }

  lemma BlendNonNegative(f: real, ridge: real, roughness: real)
    requires -1.0 <= f && 0.0 <= ridge && 0.0 <= roughness
    ensures 0.0 <= Blend(f, ridge, roughness)
  {
    NonNegativeProduct(ridge, roughness);
  }

  /** For a mountain of positive size and height and non-negative roughness,
      every vertex height is at least 0, and it is exactly 0 at or beyond half
      the size from the centre. */
  lemma MountainHeightRange(env: Env, oct: Octaves, m: Mountain, spots: seq<PeakSpot>, seed: int,
                            x: real, y: real)
    requires NoiseBounded(env) && PowSound(env) && Usable(oct)
    requires 0.0 < m.size && 0.0 <= m.height && 0.0 <= m.roughness
    ensures 0.0 <= MountainHeight(env, oct, m, spots, seed, x, y)
    ensures m.size / 2.0 <= Dist(env, x, y, 0.0, 0.0) ==>
              MountainHeight(env, oct, m, spots, seed, x, y) == 0.0
  {
    var h := NoisyHeight(env, oct, m, seed, x, y);
    NoisyHeightNonNegative(env, oct, m, seed, x, y);
    RaisedIsMaximum(env, m, spots, x, y, h);
    FadedRange(env, m, x, y, Raised(env, m, spots, x, y, h));
  }

  /** Fading keeps a non-negative height non-negative and flattens it to 0 from
      half the size outwards. */
  lemma FadedRange(env: Env, m: Mountain, x: real, y: real, h: real)
    requires PowSound(env) && 0.0 < m.size && 0.0 <= m.height && 0.0 <= h
    ensures 0.0 <= Faded(env, m, x, y, h)
    ensures m.size / 2.0 <= Dist(env, x, y, 0.0, 0.0) ==> Faded(env, m, x, y, h) == 0.0
  {
    FalloffRange(env, m, x, y);
    var falloff := Falloff(env, m, x, y);
    NonNegativeProduct(h, falloff);
    NonNegativeProduct(h * falloff, m.height);
  }

  /** The noise part of the vertex loop: the domain warp, then the noise at
      the warped coordinates. */
  method NoisyHeightAt(env: Env, oct: Octaves, m: Mountain, seed: int, x: real, y: real)
    returns (h: real)
    requires Usable(oct) && m.size != 0.0
    ensures h == NoisyHeight(env, oct, m, seed, x, y)
  {
    var nx := x / m.size;
    var ny := y / m.size;
    var wx, wy := DomainWarp(env, nx, ny, 0.4, oct.warp, seed);
    h := WarpedHeightAt(env, oct, m.roughness, seed, wx, wy);
  }

  /** The fbm base and the ridges at the warped coordinates, blended. */
  method WarpedHeightAt(env: Env, oct: Octaves, roughness: real, seed: int, wx: real, wy: real)
    returns (h: real)
    requires Usable(oct)
    ensures h == WarpedHeight(env, oct, roughness, seed, wx, wy)
  {
    var base := FbmNoise(env, wx * 3.0, wy * 3.0, oct.base, seed);
    h := base * 0.5 + 0.5;
    ghost var lifted := h;
    var ridge := RidgedNoise(env, wx * 2.0, wy * 2.0, oct.ridged, seed + 100);
    var scaled := ridge * roughness;
    h := h * 0.6 + scaled * 0.4;
    assert h == lifted * 0.6 + (ridge * roughness) * 0.4;
    assert h == Blend(base, ridge, roughness);
  }

  /** The peaks loop: h = max(h, influence^2 * peak_height) for each peak. */
  method RaiseToPeaks(env: Env, m: Mountain, spots: seq<PeakSpot>, x: real, y: real, h0: real)
    returns (h: real)
    requires m.size != 0.0
    ensures h == Raised(env, m, spots, x, y, h0)
  {
    var halfSize := m.size / 2.0;
    h := h0;
    for k := 0 to |spots|
      invariant h == FoldMax(h0, PeakTerms(env, m, spots, x, y), k)
    {
      var spot := spots[k];
      var dist := Dist(env, x, y, spot.px, spot.py);
      var influence := Max(0.0, 1.0 - (dist / (halfSize * 0.8)));
      influence := influence * influence;
      assert PeakTerm(env, m, spot, x, y) == influence * spot.lift;
      assert PeakTerms(env, m, spots, x, y)(k) == Some(influence * spot.lift);
      h := Max(h, influence * spot.lift);
    }
  }

  /** The last steps of the vertex loop: the island falloff, then the scale
      to the mountain's height. */
  method FadeAt(env: Env, m: Mountain, x: real, y: real, h0: real) returns (z: real)
    requires m.size != 0.0
    ensures z == Faded(env, m, x, y, h0)
  {
    var halfSize := m.size / 2.0;
    var distFromCenter := Dist(env, x, y, 0.0, 0.0) / halfSize;
    var falloff := Max(0.0, 1.0 - env.pow(distFromCenter, 1.5));
    var h := h0 * falloff;
    z := h * m.height;
  }

  // ---------------------------------------------------------------------------
  // The mountain mesh
  // ---------------------------------------------------------------------------

  /** Grid vertex (ix, iy) of an r x r mountain grid. */
  function MountainVertex(env: Env, oct: Octaves, m: Mountain, spots: seq<PeakSpot>, seed: int,
                          r: nat, ix: nat, iy: nat): Vertex
    requires Usable(oct) && m.size != 0.0 && r > 0
  {
    var x := GridCoord(m.size, r, ix);
    var y := GridCoord(m.size, r, iy);
    Vertex(x, y, MountainHeight(env, oct, m, spots, seed, x, y))
  }

  function MountainPoints(env: Env, oct: Octaves, m: Mountain, spots: seq<PeakSpot>, seed: int, r: nat)
    : (nat, nat) -> Vertex
    requires Usable(oct) && m.size != 0.0 && r > 0
  {
    (ix: nat, iy: nat) => MountainVertex(env, oct, m, spots, seed, r, ix, iy)
  }

  /** Every vertex on the rim of the grid lies at least half the size from the
      centre, so it sits at z = 0. */
  lemma RimVertexIsFlat(env: Env, oct: Octaves, m: Mountain, spots: seq<PeakSpot>, seed: int,
                        r: nat, ix: nat, iy: nat)
    requires NoiseBounded(env) && PowSound(env) && SqrtSound(env) && Usable(oct)
    requires 0.0 < m.size && 0.0 <= m.height && 0.0 <= m.roughness
    requires r > 0 && ix <= r && iy <= r && (ix == 0 || ix == r || iy == 0 || iy == r)
    ensures MountainVertex(env, oct, m, spots, seed, r, ix, iy).z == 0.0
  {
    GridSpan(m.size, r);
    var x := GridCoord(m.size, r, ix);
    var y := GridCoord(m.size, r, iy);
    assert m.size / 2.0 <= Max(Abs(x), Abs(y));
    DistAtLeastChebyshev(env, x, y);
    MountainHeightRange(env, oct, m, spots, seed, x, y);
  }

  /** The height the vertex loop computes at (x, y). */
  method HeightAt(env: Env, oct: Octaves, m: Mountain, spots: seq<PeakSpot>, seed: int,
                  x: real, y: real)
    returns (z: real)
    requires Usable(oct) && m.size != 0.0
    ensures z == MountainHeight(env, oct, m, spots, seed, x, y)
  {
    var h := NoisyHeightAt(env, oct, m, seed, x, y);
    h := RaiseToPeaks(env, m, spots, x, y, h);
    z := FadeAt(env, m, x, y, h);
  }

  /** The body of the vertex loop. */
  method MountainVertexAt(env: Env, oct: Octaves, m: Mountain, spots: seq<PeakSpot>, seed: int,
                          r: nat, ix: nat, iy: nat)
    returns (vert: Vertex)
    requires Usable(oct) && m.size != 0.0 && r > 0
    ensures vert == MountainVertex(env, oct, m, spots, seed, r, ix, iy)
  {
    var x := GridCoord(m.size, r, ix);
    var y := GridCoord(m.size, r, iy);
    var z := HeightAt(env, oct, m, spots, seed, x, y);
    vert := Vertex(x, y, z);
  }

  /** One row of the vertex loop. */
  method MountainRow(env: Env, oct: Octaves, m: Mountain, spots: seq<PeakSpot>, seed: int,
                     r: nat, iy: nat)
    returns (row: seq<Vertex>)
    requires Usable(oct) && m.size != 0.0 && r > 0
    ensures RowOf(row, MountainPoints(env, oct, m, spots, seed, r), iy, r + 1)
  {
    row := [];
    for ix := 0 to r + 1
      invariant RowOf(row, MountainPoints(env, oct, m, spots, seed, r), iy, ix)
    {
      var vert := MountainVertexAt(env, oct, m, spots, seed, r, ix, iy);
      RowOfAppend(row, vert, MountainPoints(env, oct, m, spots, seed, r), iy, ix);
      row := row + [vert];
    }
  }

  /** The vertex loops of an r x r grid: the vertices row after row. */
  method MountainVertices(env: Env, oct: Octaves, m: Mountain, spots: seq<PeakSpot>, seed: int, r: nat)
    returns (verts: seq<Vertex>)
    requires Usable(oct) && m.size != 0.0 && r > 0
    ensures RowMajor(verts, MountainPoints(env, oct, m, spots, seed, r), r, r + 1)
  {
    verts := [];
    for iy := 0 to r + 1
      invariant RowMajor(verts, MountainPoints(env, oct, m, spots, seed, r), r, iy)
    {
      var row := MountainRow(env, oct, m, spots, seed, r, iy);
      RowMajorAppend(verts, row, MountainPoints(env, oct, m, spots, seed, r), r, iy);
      verts := verts + row;
    }
  }

  /** create_mountain_mesh(mountain_config, seed): the peak positions, the
      (RESOLUTION + 1)^2 vertices row by row, and one smooth quad per cell.
      draw(i) holds the random draws made for peak i. */
  method CreateMountainMesh(env: Env, oct: Octaves, m: Mountain, seed: int, draw: nat -> PeakDraw)
    returns (spots: seq<PeakSpot>, verts: seq<Vertex>, faces: seq<Face>)
    requires Usable(oct) && m.size != 0.0
    ensures |spots| == m.peaks
    ensures forall i :: 0 <= i < m.peaks ==> spots[i] == PeakSpotOf(env, m, draw, i)
    ensures |verts| == (RESOLUTION + 1) * (RESOLUTION + 1)
    ensures forall ix: nat, iy: nat :: ix <= RESOLUTION && iy <= RESOLUTION ==>
      verts[VertexIndex(RESOLUTION, ix, iy)] == MountainVertex(env, oct, m, spots, seed, RESOLUTION, ix, iy)
    ensures |faces| == RESOLUTION * RESOLUTION
    ensures forall ix: nat, iy: nat :: ix < RESOLUTION && iy < RESOLUTION ==>
      faces[CellIndex(RESOLUTION, ix, iy)] == Face(CellQuad(RESOLUTION, ix, iy), true)
    ensures forall k :: 0 <= k < |faces| ==> QuadBelow(faces[k].corners, |verts|) && faces[k].smooth
  {
    spots := PeakPositions(env, m, draw);
    verts := MountainVertices(env, oct, m, spots, seed, RESOLUTION);
    var flat := GridFaces(RESOLUTION);
    faces := SmoothAll(flat);
  }
}

=== FILE: noise.dfy ===
/** The multi-octave compositors shared by the three terrain generators:
    fractal Brownian motion (fbm, fbm_noise) and the ridged multifractal
    (ridged_multifractal, ridged_noise). The generators run the same loops and
    differ only in how one octave turns a scaled coordinate into a noise sample,
    which an `OctaveSampler` captures, and in their frequency multipliers. */
module Noise {
  import opened Numeric

  /** One octave's noise sample: given the octave index i and its frequency f,
      the value the generator's noise call returns. Each generator supplies its
      own (seed layout, offsets, z coordinate). */
  type OctaveSampler = (nat, real) -> real

  /** Every sample lies in [-1, 1], as Blender's noise does. */
  ghost predicate UnitRange(g: OctaveSampler) {
    forall i: nat, f: real :: -1.0 <= g(i, f) <= 1.0
  }

  /** noise((x * f + seed, y * f + seed, z)): the octave sample at frequency f
      that generate_epic_terrain.py and generate_terrain.py both take; they
      differ only in the third coordinate z. */
  function Probe(env: Env, x: real, y: real, f: real, seed: int, z: real): real {
    env.noise(x * f + seed as real, y * f + seed as real, z)
  }

  // ---------------------------------------------------------------------------
  // Fractal Brownian motion
  // ---------------------------------------------------------------------------

  /** The frequency of octave n: freq0 multiplied n times by the lacunarity. */
  function Frequency(freq0: real, lacunarity: real, n: nat): real {
    if n == 0 then freq0 else Frequency(freq0, lacunarity, n - 1) * lacunarity
  }

  /** 1 + p + ... + p^(n-1): fbm's max_value after n octaves. */
  function AmplitudeSum(p: real, n: nat): real {
    if n == 0 then 0.0 else AmplitudeSum(p, n - 1) + Power(p, n - 1)
  }

  /** fbm's running total after n octaves: octave i adds its sample times p^i,
      sampled at frequency freq0 * lacunarity^i. */
  function FbmTotal(g: OctaveSampler, persistence: real,
                    lacunarity: real, freq0: real, n: nat): real
  {
    if n == 0 then 0.0
    else
      FbmTotal(g, persistence, lacunarity, freq0, n - 1) +
      g(n - 1, Frequency(freq0, lacunarity, n - 1)) * Power(persistence, n - 1)
  }

  /** The value fbm returns: the total divided by the sum of the amplitudes. */
  function FbmValue(g: OctaveSampler, octaves: nat, persistence: real,
                    lacunarity: real, freq0: real): real
    requires 1 <= octaves && 0.0 <= persistence
  {
    AmplitudeSumAtLeastOne(persistence, octaves);
    FbmTotal(g, persistence, lacunarity, freq0, octaves) / AmplitudeSum(persistence, octaves)
  }

  /** With a non-negative persistence and at least one octave, fbm never divides by less than 1. */
  lemma {:induction false} AmplitudeSumAtLeastOne(p: real, n: nat)
    requires 1 <= n && 0.0 <= p
    ensures 1.0 <= AmplitudeSum(p, n)
  {
    PowerNonNegative(p, n - 1);
    if n > 1 {
      AmplitudeSumAtLeastOne(p, n - 1);
    }
  }

  /** A sample in [-1, 1] scaled by a non-negative weight stays within the weight. */
  lemma ScaledSampleBounded(v: real, w: real)
    requires -1.0 <= v <= 1.0 && 0.0 <= w
    ensures -w <= v * w <= w
  {
    assert (1.0 - v) * w >= 0.0;
    assert (1.0 + v) * w >= 0.0;
  }

  /** Every octave's sample lies in [-1, 1], so the running total lies within the amplitude sum. */
  lemma {:induction false} FbmTotalBounded(g: OctaveSampler, persistence: real,
                                           lacunarity: real, freq0: real, n: nat)
    requires UnitRange(g) && 0.0 <= persistence
    ensures -AmplitudeSum(persistence, n) <= FbmTotal(g, persistence, lacunarity, freq0, n)
                                          <= AmplitudeSum(persistence, n)
  {
    if n > 0 {
      FbmTotalBounded(g, persistence, lacunarity, freq0, n - 1);
      FbmStepBounded(g, persistence, lacunarity, freq0, n);
    }
  }

  /** Octave n - 1 moves the total by no more than it adds to the amplitude sum. */
  lemma FbmStepBounded(g: OctaveSampler, persistence: real, lacunarity: real, freq0: real, n: nat)
    requires UnitRange(g) && 0.0 <= persistence && 1 <= n
    ensures var step := FbmTotal(g, persistence, lacunarity, freq0, n) - FbmTotal(g, persistence, lacunarity, freq0, n - 1);
      var amp := AmplitudeSum(persistence, n) - AmplitudeSum(persistence, n - 1);
      -amp <= step <= amp
  {
    var w := Power(persistence, n - 1);
    var v := g(n - 1, Frequency(freq0, lacunarity, n - 1));
    PowerNonNegative(persistence, n - 1);
    ScaledSampleBounded(v, w);
  }

  /** A total within [-m, m] divided by m >= 1 lies in [-1, 1]. */
  lemma RatioBounded(t: real, m: real)
    requires 1.0 <= m && -m <= t <= m
    ensures -1.0 <= t / m <= 1.0
  {
    var q := t / m;
    assert q * m == t;
  }

  /** fbm stays in [-1, 1] for any octave count >= 1 and persistence >= 0. */
  lemma FbmBounded(g: OctaveSampler, octaves: nat, persistence: real,
                   lacunarity: real, freq0: real)
    requires UnitRange(g) && 1 <= octaves && 0.0 <= persistence
    ensures -1.0 <= FbmValue(g, octaves, persistence, lacunarity, freq0) <= 1.0
  {
    FbmTotalBounded(g, persistence, lacunarity, freq0, octaves);
    AmplitudeSumAtLeastOne(persistence, octaves);
    RatioBounded(FbmTotal(g, persistence, lacunarity, freq0, octaves),
                 AmplitudeSum(persistence, octaves));
  }

  /** The fbm loop: per octave, add sample * amplitude, add amplitude to max_value,
      multiply amplitude by the persistence and frequency by the lacunarity;
      return total / max_value. */
  method Fbm(g: OctaveSampler, octaves: nat, persistence: real,
             lacunarity: real, freq0: real) returns (r: real)
    requires 1 <= octaves && 0.0 <= persistence
    ensures r == FbmValue(g, octaves, persistence, lacunarity, freq0)
    ensures UnitRange(g) ==> -1.0 <= r <= 1.0
  {
    var total, frequency, amplitude, maxValue := 0.0, freq0, 1.0, 0.0;
    for i := 0 to octaves
      invariant total == FbmTotal(g, persistence, lacunarity, freq0, i)
      invariant maxValue == AmplitudeSum(persistence, i)
      invariant amplitude == Power(persistence, i)
      invariant frequency == Frequency(freq0, lacunarity, i)
    {
      total := total + g(i, frequency) * amplitude;
      maxValue := maxValue + amplitude;
      amplitude := amplitude * persistence;
      frequency := frequency * lacunarity;
    }
    AmplitudeSumAtLeastOne(persistence, octaves);
    r := total / maxValue;
    if UnitRange(g) {
      FbmBounded(g, octaves, persistence, lacunarity, freq0);
    }
  }

  // ---------------------------------------------------------------------------
  // Ridged multifractal
  // ---------------------------------------------------------------------------

  /** The ridge fold (1 - |n|)^2. */
  function Fold(v: real): real {
    (1.0 - Abs(v)) * (1.0 - Abs(v))
  }

  /** The term of octave n - 1 (n >= 1): the folded sample, multiplied by the
      previous term when `weighted`. RidgeTerm(0) is the initial prev = 1.0. */
  function RidgeTerm(g: OctaveSampler, freq0: real, lacunarity: real,
                     weighted: bool, n: nat): real
  {
    if n == 0 then 1.0
    else
      var folded := Fold(g(n - 1, Frequency(freq0, lacunarity, n - 1)));
      if weighted then folded * RidgeTerm(g, freq0, lacunarity, weighted, n - 1)
      else folded
  }

  /** The ridged total after n octaves; the amplitude of octave i is 0.5^i. */
  function RidgedTotal(g: OctaveSampler, freq0: real, lacunarity: real,
                       weighted: bool, n: nat): real
  {
    if n == 0 then 0.0
    else
      RidgedTotal(g, freq0, lacunarity, weighted, n - 1) +
      RidgeTerm(g, freq0, lacunarity, weighted, n) * Power(0.5, n - 1)
  }

  /** The fold is a square, hence never negative; on a sample in [-1, 1] it is at most 1. */
  lemma FoldRange(v: real)
    ensures 0.0 <= Fold(v)
    ensures -1.0 <= v <= 1.0 ==> Fold(v) <= 1.0
  {
    var a := 1.0 - Abs(v);
    if a < 0.0 {
      assert a * a == (-a) * (-a);
    }
    if -1.0 <= v <= 1.0 {
      ScaledSampleBounded(a, a);
    }
  }

  /** Every term is non-negative, whatever the noise returns. */
  lemma {:induction false} RidgeTermNonNegative(g: OctaveSampler, freq0: real,
                                                lacunarity: real, weighted: bool, n: nat)
    ensures 0.0 <= RidgeTerm(g, freq0, lacunarity, weighted, n)
  {
    if n > 0 {
      RidgeTermNonNegative(g, freq0, lacunarity, weighted, n - 1);
      var v := g(n - 1, Frequency(freq0, lacunarity, n - 1));
      FoldRange(v);
      if weighted {
        NonNegativeProduct(Fold(v), RidgeTerm(g, freq0, lacunarity, weighted, n - 1));
      }
    }
  }

  lemma NonNegativeProduct(a: real, b: real)
    requires 0.0 <= a && 0.0 <= b
    ensures 0.0 <= a * b
  {
  }

  /** With samples in [-1, 1] every term is at most 1, and a weighted term is at
      most the previous one: detail concentrates where the previous octave was high. */
  lemma {:induction false} RidgeTermDecreasing(g: OctaveSampler, freq0: real,
                                               lacunarity: real, weighted: bool, n: nat)
    requires UnitRange(g) && 1 <= n
    ensures RidgeTerm(g, freq0, lacunarity, weighted, n) <= 1.0
    ensures weighted ==> RidgeTerm(g, freq0, lacunarity, weighted, n)
                           <= RidgeTerm(g, freq0, lacunarity, weighted, n - 1)
  {
    var v := g(n - 1, Frequency(freq0, lacunarity, n - 1));
    var prev := RidgeTerm(g, freq0, lacunarity, weighted, n - 1);
    assert -1.0 <= v <= 1.0;
    FoldRange(v);
    RidgeTermNonNegative(g, freq0, lacunarity, weighted, n - 1);
    if n > 1 {
      RidgeTermDecreasing(g, freq0, lacunarity, weighted, n - 1);
    }
    assert prev <= 1.0;
    if weighted {
      var f := Fold(v);
      assert 0.0 <= f <= 1.0;
      assert RidgeTerm(g, freq0, lacunarity, weighted, n) == f * prev;
      assert f * prev <= 1.0 * prev by {
        assert (1.0 - f) * prev >= 0.0 by { NonNegativeProduct(1.0 - f, prev); }
      }
    } else {
      assert RidgeTerm(g, freq0, lacunarity, weighted, n) == Fold(v);
    }
  }

  /** The ridged total is never negative. */
  lemma {:induction false} RidgedNonNegative(g: OctaveSampler, freq0: real,
                                             lacunarity: real, weighted: bool, n: nat)
    ensures 0.0 <= RidgedTotal(g, freq0, lacunarity, weighted, n)
  {
    if n > 0 {
      RidgedNonNegative(g, freq0, lacunarity, weighted, n - 1);
      RidgeTermNonNegative(g, freq0, lacunarity, weighted, n);
      PowerNonNegative(0.5, n - 1);
      NonNegativeProduct(RidgeTerm(g, freq0, lacunarity, weighted, n), Power(0.5, n - 1));
    }
  }

  /** With samples in [-1, 1] the ridged total is at most the sum of the amplitudes. */
  lemma {:induction false} RidgedAtMostAmplitudes(g: OctaveSampler, freq0: real,
                                                  lacunarity: real, weighted: bool, n: nat)
    requires UnitRange(g)
    ensures RidgedTotal(g, freq0, lacunarity, weighted, n) <= AmplitudeSum(0.5, n)
  {
    if n > 0 {
      RidgedAtMostAmplitudes(g, freq0, lacunarity, weighted, n - 1);
      var term, amplitude := RidgeTerm(g, freq0, lacunarity, weighted, n), Power(0.5, n - 1);
      TermWithinAmplitude(g, freq0, lacunarity, weighted, n, term, amplitude);
      BoundStep(RidgedTotal(g, freq0, lacunarity, weighted, n - 1), AmplitudeSum(0.5, n - 1),
                term * amplitude, amplitude);
    }
  }

  /** Adding at most the bound's increment keeps a total within the bound. */
  lemma BoundStep(total: real, bound: real, added: real, increment: real)
    requires total <= bound && added <= increment
    ensures total + added <= bound + increment
  {
  }

  /** Octave n adds at most its own amplitude. */
  lemma TermWithinAmplitude(g: OctaveSampler, freq0: real, lacunarity: real, weighted: bool, n: nat,
                             term: real, amplitude: real)
    requires UnitRange(g) && 1 <= n
    requires term == RidgeTerm(g, freq0, lacunarity, weighted, n) && amplitude == Power(0.5, n - 1)
    ensures term * amplitude <= amplitude
  {
    RidgeTermNonNegative(g, freq0, lacunarity, weighted, n);
    RidgeTermDecreasing(g, freq0, lacunarity, weighted, n);
    PowerNonNegative(0.5, n - 1);
    ScaledSampleBounded(term, amplitude);
  }

  /** Halving amplitudes sum to 2 - 2 * 0.5^n, which is below 2. */
  lemma {:induction false} HalvingAmplitudesBelowTwo(n: nat)
    ensures AmplitudeSum(0.5, n) == 2.0 - 2.0 * Power(0.5, n)
    ensures AmplitudeSum(0.5, n) < 2.0
  {
    if n > 0 {
      HalvingAmplitudesBelowTwo(n - 1);
    }
    PowerPositive(0.5, n);
  }

  /** The ridged value is never negative and, with samples in [-1, 1], stays
      within the halving amplitudes' sum, hence below 2. */
  lemma RidgedRange(g: OctaveSampler, freq0: real, lacunarity: real, weighted: bool, n: nat)
    ensures 0.0 <= RidgedTotal(g, freq0, lacunarity, weighted, n)
    ensures UnitRange(g) ==>
      RidgedTotal(g, freq0, lacunarity, weighted, n) <= AmplitudeSum(0.5, n) < 2.0
  {
    RidgedNonNegative(g, freq0, lacunarity, weighted, n);
    HalvingAmplitudesBelowTwo(n);
    if UnitRange(g) {
      RidgedAtMostAmplitudes(g, freq0, lacunarity, weighted, n);
    }
  }

  /** One octave of the ridged loop: the folded sample, weighted by the
      previous term when asked, is term i + 1 and is added at amplitude 0.5^i. */
  lemma RidgedStep(g: OctaveSampler, freq0: real, lacunarity: real, weighted: bool, i: nat, prev: real)
    requires weighted ==> prev == RidgeTerm(g, freq0, lacunarity, weighted, i)
    ensures var folded := Fold(g(i, Frequency(freq0, lacunarity, i)));
      var term := if weighted then folded * prev else folded;
      term == RidgeTerm(g, freq0, lacunarity, weighted, i + 1) &&
      RidgedTotal(g, freq0, lacunarity, weighted, i + 1) ==
        RidgedTotal(g, freq0, lacunarity, weighted, i) + term * Power(0.5, i)
  {
  }

  /** The ridged loop: per octave, fold the sample, weight it by the previous
      term when `weighted`, add term * amplitude, halve the amplitude and multiply
      the frequency by the lacunarity. */
  method Ridged(g: OctaveSampler, octaves: nat, freq0: real,
                lacunarity: real, weighted: bool) returns (r: real)
    ensures r == RidgedTotal(g, freq0, lacunarity, weighted, octaves)
  {
    var total, frequency, amplitude, prev := 0.0, freq0, 1.0, 1.0;
    for i := 0 to octaves
      invariant total == RidgedTotal(g, freq0, lacunarity, weighted, i)
      invariant weighted ==> prev == RidgeTerm(g, freq0, lacunarity, weighted, i)
      invariant amplitude == Power(0.5, i)
      invariant frequency == Frequency(freq0, lacunarity, i)
    {
      RidgedStep(g, freq0, lacunarity, weighted, i, prev);
      var n := g(i, frequency);
      n := Fold(n);
      if weighted {
        n := n * prev;
        prev := n;
      }
      total := total + n * amplitude;
      amplitude := amplitude * 0.5;
      frequency := frequency * lacunarity;
    }
    r := total;
  }
}

=== FILE: numeric.dfy ===
/** Real-number helpers shared by the terrain generators.

    The generators call routines whose internals are not part of this model:
    Blender's coherent noise (mathutils.noise.noise), math.sqrt, fractional
    powers (x ** 1.5 and friends), math.sin / math.cos and Python's string hash.
    They are carried as function values in an `Env`, and each proof assumes only
    the facts stated by the predicates below. Floats are modelled as reals. */
module Numeric {

  /** math.sqrt never returns a negative number. */
  type NonNegReal = r: real | 0.0 <= r

  /** The foreign routines a generator run depends on. */
  datatype Env = Env(
    noise: (real, real, real) -> real,  // mathutils.noise.noise((x, y, z))
    sqrt: real -> NonNegReal,           // math.sqrt
    pow: (real, real) -> real,          // b ** p for a fractional exponent p
    sin: real -> real,                  // math.sin
    cos: real -> real,                  // math.cos
    hash: string -> int)                // Python's salted hash(str)

  /** Blender's noise returns values in [-1, 1]. */
  ghost predicate NoiseBounded(env: Env) {
    forall x, y, z :: -1.0 <= env.noise(x, y, z) <= 1.0
  }

  /** math.sqrt of a non-negative number is its square root. */
  ghost predicate SqrtSound(env: Env) {
    forall a :: 0.0 <= a ==> env.sqrt(a) * env.sqrt(a) == a
  }

  /** The facts used about b ** p for a positive exponent and a non-negative base. */
  ghost predicate PowSound(env: Env) {
    forall b, p :: 0.0 <= b && 0.0 < p ==>
      0.0 <= env.pow(b, p) &&
      (b <= 1.0 ==> env.pow(b, p) <= 1.0) &&
      (1.0 <= b ==> 1.0 <= env.pow(b, p))
  }

  /** math.sin and math.cos stay in [-1, 1]. */
  ghost predicate TrigBounded(env: Env) {
    (forall a :: -1.0 <= env.sin(a) <= 1.0) && (forall a :: -1.0 <= env.cos(a) <= 1.0)
  }

  /** sin^2 + cos^2 = 1, the identity that puts cos(a) * d, sin(a) * d at distance d. */
  ghost predicate Pythagorean(env: Env) {
    forall a :: env.cos(a) * env.cos(a) + env.sin(a) * env.sin(a) == 1.0
  }

  /** Python's abs on a float. */
  function Abs(v: real): real {
    if v < 0.0 then -v else v
  }

  /** abs(v) is never negative and is v or -v. */
  lemma AbsFacts(v: real)
    ensures Abs(v) >= 0.0 && (Abs(v) == v || Abs(v) == -v)
  {
  }

  /** Python's max of two numbers (the first one on a tie). */
  function Max(a: real, b: real): (m: real)
    ensures a <= m && b <= m && (m == a || m == b)
  {
    if b > a then b else a
  }

  /** Python's min of two numbers (the first one on a tie). */
  function Min(a: real, b: real): real {
    if b < a then b else a
  }

  /** Integer power b^n, built the way the generators' loops build it:
      start from 1.0 and multiply by b once per octave. */
  function Power(b: real, n: nat): real {
    if n == 0 then 1.0 else Power(b, n - 1) * b
  }

  /** The squared Euclidean distance (x1 - x2) ** 2 + (y1 - y2) ** 2. */
  function SqDist(x1: real, y1: real, x2: real, y2: real): real {
    (x1 - x2) * (x1 - x2) + (y1 - y2) * (y1 - y2)
  }

  /** Euclidean distance between two points, as math.sqrt((x1 - x2) ** 2 + (y1 - y2) ** 2). */
  function Dist(env: Env, x1: real, y1: real, x2: real, y2: real): NonNegReal {
    env.sqrt(SqDist(x1, y1, x2, y2))
  }

  /** The Euclidean norm math.sqrt(a ** 2 + b ** 2). */
  function Hypot(env: Env, a: real, b: real): NonNegReal {
    env.sqrt(a * a + b * b)
  }

  lemma {:induction false} PowerNonNegative(b: real, n: nat)
    requires 0.0 <= b
    ensures 0.0 <= Power(b, n)
  {
    if n > 0 {
      PowerNonNegative(b, n - 1);
    }
  }

  lemma {:induction false} PowerPositive(b: real, n: nat)
    requires 0.0 < b
    ensures 0.0 < Power(b, n)
  {
    if n > 0 {
      PowerPositive(b, n - 1);
    }
  }

  /** A square is never negative, and is zero only at zero. */
  lemma SquareNonNegative(v: real)
    ensures 0.0 <= v * v
    ensures v * v == 0.0 ==> v == 0.0
  {
    if v < 0.0 {
      assert v * v == (-v) * (-v);
      SquareLess(-v, 0.0);
    } else if v > 0.0 {
      SquareLess(v, 0.0);
    }
  }

  /** A quotient of a number by a positive number no larger than it is at least 1. */
  lemma RatioAtLeastOne(d: real, h: real)
    requires 0.0 < h <= d
    ensures 1.0 <= d / h
  {
    var q := d / h;
    assert q * h == d;
    assert (q - 1.0) * h == d - h;
  }

  /** A squared distance is never negative. */
  lemma SqDistNonNegative(x1: real, y1: real, x2: real, y2: real)
    ensures 0.0 <= SqDist(x1, y1, x2, y2)
  {
    SquareNonNegative(x1 - x2);
    SquareNonNegative(y1 - y2);
  }

  /** Squaring is strictly monotone on the non-negative reals. */
  lemma SquareLess(u: real, v: real)
    requires 0.0 <= v < u
    ensures v * v < u * u
  {
    SquareLessStep(u, v, v * u);
  }

  lemma SquareLessStep(u: real, v: real, x: real)
    requires 0.0 <= v < u && x == v * u
    ensures v * v < u * u
  {
    assert v * v <= x;
    assert x < u * u;
  }

  /** Squaring is monotone on the non-negative reals. */
  lemma SquareAtMost(u: real, v: real)
    requires 0.0 <= v <= u
    ensures v * v <= u * u
  {
    if v < u {
      SquareLess(u, v);
    }
  }

  /** math.sqrt is monotone on the non-negative reals. */
  lemma SqrtMonotone(env: Env, a: real, b: real)
    requires SqrtSound(env) && 0.0 <= a <= b
    ensures env.sqrt(a) <= env.sqrt(b)
  {
    var sa, sb := env.sqrt(a), env.sqrt(b);
    assert sa * sa == a && sb * sb == b;
    if sa > sb {
      SquareLess(sa, sb);
    }
  }

  /** math.sqrt(c * c) is c for c >= 0. */
  lemma SqrtOfSquare(env: Env, c: real)
    requires SqrtSound(env) && 0.0 <= c
    ensures env.sqrt(c * c) == c
  {
    var r := env.sqrt(c * c);
    assert r * r == c * c;
    if r < c {
      SquareLess(c, r);
    } else if r > c {
      SquareLess(r, c);
    }
  }

  /** A point lies at distance 0 from itself. */
  lemma DistToSelf(env: Env, x: real, y: real)
    requires SqrtSound(env)
    ensures Dist(env, x, y, x, y) == 0.0
  {
    assert SqDist(x, y, x, y) == 0.0 * 0.0;
    SqrtOfSquare(env, 0.0);
  }

  /** A number at least c * c has a square root at least c. */
  lemma SqrtAtLeast(env: Env, a: real, c: real)
    requires SqrtSound(env) && 0.0 <= c && c * c <= a
    ensures c <= env.sqrt(a)
  {
    SqrtOfSquare(env, c);
    SqrtMonotone(env, c * c, a);
  }

  /** A number below c * c has a square root below c. */
  lemma SqrtBelow(env: Env, a: real, c: real)
    requires SqrtSound(env) && 0.0 <= a && 0.0 <= c && a < c * c
    ensures env.sqrt(a) < c
  {
    var r := env.sqrt(a);
    assert r * r == a;
    if c <= r {
      SquareAtMost(r, c);
    }
  }

  /** The Euclidean distance from the origin is at least the Chebyshev distance. */
  lemma DistAtLeastChebyshev(env: Env, x: real, y: real)
    requires SqrtSound(env)
    ensures Max(Abs(x), Abs(y)) <= Dist(env, x, y, 0.0, 0.0)
  {
    var m := Max(Abs(x), Abs(y));
    assert m * m == x * x || m * m == y * y;
    assert 0.0 <= m && m * m <= SqDist(x, y, 0.0, 0.0);
    SqrtAtLeast(env, SqDist(x, y, 0.0, 0.0), m);
  }
}

=== FILE: river.dfy ===
/** generate_terrain.py, create_river_mesh: a ribbon of quads along a list of
    waypoints, its two banks wobbling sideways and sunk to the river bed. */
module River {
  import opened Numeric
  import opened Grid

  /** Bank vertex pairs create_river_mesh places per pair of consecutive waypoints. */
  const SEGMENTS_PER_SECTION: nat := 8

  /** Vector sum, difference and scaling (mathutils.Vector arithmetic on points). */
  function Plus(a: Vertex, b: Vertex): Vertex {
    Vertex(a.x + b.x, a.y + b.y, a.z + b.z)
  }

  function Minus(a: Vertex, b: Vertex): Vertex {
    Vertex(a.x - b.x, a.y - b.y, a.z - b.z)
  }

  function Times(a: Vertex, k: real): Vertex {
    Vertex(a.x * k, a.y * k, a.z * k)
  }

  function Halved(a: Vertex): Vertex {
    Vertex(a.x / 2.0, a.y / 2.0, a.z / 2.0)
  }

  /** Vector.lerp: the point a fraction t of the way from p to q. */
  function Lerp(p: Vertex, q: Vertex, t: real): Vertex {
    Plus(Times(p, 1.0 - t), Times(q, t))
  }

  /** Vector.length. */
  function Length(env: Env, v: Vertex): NonNegReal {
    env.sqrt(v.x * v.x + v.y * v.y + v.z * v.z)
  }

  /** Vector.normalized: v scaled to unit length; a zero vector stays zero. */
  function Normalized(env: Env, v: Vertex): Vertex {
    var len := Length(env, v);
    if len == 0.0 then Vertex(0.0, 0.0, 0.0) else Vertex(v.x / len, v.y / len, v.z / len)
  }

  /** The direction from p to q turned a quarter to the left in the ground plane. */
  function Across(env: Env, p: Vertex, q: Vertex): Vertex {
    var direction := Normalized(env, Minus(q, p));
    Vertex(-direction.y, direction.x, 0.0)
  }

  /** The sideways wobble of segment j of section i. */
  function Wave(env: Env, width: real, i: nat, j: nat): real {
    env.sin((i * 2) as real + j as real * 0.5) * width * 0.2
  }

  /** The point on the line between waypoints i and i + 1 where segment j starts. */
  function SectionPoint(waypoints: seq<Vertex>, i: nat, j: nat): Vertex
    requires i + 1 < |waypoints|
  {
    Lerp(waypoints[i], waypoints[i + 1], j as real / SEGMENTS_PER_SECTION as real)
  }

  /** The left bank vertex of segment j of section i, sunk to the river bed. */
  function LeftBank(env: Env, waypoints: seq<Vertex>, width: real, depth: real, i: nat, j: nat): Vertex
    requires i + 1 < |waypoints|
  {
    var perp := Across(env, waypoints[i], waypoints[i + 1]);
    var p := Plus(SectionPoint(waypoints, i, j), Times(perp, width / 2.0 + Wave(env, width, i, j)));
    p.(z := -depth)
  }

  /** The right bank vertex of segment j of section i, sunk to the river bed. */
  function RightBank(env: Env, waypoints: seq<Vertex>, width: real, depth: real, i: nat, j: nat): Vertex
    requires i + 1 < |waypoints|
  {
    var perp := Across(env, waypoints[i], waypoints[i + 1]);
    var p := Minus(SectionPoint(waypoints, i, j), Times(perp, width / 2.0 - Wave(env, width, i, j)));
    p.(z := -depth)
  }

  /** The closing pair beside the last waypoint, across the direction of the last section. */
  function FinalLeft(env: Env, waypoints: seq<Vertex>, width: real): Vertex
    requires |waypoints| >= 2
  {
    var last := waypoints[|waypoints| - 1];
    Plus(last, Halved(Times(Across(env, waypoints[|waypoints| - 2], last), width)))
  }

  function FinalRight(env: Env, waypoints: seq<Vertex>, width: real): Vertex
    requires |waypoints| >= 2
  {
    var last := waypoints[|waypoints| - 1];
    Minus(last, Halved(Times(Across(env, waypoints[|waypoints| - 2], last), width)))
  }

  /** The wave moves both banks the same way, so at every segment the banks are
      exactly width apart along the perpendicular. */
  lemma BankGap(env: Env, waypoints: seq<Vertex>, width: real, depth: real, i: nat, j: nat)
    requires i + 1 < |waypoints|
    ensures var perp := Across(env, waypoints[i], waypoints[i + 1]);
            LeftBank(env, waypoints, width, depth, i, j).x - RightBank(env, waypoints, width, depth, i, j).x
              == perp.x * width
    ensures var perp := Across(env, waypoints[i], waypoints[i + 1]);
            LeftBank(env, waypoints, width, depth, i, j).y - RightBank(env, waypoints, width, depth, i, j).y
              == perp.y * width
  {
    Straddle(SectionPoint(waypoints, i, j), Across(env, waypoints[i], waypoints[i + 1]),
             width, Wave(env, width, i, j));
  }

  /** The banks' midpoint is the interpolated point pushed sideways by the wave. */
  lemma BankMidpoint(env: Env, waypoints: seq<Vertex>, width: real, depth: real, i: nat, j: nat)
    requires i + 1 < |waypoints|
    ensures var perp := Across(env, waypoints[i], waypoints[i + 1]);
            var pos := SectionPoint(waypoints, i, j);
            LeftBank(env, waypoints, width, depth, i, j).x + RightBank(env, waypoints, width, depth, i, j).x
              == 2.0 * (pos.x + perp.x * Wave(env, width, i, j))
    ensures var perp := Across(env, waypoints[i], waypoints[i + 1]);
            var pos := SectionPoint(waypoints, i, j);
            LeftBank(env, waypoints, width, depth, i, j).y + RightBank(env, waypoints, width, depth, i, j).y
              == 2.0 * (pos.y + perp.y * Wave(env, width, i, j))
  {
    Straddle(SectionPoint(waypoints, i, j), Across(env, waypoints[i], waypoints[i + 1]),
             width, Wave(env, width, i, j));
  }

  lemma Straddle(pos: Vertex, perp: Vertex, width: real, wave: real)
    ensures var l := Plus(pos, Times(perp, width / 2.0 + wave));
            var r := Minus(pos, Times(perp, width / 2.0 - wave));
            l.x - r.x == perp.x * width && l.y - r.y == perp.y * width &&
            l.x + r.x == 2.0 * (pos.x + perp.x * wave) && l.y + r.y == 2.0 * (pos.y + perp.y * wave)
  {
    assert perp.x * (width / 2.0 + wave) + perp.x * (width / 2.0 - wave) == perp.x * width;
    assert perp.y * (width / 2.0 + wave) + perp.y * (width / 2.0 - wave) == perp.y * width;
    assert perp.x * (width / 2.0 + wave) - perp.x * (width / 2.0 - wave) == 2.0 * (perp.x * wave);
    assert perp.y * (width / 2.0 + wave) - perp.y * (width / 2.0 - wave) == 2.0 * (perp.y * wave);
  }

  /** The first segment of each section starts at its waypoint. */
  lemma SectionStartsAtWaypoint(waypoints: seq<Vertex>, i: nat)
    requires i + 1 < |waypoints|
    ensures SectionPoint(waypoints, i, 0) == waypoints[i]
  {
  }

  /** Between two distinct waypoints at the same height, the perpendicular has
      unit length, so the banks of that section are exactly width apart. */
  lemma RiverWidth(env: Env, waypoints: seq<Vertex>, width: real, depth: real, i: nat, j: nat)
    requires SqrtSound(env)
    requires i + 1 < |waypoints| && waypoints[i] != waypoints[i + 1]
    requires waypoints[i].z == waypoints[i + 1].z
    ensures var l := LeftBank(env, waypoints, width, depth, i, j);
            var r := RightBank(env, waypoints, width, depth, i, j);
            (l.x - r.x) * (l.x - r.x) + (l.y - r.y) * (l.y - r.y) == width * width
  {
    var perp := Across(env, waypoints[i], waypoints[i + 1]);
    UnitAcross(env, waypoints[i], waypoints[i + 1]);
    BankGap(env, waypoints, width, depth, i, j);
    var l := LeftBank(env, waypoints, width, depth, i, j);
    var r := RightBank(env, waypoints, width, depth, i, j);
    ScaledUnit(l.x - r.x, l.y - r.y, perp.x, perp.y, width);
  }

  /** The perpendicular between two distinct points at the same height has unit length. */
  lemma UnitAcross(env: Env, p: Vertex, q: Vertex)
    requires SqrtSound(env) && p != q && p.z == q.z
    ensures var perp := Across(env, p, q); perp.x * perp.x + perp.y * perp.y == 1.0
  {
    var v := Minus(q, p);
    var len := Length(env, v);
    PositiveLength(env, v);
    assert Across(env, p, q) == Vertex(-(v.y / len), v.x / len, 0.0);
    UnitQuotients(v.x, v.y, len);
  }

  /** A horizontal non-zero vector has a positive length whose square is the sum
      of the squares of its parts. */
  lemma PositiveLength(env: Env, v: Vertex)
    requires SqrtSound(env) && v.z == 0.0 && (v.x != 0.0 || v.y != 0.0)
    ensures Length(env, v) != 0.0
    ensures Length(env, v) * Length(env, v) == v.x * v.x + v.y * v.y
  {
    SquareNonNegative(v.x);
    SquareNonNegative(v.y);
    assert 0.0 < v.x * v.x + v.y * v.y;
  }

  lemma UnitQuotients(vx: real, vy: real, len: real)
    requires len != 0.0 && len * len == vx * vx + vy * vy
    ensures (-(vy / len)) * (-(vy / len)) + (vx / len) * (vx / len) == 1.0
  {
    var a, b := vx / len, vy / len;
    assert a * len == vx && b * len == vy;
    var sa, sb := (a * len) * (a * len), (b * len) * (b * len);
    assert sa == vx * vx && sb == vy * vy;
    calc {
      (a * a + b * b) * (len * len);
      (a * len) * (a * len) + (b * len) * (b * len);
      sa + sb;
      vx * vx + vy * vy;
      len * len;
    }
    assert a * a + b * b == 1.0;
    assert (-b) * (-b) == b * b;
  }

  /** A vector w times a unit vector has squared length w * w. */
  lemma ScaledUnit(dx: real, dy: real, px: real, py: real, w: real)
    requires px * px + py * py == 1.0 && dx == px * w && dy == py * w
    ensures dx * dx + dy * dy == w * w
  {
    assert dx * dx + dy * dy == (px * px + py * py) * (w * w);
  }

  /** Unlike the section vertices, the closing pair is not sunk: it keeps the
      height of the last waypoint. */
  lemma FinalPairAtWaypointHeight(env: Env, waypoints: seq<Vertex>, width: real)
    requires |waypoints| >= 2
    ensures FinalLeft(env, waypoints, width).z == waypoints[|waypoints| - 1].z
    ensures FinalRight(env, waypoints, width).z == waypoints[|waypoints| - 1].z
  {
  }

  /** The banks after n sections: bank vertex k belongs to segment k % 8 of
      section k / 8. */
  ghost predicate BanksUpTo(env: Env, waypoints: seq<Vertex>, width: real, depth: real,
                            left: seq<Vertex>, right: seq<Vertex>, n: nat)
    requires n < |waypoints|
  {
    |left| == SEGMENTS_PER_SECTION * n && |right| == SEGMENTS_PER_SECTION * n &&
    forall k :: 0 <= k < |left| ==>
      left[k] == LeftBank(env, waypoints, width, depth, k / SEGMENTS_PER_SECTION, k % SEGMENTS_PER_SECTION) &&
      right[k] == RightBank(env, waypoints, width, depth, k / SEGMENTS_PER_SECTION, k % SEGMENTS_PER_SECTION)
  }

  /** Position j of section n in the flattened bank lists. */
  lemma SegmentIndex(n: nat, j: nat)
    requires j < SEGMENTS_PER_SECTION
    ensures (SEGMENTS_PER_SECTION * n + j) / SEGMENTS_PER_SECTION == n
    ensures (SEGMENTS_PER_SECTION * n + j) % SEGMENTS_PER_SECTION == j
  {
  }

  /** Appending the segments of section n extends the banks by one section. */
  lemma BanksAppend(env: Env, waypoints: seq<Vertex>, width: real, depth: real,
                    left: seq<Vertex>, right: seq<Vertex>, lefts: seq<Vertex>, rights: seq<Vertex>, n: nat)
    requires n + 1 < |waypoints|
    requires BanksUpTo(env, waypoints, width, depth, left, right, n)
    requires |lefts| == SEGMENTS_PER_SECTION && |rights| == SEGMENTS_PER_SECTION
    requires forall j :: 0 <= j < SEGMENTS_PER_SECTION ==>
      lefts[j] == LeftBank(env, waypoints, width, depth, n, j) &&
      rights[j] == RightBank(env, waypoints, width, depth, n, j)
    ensures BanksUpTo(env, waypoints, width, depth, left + lefts, right + rights, n + 1)
  {
    var l, r := left + lefts, right + rights;
    forall k | 0 <= k < |l|
      ensures l[k] == LeftBank(env, waypoints, width, depth, k / SEGMENTS_PER_SECTION, k % SEGMENTS_PER_SECTION)
      ensures r[k] == RightBank(env, waypoints, width, depth, k / SEGMENTS_PER_SECTION, k % SEGMENTS_PER_SECTION)
    {
      if |left| <= k {
        var j := k - |left|;
        SegmentIndex(n, j);
        assert l[k] == lefts[j] && r[k] == rights[j];
      }
    }
  }

  /** The inner loop of create_river_mesh: the segments of section i. */
  method RiverSection(env: Env, waypoints: seq<Vertex>, width: real, depth: real, i: nat)
    returns (lefts: seq<Vertex>, rights: seq<Vertex>)
    requires i + 1 < |waypoints|
    ensures |lefts| == SEGMENTS_PER_SECTION && |rights| == SEGMENTS_PER_SECTION
    ensures forall j :: 0 <= j < SEGMENTS_PER_SECTION ==>
      lefts[j] == LeftBank(env, waypoints, width, depth, i, j) &&
      rights[j] == RightBank(env, waypoints, width, depth, i, j)
  {
    var p1 := waypoints[i];
    var p2 := waypoints[i + 1];
    lefts, rights := [], [];
    for j := 0 to SEGMENTS_PER_SECTION
      invariant |lefts| == j && |rights| == j
      invariant forall j' :: 0 <= j' < j ==>
        lefts[j'] == LeftBank(env, waypoints, width, depth, i, j') &&
        rights[j'] == RightBank(env, waypoints, width, depth, i, j')
    {
      var t := j as real / SEGMENTS_PER_SECTION as real;
      var pos := Lerp(p1, p2, t);
      var direction := Normalized(env, Minus(p2, p1));
      var perp := Vertex(-direction.y, direction.x, 0.0);
      var wave := Wave(env, width, i, j);
      var leftPos := Plus(pos, Times(perp, width / 2.0 + wave));
      var rightPos := Minus(pos, Times(perp, width / 2.0 - wave));
      leftPos := leftPos.(z := -depth);
      rightPos := rightPos.(z := -depth);
      lefts, rights := lefts + [leftPos], rights + [rightPos];
    }
  }

  /** bmesh numbers the vertices in creation order, which alternates left and
      right bank: bank vertex k is vertex 2k on the left and 2k + 1 on the right. */
  function Interleave(left: seq<Vertex>, right: seq<Vertex>): (verts: seq<Vertex>)
    requires |left| == |right|
    ensures |verts| == 2 * |left|
    ensures forall k :: 0 <= k < |left| ==> verts[2 * k] == left[k] && verts[2 * k + 1] == right[k]
  {
    if |left| == 0 then [] else Interleave(left[..|left| - 1], right[..|right| - 1]) + [left[|left| - 1], right[|right| - 1]]
  }

  /** The quad between bank vertex pairs k and k + 1. */
  function RiverQuad(k: nat): Quad {
    Quad(2 * k, 2 * k + 2, 2 * k + 3, 2 * k + 1)
  }

  /** Quad k joins left k, left k + 1, right k + 1 and right k, all of them
      existing vertices. */
  lemma RiverQuadJoinsBanks(left: seq<Vertex>, right: seq<Vertex>, k: nat)
    requires |left| == |right| && k + 1 < |left|
    ensures var verts := Interleave(left, right);
            var q := RiverQuad(k);
            QuadBelow(q, |verts|) &&
            verts[q.a] == left[k] && verts[q.b] == left[k + 1] &&
            verts[q.c] == right[k + 1] && verts[q.d] == right[k]
  {
    var verts := Interleave(left, right);
    assert verts[2 * (k + 1)] == left[k + 1] && verts[2 * (k + 1) + 1] == right[k + 1];
  }

  /** The face loop: one flat quad between each pair of consecutive bank pairs. */
  method RiverFaces(n: nat) returns (faces: seq<Face>)
    ensures |faces| == n
    ensures forall k :: 0 <= k < n ==> faces[k] == Face(RiverQuad(k), false)
  {
    faces := [];
    for k := 0 to n
      invariant |faces| == k
      invariant forall k' :: 0 <= k' < k ==> faces[k'] == Face(RiverQuad(k'), false)
    {
      faces := faces + [Face(RiverQuad(k), false)];
    }
  }

  /** create_river_mesh(name, waypoints, width, depth): eight bank pairs per
      section, sunk to -depth, then a closing pair beside the last waypoint, and
      a quad between each two consecutive pairs. It needs at least two waypoints
      (with fewer, the closing pair's waypoints[-2] raises IndexError). */
  method CreateRiverMesh(env: Env, waypoints: seq<Vertex>, width: real, depth: real)
    returns (left: seq<Vertex>, right: seq<Vertex>, faces: seq<Face>)
    requires |waypoints| >= 2
    ensures |left| == SEGMENTS_PER_SECTION * (|waypoints| - 1) + 1 && |right| == |left|
    ensures forall k :: 0 <= k < |left| - 1 ==>
      left[k] == LeftBank(env, waypoints, width, depth, k / SEGMENTS_PER_SECTION, k % SEGMENTS_PER_SECTION) &&
      right[k] == RightBank(env, waypoints, width, depth, k / SEGMENTS_PER_SECTION, k % SEGMENTS_PER_SECTION)
    ensures forall k :: 0 <= k < |left| - 1 ==> left[k].z == -depth && right[k].z == -depth
    ensures left[|left| - 1] == FinalLeft(env, waypoints, width)
    ensures right[|right| - 1] == FinalRight(env, waypoints, width)
    ensures |faces| == |left| - 1
    ensures forall k :: 0 <= k < |faces| ==>
      faces[k] == Face(RiverQuad(k), false) && QuadBelow(faces[k].corners, |left| + |right|)
  {
    left, right := [], [];
    var n := |waypoints| - 1;
    for i := 0 to n
      invariant BanksUpTo(env, waypoints, width, depth, left, right, i)
    {
      var lefts, rights := RiverSection(env, waypoints, width, depth, i);
      BanksAppend(env, waypoints, width, depth, left, right, lefts, rights, i);
      left, right := left + lefts, right + rights;
    }
    var finalPos := waypoints[|waypoints| - 1];
    var direction := Normalized(env, Minus(waypoints[|waypoints| - 1], waypoints[|waypoints| - 2]));
    var perp := Vertex(-direction.y, direction.x, 0.0);
    left := left + [Plus(finalPos, Halved(Times(perp, width)))];
    right := right + [Minus(finalPos, Halved(Times(perp, width)))];
    faces := RiverFaces(|left| - 1);
  }
}

=== FILE: strings.dfy ===
/** Python's str methods on ASCII text, as the asset tools use them. Characters
    outside ASCII are left alone by the case mappings here; Python would also
    map other cased letters. */
module Strings {

  /** str(n) for a non-negative int: its decimal digits, most significant first. */
  function DecimalString(n: nat): (s: string)
    ensures |s| >= 1
    ensures forall k :: 0 <= k < |s| ==> '0' <= s[k] <= '9'
  {
    var digit := ['0' + (n % 10) as char];
    if n < 10 then digit else DecimalString(n / 10) + digit
  }

  // ---------------------------------------------------------------------------
  // Case
  // ---------------------------------------------------------------------------

  predicate IsUpperChar(c: char) {
    'A' <= c <= 'Z'
  }

  predicate IsLowerChar(c: char) {
    'a' <= c <= 'z'
  }

  /** A letter that has an upper and a lower case. */
  predicate IsCased(c: char) {
    IsUpperChar(c) || IsLowerChar(c)
  }

  function UpperChar(c: char): (u: char)
    ensures !IsLowerChar(u)
    ensures IsCased(u) <==> IsCased(c)
    ensures LowerChar(u) == LowerChar(c)
  {
    if IsLowerChar(c) then c - 'a' + 'A' else c
  }

  function LowerChar(c: char): (l: char)
    ensures !IsUpperChar(l)
    ensures IsCased(l) <==> IsCased(c)
    ensures !IsUpperChar(c) ==> l == c
  {
    if IsUpperChar(c) then c - 'A' + 'a' else c
  }

  /** str.lower(). */
  function Lower(s: string): (r: string)
    ensures |r| == |s|
    ensures forall i :: 0 <= i < |s| ==> r[i] == LowerChar(s[i])
  {
    seq(|s|, i requires 0 <= i < |s| => LowerChar(s[i]))
  }

  /** No upper-case letter in s. */
  predicate NoUpper(s: string) {
    forall i :: 0 <= i < |s| ==> !IsUpperChar(s[i])
  }

  /** str.islower(): at least one cased character and no upper-case one. */
  predicate IsLower(s: string) {
    (exists i :: 0 <= i < |s| && IsLowerChar(s[i])) && NoUpper(s)
  }

  /** str.capitalize(): the first character upper-cased, the rest lower-cased. */
  function Capitalize(s: string): (r: string)
    ensures |r| == |s|
    ensures |s| > 0 ==> r[0] == UpperChar(s[0])
    ensures forall i :: 0 < i < |s| ==> r[i] == LowerChar(s[i])
  {
    if |s| == 0 then "" else [UpperChar(s[0])] + Lower(s[1..])
  }

  /** str.title(): a cased character is upper-cased when the character before
      it is not cased (or it comes first), and lower-cased otherwise. */
  function Title(s: string): (r: string)
    ensures |r| == |s|
    ensures forall i :: 0 <= i < |s| ==> r[i] == TitleChar(s, i)
  {
    seq(|s|, i requires 0 <= i < |s| => TitleChar(s, i))
  }

  /** Character i of str.title(). */
  function TitleChar(s: string, i: nat): char
    requires i < |s|
  {
    if i == 0 || !IsCased(s[i - 1]) then UpperChar(s[i]) else LowerChar(s[i])
  }

  /** Lower-casing forgets what capitalising did. */
  lemma LowerCapitalize(s: string)
    ensures Lower(Capitalize(s)) == Lower(s)
  {
  }

  // ---------------------------------------------------------------------------
  // Affixes, search and replacement
  // ---------------------------------------------------------------------------

  predicate StartsWith(s: string, prefix: string) {
    |prefix| <= |s| && s[..|prefix|] == prefix
  }

  lemma StartsWithConcat(prefix: string, rest: string)
    ensures StartsWith(prefix + rest, prefix)
  {
    assert (prefix + rest)[..|prefix|] == prefix;
  }

  predicate EndsWith(s: string, suffix: string) {
    |suffix| <= |s| && s[|s| - |suffix|..] == suffix
  }

  /** `pat in s` for two strings: pat occurs somewhere in s. */
  predicate HasInfix(s: string, pat: string) {
    exists i :: 0 <= i <= |s| && StartsWith(s[i..], pat)
  }

  /** str.rfind(c): the last index holding c, or -1. */
  function RFind(s: string, c: char): (i: int)
    ensures -1 <= i < |s|
    ensures i >= 0 ==> s[i] == c
    ensures forall j :: i < j < |s| ==> s[j] != c
  {
    if |s| == 0 then -1
    else if s[|s| - 1] == c then |s| - 1
    else RFind(s[..|s| - 1], c)
  }

  /** str.replace(pat, rep): every non-overlapping occurrence of pat, scanning
      from the left, replaced by rep. */
  function ReplaceAll(s: string, pat: string, rep: string): string
    requires |pat| > 0
    decreases |s|
  {
    if |s| < |pat| then s
    else if s[..|pat|] == pat then rep + ReplaceAll(s[|pat|..], pat, rep)
    else [s[0]] + ReplaceAll(s[1..], pat, rep)
  }

  /** Replacing a single character by a different string that does not
      contain it leaves none of it, and keeps every other character. */
  lemma {:induction false} ReplaceCharGone(s: string, c: char, rep: string)
    requires c !in rep
    ensures c !in ReplaceAll(s, [c], rep)
    ensures forall d :: d in ReplaceAll(s, [c], rep) ==> d in s || d in rep
    decreases |s|
  {
    if |s| >= 1 {
      ReplaceCharGone(s[1..], c, rep);
      if s[..1] != [c] {
        assert s[0] != c;
      }
    }
  }

  /** Every c replaced by d, character by character. */
  function SwapChar(s: string, c: char, d: char): (r: string)
    ensures |r| == |s|
    ensures forall i :: 0 <= i < |s| ==> r[i] == (if s[i] == c then d else s[i])
  {
    seq(|s|, i requires 0 <= i < |s| => if s[i] == c then d else s[i])
  }

  /** Replacing a single character by a single character swaps it in place. */
  lemma {:induction false} ReplaceAllSwaps(s: string, c: char, d: char)
    ensures ReplaceAll(s, [c], [d]) == SwapChar(s, c, d)
    decreases |s|
  {
    if |s| > 0 {
      ReplaceAllSwaps(s[1..], c, d);
      assert SwapChar(s, c, d) == SwapChar(s[..1], c, d) + SwapChar(s[1..], c, d);
    }
  }

  /** Replacing a single character by nothing drops it. */
  lemma {:induction false} ReplaceAllDrops(s: string, c: char)
    ensures ReplaceAll(s, [c], "") == Without(s, c)
    decreases |s|
  {
    if |s| > 0 {
      ReplaceAllDrops(s[1..], c);
      if s[..1] != [c] {
        assert s[0] != c;
      }
    }
  }

  /** Lower-casing forgets what title-casing did. */
  lemma LowerTitle(s: string)
    ensures Lower(Title(s)) == Lower(s)
  {
  }

  /** Dropping a character without case commutes with lower-casing. */
  lemma {:induction false} LowerWithout(s: string, c: char)
    requires !IsCased(c)
    ensures Lower(Without(s, c)) == Without(Lower(s), c)
    decreases |s|
  {
    if |s| > 0 {
      LowerWithout(s[1..], c);
      assert Lower(s) == [LowerChar(s[0])] + Lower(s[1..]);
      LowerAppend((if s[0] == c then "" else [s[0]]), Without(s[1..], c));
    }
  }

  /** Lower-casing distributes over concatenation. */
  lemma LowerAppend(a: string, b: string)
    ensures Lower(a + b) == Lower(a) + Lower(b)
  {
  }

  /** Swapping characters without case commutes with lower-casing. */
  lemma LowerSwap(s: string, c: char, d: char)
    requires !IsCased(c) && !IsCased(d)
    ensures Lower(SwapChar(s, c, d)) == SwapChar(Lower(s), c, d)
  {
  }

  /** Swapping c for d and then dropping d drops both. */
  lemma {:induction false} WithoutSwap(s: string, c: char, d: char)
    ensures Without(SwapChar(s, c, d), d) == Without(Without(s, c), d)
    decreases |s|
  {
    if |s| > 0 {
      WithoutSwap(s[1..], c, d);
      assert SwapChar(s, c, d) == [if s[0] == c then d else s[0]] + SwapChar(s[1..], c, d);
      assert Without(s, c) == (if s[0] == c then "" else [s[0]]) + Without(s[1..], c);
      WithoutAppend((if s[0] == c then "" else [s[0]]), Without(s[1..], c), d);
    }
  }

  /** Dropping a character distributes over concatenation. */
  lemma {:induction false} WithoutAppend(a: string, b: string, c: char)
    ensures Without(a + b, c) == Without(a, c) + Without(b, c)
    decreases |a|
  {
    if |a| > 0 {
      WithoutAppend(a[1..], b, c);
      assert (a + b)[1..] == a[1..] + b;
    } else {
      assert a + b == b;
    }
  }

  /** A character without case survives lower-casing. */
  lemma UncasedKept(s: string, c: char)
    requires !IsCased(c) && c in s
    ensures c in Lower(s)
  {
    var i :| 0 <= i < |s| && s[i] == c;
    assert Lower(s)[i] == c;
  }

  /** A text made of lower-case letters only. */
  predicate AllLowerLetters(w: string) {
    forall i :: 0 <= i < |w| ==> IsLowerChar(w[i])
  }

  /** An uncased character separates words for title-casing: each side is
      title-cased on its own. */
  lemma TitleAround(a: string, c: char, b: string)
    requires !IsCased(c)
    ensures Title(a + [c] + b) == Title(a) + [c] + Title(b)
  {
    var s := a + [c] + b;
    var r := Title(a) + [c] + Title(b);
    forall i | 0 <= i < |s| ensures Title(s)[i] == r[i] {
      if i < |a| {
        assert s[i] == a[i];
        if i > 0 { assert s[i - 1] == a[i - 1]; }
      } else if i == |a| {
        assert s[i] == c;
      } else {
        var j := i - |a| - 1;
        assert s[i] == b[j];
        if j > 0 { assert s[i - 1] == b[j - 1]; } else { assert s[i - 1] == c; }
      }
    }
  }

  /** A word of lower-case letters is title-cased by capitalising it. */
  lemma TitleLowerWord(w: string)
    requires AllLowerLetters(w)
    ensures Title(w) == Capitalize(w)
  {
    forall i | 0 < i < |w| ensures TitleChar(w, i) == LowerChar(w[i]) {
      assert IsCased(w[i - 1]);
    }
  }

  /** A word of lower-case letters only changes its first letter when capitalised. */
  lemma CapitalizeLowerWord(w: string)
    requires |w| > 0 && AllLowerLetters(w)
    ensures Capitalize(w) == [UpperChar(w[0])] + w[1..]
  {
    forall i | 0 <= i < |w| - 1 ensures Lower(w[1..])[i] == w[1..][i] {
      assert IsLowerChar(w[i + 1]);
    }
  }

  /** Text before the first character of the pattern is left alone. */
  lemma {:induction false} ReplaceAllAfter(a: string, t: string, pat: string, rep: string)
    requires |pat| > 0 && pat[0] !in a
    ensures ReplaceAll(a + t, pat, rep) == a + ReplaceAll(t, pat, rep)
    decreases |a|
  {
    if |a| > 0 {
      assert a[0] in a;
      assert (a + t)[1..] == a[1..] + t;
      ReplaceAllAfter(a[1..], t, pat, rep);
      if |a + t| >= |pat| {
        assert (a + t)[..|pat|][0] == a[0];
      } else {
        assert |t| < |pat|;
      }
    } else {
      assert a + t == t;
    }
  }

  /** Without c, dropping c changes nothing. */
  lemma {:induction false} WithoutAbsent(s: string, c: char)
    requires c !in s
    ensures Without(s, c) == s
    decreases |s|
  {
    if |s| > 0 {
      assert s[0] in s;
      WithoutAbsent(s[1..], c);
    }
  }

  // ---------------------------------------------------------------------------
  // Splitting and joining
  // ---------------------------------------------------------------------------

  /** str.split(sep) for a one-character separator: the pieces between the
      separators, empty ones included; never an empty list. */
  function Split(s: string, sep: char): (parts: seq<string>)
    ensures |parts| >= 1
    decreases |s|
  {
    if |s| == 0 then [""]
    else
      var rest := Split(s[1..], sep);
      if s[0] == sep then [""] + rest else [[s[0]] + rest[0]] + rest[1..]
  }

  /** A first piece without the separator goes to the front of the first part. */
  lemma {:induction false} SplitPrefix(a: string, b: string, sep: char)
    requires sep !in a
    ensures Split(a + b, sep) == [a + Split(b, sep)[0]] + Split(b, sep)[1..]
    decreases |a|
  {
    if |a| > 0 {
      assert (a + b)[1..] == a[1..] + b;
      assert a[0] in a;
      SplitPrefix(a[1..], b, sep);
      var rest := Split(a[1..] + b, sep);
      assert rest[0] == a[1..] + Split(b, sep)[0];
      assert rest[1..] == Split(b, sep)[1..];
      assert [a[0]] + (a[1..] + Split(b, sep)[0]) == a + Split(b, sep)[0];
      assert (a + b)[0] == a[0];
      assert Split(a + b, sep) == [[a[0]] + rest[0]] + rest[1..];
    } else {
      assert a + b == b;
      assert a + Split(b, sep)[0] == Split(b, sep)[0];
      assert Split(b, sep) == [Split(b, sep)[0]] + Split(b, sep)[1..];
    }
  }

  /** A text holding the separator splits into at least two pieces. */
  lemma {:induction false} SplitAtSeparator(s: string, sep: char)
    requires sep in s
    ensures |Split(s, sep)| >= 2
    decreases |s|
  {
    if s[0] != sep {
      assert s == [s[0]] + s[1..];
      SplitAtSeparator(s[1..], sep);
    }
  }

  /** sep.join(parts). */
  function Join(parts: seq<string>, sep: string): string {
    if |parts| == 0 then ""
    else if |parts| == 1 then parts[0]
    else parts[0] + sep + Join(parts[1..], sep)
  }

  /** No piece of a split contains the separator, and joining the pieces with
      it gives the text back. */
  lemma {:induction false} SplitJoin(s: string, sep: char)
    ensures forall p :: p in Split(s, sep) ==> sep !in p
    ensures Join(Split(s, sep), [sep]) == s
    decreases |s|
  {
    if |s| > 0 {
      SplitJoin(s[1..], sep);
      var rest := Split(s[1..], sep);
      if s[0] == sep {
        assert Split(s, sep) == [""] + rest;
        assert Join([""] + rest, [sep]) == [sep] + Join(rest, [sep]);
      } else {
        assert rest[0] in rest;
        forall p | p in rest[1..] ensures p in rest { }
        var parts := Split(s, sep);
        assert parts == [[s[0]] + rest[0]] + rest[1..];
        if |rest| == 1 {
          assert Join(parts, [sep]) == [s[0]] + rest[0];
        } else {
          assert rest == [rest[0]] + rest[1..];
          assert Join(rest, [sep]) == rest[0] + [sep] + Join(rest[1..], [sep]);
          assert Join(parts, [sep]) == [s[0]] + rest[0] + [sep] + Join(rest[1..], [sep]);
        }
      }
    }
  }

  /** The split of a text without the separator is the text alone. */
  lemma {:induction false} SplitWithout(s: string, sep: char)
    requires sep !in s
    ensures Split(s, sep) == [s]
    decreases |s|
  {
    if |s| > 0 {
      SplitWithout(s[1..], sep);
      assert [s[0]] + s[1..] == s;
    }
  }

  /** The pieces of a split, glued together without separators. */
  function Concat(parts: seq<string>): string {
    if |parts| == 0 then "" else parts[0] + Concat(parts[1..])
  }

  /** The text with every occurrence of c dropped. */
  function Without(s: string, c: char): (r: string)
    ensures c !in r
  {
    if |s| == 0 then "" else (if s[0] == c then "" else [s[0]]) + Without(s[1..], c)
  }

  /** Gluing the pieces of a split together drops exactly the separators. */
  lemma {:induction false} ConcatSplit(s: string, sep: char)
    ensures Concat(Split(s, sep)) == Without(s, sep)
    decreases |s|
  {
    if |s| > 0 {
      ConcatSplit(s[1..], sep);
      var rest := Split(s[1..], sep);
      if s[0] != sep {
        assert rest == [rest[0]] + rest[1..];
        assert Concat(rest) == rest[0] + Concat(rest[1..]);
      }
    }
  }
}

=== FILE: wrappers.dfy ===
/** Optional values: Python's None versus a present value. */
module Wrappers {
  datatype Option<T> = None | Some(value: T)
}
